=== FILE: README.md ===
# Ticket triage, modelled in Dafny

This project models the core of a customer-support ticket-triage service.
A ticket enters a LangGraph workflow. The workflow records the ticket, extracts an order id, and classifies the
issue by keyword. It looks up the order, retrieves and ranks the company policies that apply, and drafts a reply
from a template. REPLY drafts stop before an admin-review node. They resume once an administrator's verdict has
been patched into the state. The model also covers:

- the legacy table-driven HTTP endpoints;
- the policy-indexing helpers;
- the line-based chunker of the knowledge-base script.

Everything is modelled functionally: immutable records, `Option`/`Result` for absent values and raised errors,
and pure functions. Tables the service reads from disk are parameters: issue rules, reply templates, orders,
directory listings and file contents. The same holds for the answers of the collaborators it calls: the vector
store, the language model, and steps whose code is not part of this model.

| module (file) | models |
|---|---|
| `Wrappers` (wrappers.dfy) | `Option`, `Result`, `Slot` (absent / `None` / value), Python truthiness |
| `Schema` (schema.dfy) | app/schema.py: the three string enums and their parsers, request records and their defaults |
| `RagConfig` (config.dfy) | app/rag/config.py: `TOP_K`, `FRAUD_THRESHOLD`, the policy/issue tables and their consistency |
| `TriageState` (state.dfy) | app/graph/state.py: the eleven declared channels, partial updates, and the merge rule (`messages` appends, every other channel is last-writer-wins) |
| `OrderTools` (tools.dfy) | app/graph/tools.py: the order table and `fetch_order` |
| `Strings` (strings.dfy) | the `str` operations the core uses: `lower`, `in`, `replace`, `split`, `join`, `strip`, `splitlines`, `capitalize`, ordering and `sorted(set(...))` |
| `OrderIdPattern` (order_id.dfy) | the `ORD\d{4}` search, with and without `\b` |
| `Nodes` (nodes.dfy) | app/graph/nodes.py: `ingest`, `classify_issue`, `fetch_order_node`, `draft_reply`, `admin_review`, `final_response` |
| `Workflow` (workflow.dfy) | app/graph/workflow.py: nodes, routers, the edge table, and a fuel-bounded walk with an interrupt set; resume after a patch |
| `Api` (api.dfy) | app/main.py: order get/search, legacy classification and reply, the legacy endpoint, per-turn state, the admin-review endpoint, and the response |
| `Retriever` (retriever.dfy) | app/rag/retriever.py: normalisation, dedupe by source, the fraud rule, ranking, and rerank-index sanitising |
| `RagNodes` (rag_nodes.dfy) | app/rag/rag_nodes.py: first rule line, `kb_orchestrator`, `policy_evaluator` |
| `Indexer` (indexer.dfy) | app/rag/indexer.py: titles, issue metadata, `load_policy_documents`, `upsert_policy_document` |
| `KbChunk` (kb_chunk.dfy) | p2-umber-abbey-main/scripts/kb_index.py: `chunk`, chunk ids, and the index entries |

Modelling choices:

- **Characters are ASCII.** `\d` is `[0-9]`, `\w` is `[A-Za-z0-9_]`, and `lower`/`upper` map only `A-Z`/`a-z`.
  `isspace` is the ASCII whitespace set. Line breaks are the full set `str.splitlines` recognises.
- **All declared channels are present.** The service and its tests always supply all eleven channels. So
  `state.get(key, default)` on a declared key yields the stored value, `None` included.
  - `route_path`, `draft_scenario`, `suggested_action` and `policy_citations` are read by the routers and the
    retrieval nodes, but they are not declared channels.
  - The walk is therefore generic in the state type. A graph supplies a view of the three keys the routers read,
    and a step per node.
  - `Workflow.DeclaredView` is that view over the declared state.
- **The code wins over the documentation.**
  - `compile_graph`'s docstring names `["admin_review"]` as the default interrupt list, but the code uses `[]`
    (app/graph/workflow.py:241-242). `Workflow.CompileInterrupts` follows the code.
  - The admin endpoint's docstring mentions a "request changes" action. `ReviewStatus` has no such member, so
    `Schema.ParseReviewStatus` rejects it.
- **`review_status` is optional.** It is annotated as a plain `ReviewStatus`, but every turn stores `None` in it
  (app/main.py:113), so it is an `Option`.

## Model

| member | source | states |
|---|---|---|
| Schema.ParseReviewStatus | app/schema.py:10-14 | exactly "pending", "approved" and "rejected" are accepted, each as the member that renders back to it; every other string is rejected |
| Schema.ParseDraftScenario | app/schema.py:17-23 | exactly the five scenario values are accepted, each as the member that renders back to it |
| Schema.ParseRoutePath | app/schema.py:26-31 | exactly "full", "reclassify", "resolve" and "draft" are accepted, each as the member that renders back to it |
| Schema.OptionalField | app/schema.py:63-64 | an optional field is `None` exactly when it is absent or null, and otherwise carries the given value |
| Schema.MakeReviewAction | app/schema.py:34-37 | a missing status is a missing-field error; validation succeeds exactly when the status parses; the status renders back to the input; feedback is `None` exactly when not given and otherwise the given text |
| Schema.MakeTriageInput | app/schema.py:60-64 | only `ticket_text` is required; `order_id` and `thread_id` are `None` exactly when not given and otherwise keep the given values |
| Schema.MakeOrder | app/schema.py:47-57 | `delivery_date` defaults to `None` and `currency` to "USD"; a given currency, the id, the items and the total are kept |
| Schema.EmptyTriageOutput | app/schema.py:67-82 | an output built from a thread id alone has no messages and no order, issue, status or candidates |
| RagConfig.PolicyIssueTypes | app/rag/config.py:16-23 | an unmapped file has no issue types, and every mapped issue type is a known one |
| RagConfig.FraudEligibleAreKnown | app/rag/config.py:25-35 | the fraud-eligible issues are known issue types |
| RagConfig.MappedIssuesAreKnown | app/rag/config.py:16-33 | every issue type any policy file lists is known |
| RagConfig.FraudPolicyHasNoIssueType | app/rag/config.py:22 | the fraud policy is mapped, to no issue type |
| RagConfig.NoIssueInTwoPolicies | app/rag/config.py:16-23 | no issue type is listed by two different policy files |
| TriageState.Merge | app/graph/state.py:30-40 | the merged history is the old history followed by the update's messages |
| TriageState.MergeThen | app/graph/state.py:30-40 | merging two updates in turn equals merging their composition (later writes win, messages concatenate) |
| TriageState.MergeNoWrites | app/graph/state.py:30-40 | an update that writes nothing leaves the state unchanged |
| TriageState.MergeIdempotentWithoutMessages | app/graph/state.py:31-40 | an update without messages has no further effect when applied twice |
| TriageState.MergeAllKeepsHistory | app/graph/state.py:30 | any sequence of updates keeps the old history as a prefix, so it never shrinks |
| OrderTools.LoadOrders | app/graph/tools.py:12-15 | loading replaces the table by exactly the loaded list |
| OrderTools.FirstOrderIndex | app/graph/tools.py:29-31 | the index found is the first order with that exact id, or the table length when none has it |
| OrderTools.FetchOrder | app/graph/tools.py:18-32 | `None` exactly when no order has the id; otherwise some order with that id and none before it |
| OrderTools.LookupBeforeLoadMisses | app/graph/tools.py:9 | before any load every lookup returns `None` |
| OrderTools.LoadReplacesTable | app/graph/tools.py:12-15 | after a load, an order of the previous table whose id is not in the new data is no longer found |
| Strings.LowerHasNoUpper | app/graph/nodes.py:69 | a lower-cased text holds no upper-case letter |
| Strings.Take | app/rag/rag_nodes.py:36 | `s[:n]` is the prefix of length `min(n, len(s))` |
| Strings.ReplaceIsJoinOfSplit | app/graph/nodes.py:163-167 | `replace` agrees with Python's identity `s.replace(t, r) == r.join(s.split(t))` |
| Strings.JoinSplitRoundTrip | app/graph/nodes.py:163-167 | splitting on a separator and re-joining with it gives the text back |
| Strings.ReplaceOneChar | app/rag/indexer.py:21 | replacing one character by another is a position-by-position substitution |
| Strings.ReplaceCharRemovesIt | app/rag/indexer.py:21 | after replacing a character by a different one, none of it remains |
| Strings.RemoveSuffix | app/rag/indexer.py:21 | removing ".md" from `stem + ".md"` gives the stem back when the stem holds no dot |
| Strings.Strip | app/rag/rag_nodes.py:30 | a stripped text neither starts nor ends with whitespace, and is empty exactly when the input is blank |
| Strings.StripIdempotent | app/rag/rag_nodes.py:30 | stripping twice is stripping once |
| Strings.SplitLines | app/rag/rag_nodes.py:29 | the lines `splitlines()` yields contain no line break |
| Strings.SplitLinesKeepEndsConcat | p2-umber-abbey-main/scripts/kb_index.py:5 | `splitlines(True)` loses nothing: its lines concatenate to the text |
| Strings.WordsAreWords | app/rag/indexer.py:22 | every piece of `split()` is a non-empty run without whitespace |
| Strings.WordsOfJoin | app/rag/indexer.py:22 | for words, `" ".join(ws).split() == ws` |
| Strings.DecimalRoundTrip | p2-umber-abbey-main/scripts/kb_index.py:16 | reading back the decimal rendering of a natural number gives the number |
| Strings.DecimalInjective | p2-umber-abbey-main/scripts/kb_index.py:16 | distinct numbers render differently |
| Strings.LexLessIrreflexive | app/rag/indexer.py:69 | string order is irreflexive |
| Strings.LexLessTransitive | app/rag/indexer.py:69 | string order is transitive |
| Strings.LexLessTotal | app/rag/indexer.py:69 | any two distinct strings are ordered one way or the other |
| Strings.InsertSorted | app/rag/rag_nodes.py:165 | inserting into a strictly sorted sequence keeps it strictly sorted and adds exactly the new element |
| Strings.SortedDistinct | app/rag/rag_nodes.py:165 | `sorted(set(xs))` is strictly increasing and holds exactly the elements of `xs` |
| OrderIdPattern.SearchFrom | app/graph/nodes.py:38 | the leftmost match at or after the start position, or none when there is no match |
| OrderIdPattern.ExtractOrderId | app/graph/nodes.py:36-40 | `None` exactly when the text holds no match; otherwise the upper-cased first match: "ORD" and four digits |
| OrderIdPattern.BoundedImpliesUnbounded | app/main.py:230-231 | whenever the graph's bounded pattern finds an id, the legacy unbounded pattern finds one too |
| OrderIdPattern.ParenthesisedIdIsFound | app/graph/nodes.py:38 | "(ORD1002)" yields ORD1002: punctuation is a word boundary |
| OrderIdPattern.LowerCaseIdIsUpperCased | app/graph/nodes.py:38-40 | "ord1001" yields ORD1001 |
| OrderIdPattern.FiveDigitsDifferByBoundary | app/graph/nodes.py:38 | "ORD12345" yields nothing with word boundaries, and ORD1234 without them |
| Nodes.Ingest | app/graph/nodes.py:15-49 | one human message holding the ticket; sender "ingest"; a set order id is kept; otherwise the first bounded match is used; no match keeps the stored id; nothing else is written |
| Nodes.IngestMerged | app/graph/nodes.py:36-49 | after the merge the history grows by the ticket, and a truthy order id is never replaced |
| Nodes.FirstMatchingRule | app/graph/nodes.py:79-83 | the first rule, in table order, whose keyword occurs in the text |
| Nodes.ClassifyText | app/graph/nodes.py:69-83 | "unknown" when no keyword occurs in the lower-cased text, else the issue type of the first rule whose keyword occurs |
| Nodes.UpperCaseKeywordNeverMatches | app/graph/nodes.py:69-81 | a keyword holding an upper-case letter can never match |
| Nodes.ClassifyIssue | app/graph/nodes.py:52-88 | writes only the classified issue type and the sender |
| Nodes.FetchOrderNode | app/graph/nodes.py:91-118 | without an order id the details are `None`; otherwise they are the lookup result; only details and sender are written |
| Nodes.FetchWithoutIdIgnoresTable | app/graph/nodes.py:106-110 | without an order id the order table is not consulted |
| Nodes.FirstReplyIndex | app/graph/nodes.py:151-155 | the first template rule for the issue type; a missing issue type matches none |
| Nodes.SelectTemplate | app/graph/nodes.py:150-159 | the fallback when there is no issue type or no rule for it; otherwise the first rule's template, unless that is empty |
| Nodes.FillTemplate | app/graph/nodes.py:162-167 | every occurrence of the name placeholder, then of the id placeholder, is replaced, as split-and-join |
| Nodes.ReplaceAbsentIsIdentity | app/graph/nodes.py:163-167 | a template without a placeholder is used verbatim |
| Nodes.Evidence | app/graph/nodes.py:173-175 | the evidence names the stored order id and the issue type, and ends with the order's status exactly when there are order details |
| Nodes.Recommendation | app/graph/nodes.py:178 | the recommendation names the issue type first and the stored order id last |
| Nodes.DraftUpdate | app/graph/nodes.py:183-191 | the draft is the one new AI message and the stored draft; the review is set to PENDING; evidence, recommendation and sender are written; ticket, ids, details and admin feedback are left alone |
| Nodes.DraftReply | app/graph/nodes.py:121-191 | as written: fails exactly when there are neither order details nor an order id; otherwise one AI message equal to the draft, with the review PENDING, the evidence and recommendation written and the ticket, ids, details and feedback untouched; the draft is the selected template filled with the details' customer name and order id, or, without details, with "Customer" and the stored order id, followed by the admin note |
| Nodes.DraftReplyDefaulted | app/graph/nodes.py:162-167 | never fails; agrees with the as-written node wherever that succeeds; without details it fills "Customer" and the stored order id, or "" when there is none |
| Nodes.DraftReplyFailsWithoutOrderId | app/graph/nodes.py:167 | a first turn with no order id and no details makes the as-written node raise |
| Nodes.DraftReplyMerged | app/graph/nodes.py:184-191 | after a draft the review is pending, the history grows by exactly the draft, and order id, issue type and details are unchanged |
| Nodes.WithAdminNote | app/graph/nodes.py:169-171 | the draft is kept as the prefix; non-empty feedback adds exactly the admin note at the end, and otherwise nothing is added |
| Nodes.AdminReview | app/graph/nodes.py:194-216 | merging it changes only the sender |
| Nodes.FinalResponse | app/graph/nodes.py:219-246 | merging it appends one assistant message "[APPROVED] " + draft and sets the sender, nothing else |
| Workflow.NodeNamesAreDistinct | app/graph/workflow.py:168-176 | distinct nodes are registered under distinct names |
| Workflow.PathMapsAreNameFaithful | app/graph/workflow.py:182-215 | every path-map key names the node it maps to |
| Workflow.RouteAfterIngest | app/graph/workflow.py:35-57 | a key of the ingest path map: classify for FULL, RECLASSIFY or a missing path; resolve for RESOLVE; draft for DRAFT or a stored `None` (iff in each case) |
| Workflow.RouteAfterDraft | app/graph/workflow.py:60-89 | finalize iff REPLY with APPROVED or REJECTED; review iff REPLY with any other status; end iff not REPLY |
| Workflow.RouteToRag | app/graph/workflow.py:92-102 | retrieval iff the scenario is REPLY, else the draft |
| Workflow.RouteAfterAdminReview | app/graph/workflow.py:105-120 | the label is a key of a path map |
| Workflow.AdminReviewRouterMatchesEdge | app/graph/workflow.py:105-120 | the unused router names the same node as the plain edge out of review |
| Workflow.EdgeTableIsNext | app/graph/workflow.py:179-221 | routing through the routers' labels and the path maps picks the same successor as the walk's `Next` |
| Workflow.StaticEdgesIgnoreState | app/graph/workflow.py:193-221 | the plain edges do not depend on the state: classify→resolve→prepare, retrieval→evaluator→draft, finalize→end |
| Workflow.OnlyDraftLeadsToAdminReview | app/graph/workflow.py:206-215 | review is the successor iff the node is the draft, the scenario is REPLY, and no verdict is recorded |
| Workflow.NoSelfLoops | app/graph/workflow.py:179-221 | no node other than the end marker is its own successor |
| Workflow.CompileInterrupts | app/graph/workflow.py:240-247 | no interrupt list means no interrupts; a given list is used as is |
| Workflow.Run | app/graph/workflow.py:244-247 | a run takes at most `fuel` steps, starts with its start node, never runs the end marker, and finishes at once at the end |
| Workflow.Invoke | app/graph/workflow.py:244-247 | an interrupted start node suspends before anything runs; otherwise the run starts at ingest |
| Workflow.Resume | app/main.py:185-186 | a suspended run continues with its pending node on the patched state; any other run only stores the patch |
| Workflow.RunThrough | app/graph/workflow.py:179-221 | a node whose successor is not interrupted runs, then hands over to its successor |
| Workflow.RunSkipsInterrupts | app/graph/workflow.py:244-247 | after the first node, a run never runs an interrupted node |
| Workflow.RunSuspendsByRoute | app/graph/workflow.py:244-247 | a suspended run waits on an interrupted node, and that node is the routed successor of the last node it ran |
| Workflow.RunFinishesByRoute | app/graph/workflow.py:206-221 | a run that finishes after running nodes does so because its last node routes to the end |
| Workflow.NoInterruptsNeverSuspend | app/graph/workflow.py:241-242 | with no interrupt list a run never suspends |
| Workflow.HitlSuspendsOnlyAfterPendingDraft | app/graph/workflow.py:76-89 | under the service's interrupt set, a run stops only right after a REPLY draft without a verdict, and never runs review past its first node |
| Workflow.ResumeWithVerdictFinalizes | app/graph/workflow.py:149-159 | resuming at review after APPROVED or REJECTED runs review, the draft and finalize, then ends |
| Workflow.ResumeWithPendingDraftSuspendsAgain | app/graph/workflow.py:149-151 | if the draft records PENDING again, a resumed REPLY run stops before review once more |
| Workflow.DeclaredView | app/graph/state.py:30-40 | over the declared state, the route path is always missing and the scenario always `None` |
| Workflow.DeclaredRoutes | app/graph/workflow.py:50-102 | over the declared state, ingest goes to classification, the action to the draft, and the draft to the end |
| Workflow.DeclaredDraftEnds | app/graph/workflow.py:76-89 | over the declared state the draft is the last node run |
| Workflow.DeclaredActionThenDraft | app/graph/workflow.py:98-102 | over the declared state the action goes straight to the draft, skipping retrieval |
| Workflow.DeclaredStateSkipsReview | app/graph/workflow.py:179-221 | over the declared state every run is ingest, classify, resolve, action, draft, and then ends: review is never reached; the final state is those five nodes' effects applied in that order |
| Api.OrdersGet | app/main.py:44-48 | 404 exactly when no order has the id; otherwise the first order with it |
| Api.OrdersGetAgreesWithFetchOrder | app/main.py:44-48 | the endpoint and the graph's lookup tool find the same order |
| Api.OrdersSearch | app/main.py:50-58 | exactly the matching orders, never more often than the table holds them; nothing without an e-mail or a query |
| Api.OrdersSearchAppend | app/main.py:52-58 | searching a concatenated table is searching each part in turn, so table order is kept |
| Api.ClassifyLegacy | app/main.py:60-66 | the graph's first-match issue type; confidence 0.85 iff some keyword matches, and 0.1 iff none does |
| Api.RenderReply | app/main.py:68-71 | the selected template (shorter fallback) filled from the order, or "Customer" and "" without one |
| Api.RenderReplyMatchesDraft | app/main.py:68-71 | with a non-empty template for the issue type, the legacy reply equals the graph's draft without the admin note |
| Api.DraftWithoutNote | app/graph/nodes.py:162-171 | with order details and no admin feedback, the draft is the filled template |
| Api.SameFirstTemplate | app/main.py:69-70 | a non-empty first template makes the choice of fallback irrelevant |
| Api.LegacyOrderId | app/main.py:227-231 | a truthy given id wins; otherwise the first unbounded match; a found id is never empty |
| Api.TriageLegacy | app/main.py:224-237 | 400 iff there is neither a given id nor a match; 404 iff the id is not in the table; success iff there is an id and some order carries it; then the first such order, the classified issue and the rendered reply |
| Api.LegacyAndGraphDisagreeOnFiveDigits | app/main.py:230 | on "ORD12345" the legacy endpoint takes ORD1234 while the graph finds no id |
| Wrappers.OrElse | app/main.py:95 | `x or default`: a non-empty given value (thread id here, policies directory at app/rag/indexer.py:64) wins, otherwise the default; a non-empty default makes a non-empty result |
| Api.TurnInput | app/main.py:101-116 | every turn writes the ticket and the given order id, sets every other declared channel (issue, details, evidence, recommendation, draft, review, feedback, sender) to `None`, and adds no message |
| Api.TurnKeepsOnlyHistory | app/main.py:101-116 | two prior states with the same history give the same state once the turn input is merged, with the history unchanged |
| Api.LastState | app/main.py:97-98 | a thread's checkpoint is the state its stored run ended in; an unknown thread starts empty |
| Api.TriageTurn | app/main.py:94-120 | the turn runs on the chosen thread of the same store `/admin/review` resumes from: the graph is invoked on the thread's stored history with the request's ticket and order id and every other channel `None`, and starts at ingest |
| Api.TriageTurnStartsFresh | app/main.py:101-120 | a turn depends only on the request and the thread's history |
| Api.TriageTurnReadsOnlyHistory | app/main.py:101-120 | two stores holding the same history for the thread give the same turn |
| Api.TriageTurnFinishes | app/main.py:120 | with enough steps every turn finishes after the draft, through intake, classification, order lookup and action |
| Api.ReviewPatch | app/main.py:177-183 | the patch sets exactly the verdict and the feedback |
| Api.AdminReviewTurn | app/main.py:157-186 | 400 iff the thread id is empty; success iff there is a stored run; the verdict and feedback are written into the stored state, and a suspended run resumes from its pending node on that state, while any other run just stores it |
| Api.AdminVerdictReachesReview | app/main.py:177-186 | a run waiting before review resumes with the admin's verdict and feedback written in, runs review and then the draft, and ends |
| Api.NodeEffect | app/graph/workflow.py:168-176 | inside the walk, intake adds the ticket as a human message and keeps the ticket and issue type; classification writes only the issue type and sender; the draft adds one AI message equal to the draft, leaves the review pending, keeps ids, issue type, details and feedback, and ends with the admin note when there is feedback; review changes only the sender; the nodes defined elsewhere are `rest` |
| Api.ServiceTurnClassifies | app/graph/workflow.py:168-221 | a turn over the nodes defined here finishes with the issue type the keyword rules give for the ticket, a pending review, and the draft as the last, AI, message, whenever order lookup and action leave the issue type alone |
| Api.ServiceReviewRedrafts | app/graph/nodes.py:169-191 | an admin's verdict on a run waiting for review stores the feedback, keeps issue type, order id and details, and adds exactly one message: a new draft, pending review again, ending with the feedback as an admin note |
| Api.EmptyThreadIgnoresStore | app/main.py:170-171 | an empty thread id is refused before any stored state is read |
| Api.MessageViews | app/main.py:123-128 | one entry per message, in order, with its role name and content |
| Api.SummarizeCandidates | app/main.py:130-137 | absent for no candidates; otherwise one entry per candidate with its id, status and first item's name (`None` without items) |
| Api.ToOutput | app/main.py:139-151 | the response copies the stored channels (order id, issue, draft, review status, evidence, recommendation), renders every message as its role name and content in order, and reports the undeclared channels as `None` |
| Retriever.CitationOf | app/rag/retriever.py:31-39 | metadata source and title are used when present, and the defaults otherwise |
| Retriever.NormalizeQueryResult | app/rag/retriever.py:22-40 | one citation per document of the first batch, in order; source and title are the metadata's, or "unknown" and "Unknown Policy" when missing; a missing distance scores 0 |
| Retriever.BareAnswerIsUnattributed | app/rag/retriever.py:23-36 | an answer without metadata or distances still yields every document, unattributed and scoring 0 |
| Retriever.DedupeBySourceCorrect | app/rag/retriever.py:43-49 | one citation per source; each the first with the highest score of its source; every source is represented; in first-appearance order |
| Retriever.DedupeBySourceShrinks | app/rag/retriever.py:43-49 | deduplication keeps only input citations and never grows the list |
| Retriever.AbsorbKeepsDedupe | app/rag/retriever.py:45-48 | one loop iteration keeps that characterisation |
| Retriever.AmountValue | app/rag/retriever.py:55-59 | a missing or null amount counts as 0; an unconvertible one has no value, and the caught error means no fraud policy; a number is itself |
| Retriever.NeedsFraudPolicy | app/rag/retriever.py:52-59 | true iff the issue is fraud-eligible and the amount converts to more than 80 |
| Retriever.FalsyAmountNeverNeedsFraud | app/rag/retriever.py:55 | falsy amounts never call for the fraud policy |
| Retriever.FraudOnlyForEligibleIssues | app/rag/retriever.py:53-54 | only refund, wrong-item and missing-item tickets can pull in the fraud policy |
| Retriever.InsertByScore | app/rag/retriever.py:111 | inserting into a descending list keeps it descending and adds exactly that citation |
| Retriever.InsertByScoreStable | app/rag/retriever.py:111 | the inserted citation comes after every earlier one of the same score |
| Retriever.SortByScoreDesc | app/rag/retriever.py:111 | the result is sorted by descending score and is a permutation of the input |
| Retriever.SortByScoreDescStable | app/rag/retriever.py:111 | citations of equal score keep their relative order |
| Retriever.WithoutSource | app/rag/retriever.py:109-110 | exactly the citations of other sources are kept |
| Retriever.KeepCount | app/rag/retriever.py:112 | the number kept is `max(top_k, 3)` |
| Retriever.RankTail | app/rag/retriever.py:108-112 | at most `max(top_k, 3)` citations, sorted descending, all from the input, and no fraud policy unless needed |
| Retriever.RankTailKeepsAllWhenFew | app/rag/retriever.py:111-112 | with no more candidates than places, the result is the candidates reordered |
| Retriever.RankTailKeepsTheBest | app/rag/retriever.py:111-112 | every citation cut off scores no more than every citation kept |
| Retriever.FraudCitation | app/rag/retriever.py:90-106 | raises iff needed with documents but no metadatas; otherwise at most one citation, defaulting to the fraud policy's source; none when not needed |
| Retriever.DistinctSourcesCountOnce | app/rag/retriever.py:43-49 | a list with one citation per source holds each citation at most once |
| Retriever.PermutationKeepsDistinctSources | app/rag/retriever.py:111 | reordering keeps one citation per source |
| Retriever.WithoutSourceKeepsDistinct | app/rag/retriever.py:109-110 | dropping one source keeps one citation per source |
| Retriever.RankTailKeepsDistinct | app/rag/retriever.py:109-112 | filtering, sorting and cutting keep one citation per source |
| Retriever.QueryPolicies | app/rag/retriever.py:62-112 | fails only through the fraud lookup; otherwise at most `max(top_k, 3)` citations, one per source, sorted descending, drawn from the three answers, with no fraud policy unless needed |
| Retriever.FirstEntryForIsFirst | app/rag/retriever.py:164-165 | the position found is the first ranking entry that names the index |
| Retriever.SanitizeIndexes | app/rag/retriever.py:162-167 | every kept index is in range and was not already used |
| Retriever.SanitizeIndexesDistinct | app/rag/retriever.py:163-167 | no index is kept twice |
| Retriever.SanitizeIndexesMentioned | app/rag/retriever.py:164-166 | every kept index is named by some entry |
| Retriever.SanitizeIndexesComplete | app/rag/retriever.py:164-167 | every valid index an entry names is kept |
| Retriever.SanitizeIndexesOrdered | app/rag/retriever.py:164-166 | kept indexes follow the order of their first mention |
| Retriever.PySliceTo | app/rag/retriever.py:160 | `results[:n]` is a prefix of the right length, negative `n` included |
| Retriever.RerankWithLlm | app/rag/retriever.py:115-170 | an empty list gives `[]`; a non-object answer raises; invalid JSON or no valid index keeps `results[:top_n]`; otherwise the named citations in ranking order, as many as `top_n` slicing leaves of the valid indexes; never a citation not in the input |
| Retriever.RerankEmptyIgnoresReply | app/rag/retriever.py:121-122 | for an empty list the model's answer is never consulted |
| Retriever.RerankReadsTrueAsOne | app/rag/retriever.py:165 | a boolean `true` passes the `int` check and selects the second citation |
| RagNodes.StrippedLines | app/rag/rag_nodes.py:29-30 | the lines of the text, each stripped, in order |
| RagNodes.FirstRuleIndex | app/rag/rag_nodes.py:29-35 | the first rule line at or after the start; none before it |
| RagNodes.FirstRuleLine | app/rag/rag_nodes.py:28-36 | the first non-blank, non-heading stripped line; when there is none, the first 160 characters of the stripped text |
| RagNodes.FirstRuleLineIsClean | app/rag/rag_nodes.py:30-35 | a found rule line is non-empty, is not a heading, and has no surrounding whitespace |
| RagNodes.HeadingsAreSkipped | app/rag/rag_nodes.py:29-35 | blank lines and headings before a rule line are skipped, and that rule line is cited |
| RagNodes.KbOrchestrator | app/rag/rag_nodes.py:54-90 | no citations for a non-REPLY scenario or a failed retrieval; at most `TOP_K`, sorted descending, with no fraud policy unless needed |
| RagNodes.KbOrchestratorIgnoresRerank | app/rag/rag_nodes.py:76-83 | the rerank branch is dead: the model's ranking never changes the result |
| RagNodes.FallbackPolicies | app/rag/rag_nodes.py:148-159 | one entry per citation, in order, with its source, title and first rule line, marked for review |
| RagNodes.SourceNames | app/rag/rag_nodes.py:165 | one name per entry; a missing source reads "unknown" |
| RagNodes.EnrichAction | app/rag/rag_nodes.py:167-171 | the action first, then exactly a blank line, the labelled evaluation, and the labelled policy names last, with nothing else in between |
| RagNodes.EvaluationOf | app/rag/rag_nodes.py:161-162 | never blank: a usable evaluation is kept, anything else becomes the default sentence |
| RagNodes.PolicyEvaluator | app/rag/rag_nodes.py:93-178 | no citations: the fixed message, no policies, action untouched. Otherwise it raises iff the answer is not an object or a kept non-empty list has a non-object entry or a non-text source, with the error the first failing entry gives; keeps a non-empty model list or falls back to one entry per citation; appends evaluation and names to the action |
| RagNodes.EntriesErrorNoneIff | app/rag/rag_nodes.py:163-166 | collecting the cited sources raises nothing exactly when every entry is an object with a text or missing source |
| RagNodes.EntriesErrorAttributeIff | app/rag/rag_nodes.py:163-166 | `AttributeError` exactly when some entry is not an object and no earlier entry has an unhashable source |
| RagNodes.PoliciesOf | app/rag/rag_nodes.py:144 | a list of objects is kept as is, entry by entry |
| RagNodes.MalformedPolicyListRaises | app/rag/rag_nodes.py:163-166 | `["x"]` raises `AttributeError`; a policy with a null source raises `TypeError` |
| RagNodes.CitedNamesAreSortedSources | app/rag/rag_nodes.py:164-166 | the cited names are strictly sorted, each listed once, and exactly the entries' sources |
| RagNodes.SilentModelMeansReviewEverything | app/rag/rag_nodes.py:148-162 | with an empty model answer, every citation is listed for review under the default evaluation |
| Indexer.TitleShape | app/rag/indexer.py:20-22 | a title has no underscore; its whitespace is single spaces between words; its words are the capitalised words of the name without ".md", underscores read as spaces |
| Indexer.TitleOfMarkdownFile | app/rag/indexer.py:20-22 | for `stem.md` with a dot-free stem, the title's words are the capitalised words of the stem |
| Indexer.CapitalizeKeepsWord | app/rag/indexer.py:22 | capitalising keeps a word a word and adds no underscore |
| Indexer.JoinOfWords | app/rag/indexer.py:22 | words joined by single spaces are single-spaced and start with a non-space |
| Indexer.IssueKey | app/rag/indexer.py:28 | the key is "issue_" followed by the issue type |
| Indexer.AddIssueFlags | app/rag/indexer.py:27-28 | every listed type gets its flag set to true; other keys are kept; no other key is added |
| Indexer.BuildIssueMetadata | app/rag/indexer.py:25-29 | "issue_types" holds the comma-joined list (overwritten by a type named "types"); each listed type's flag is true; no other keys |
| Indexer.PolicyMetadata | app/rag/indexer.py:79-83 | a document's metadata holds its source, its title and its comma-joined issue types |
| Indexer.PolicyMetadataFlags | app/rag/indexer.py:78-83 | a policy's metadata flags each issue type the policy covers |
| Indexer.PolicyMetadataKeys | app/rag/indexer.py:79-83 | no keys besides source, title, the list and the policy's own issue flags |
| Indexer.IssueFlagIffMapped | app/rag/indexer.py:78-83 | a policy carries an issue flag exactly when the issue map lists that type for it |
| Indexer.KeepNames | app/rag/indexer.py:69-76 | the kept names are accepted names of the input |
| Indexer.KeepNamesComplete | app/rag/indexer.py:69-76 | every accepted name of the input is kept |
| Indexer.KeepNamesSorted | app/rag/indexer.py:69 | filtering a sorted listing keeps it sorted |
| Indexer.DocumentsOf | app/rag/indexer.py:84-91 | one document per kept file, in order, each built from that file's content |
| Indexer.LoadPolicyDocuments | app/rag/indexer.py:63-66 | a missing directory gives no documents |
| Indexer.LoadPolicyDocumentsSound | app/rag/indexer.py:63-92 | each document is the document of an indexable listed file, i.e. a Markdown name with non-blank content |
| Indexer.LoadPolicyDocumentsOrdered | app/rag/indexer.py:69 | documents come in strictly increasing file-name order |
| Indexer.LoadPolicyDocumentsComplete | app/rag/indexer.py:69-91 | every indexable file of the listing yields its document |
| Indexer.Basename | app/rag/indexer.py:116 | the base name holds no slash and is the part of the path after the last slash |
| Indexer.UpsertPolicyDocument | app/rag/indexer.py:112-132 | a missing file or blank content is an error; success iff the file exists and has content; the document is keyed by the base name |
| Indexer.BasenameOfJoin | app/rag/indexer.py:116 | the base name of a directory joined with a slash-free name is that name |
| Indexer.UpsertAgreesWithLoad | app/rag/indexer.py:112-132 | upserting one file of the directory yields the very document a full load produces for it |
| KbChunk.ChunkLinesConcat | p2-umber-abbey-main/scripts/kb_index.py:3-9 | the loop's chunks concatenate to the buffer followed by the remaining lines |
| KbChunk.ChunkConcat | p2-umber-abbey-main/scripts/kb_index.py:3-9 | chunking loses, adds and reorders nothing: the chunks concatenate to the text |
| KbChunk.ChunkLinesEmpty | p2-umber-abbey-main/scripts/kb_index.py:4-7 | an empty chunk can only be the flushed empty starting buffer, when the first line alone is too long |
| KbChunk.ChunkEmptyOnlyFirst | p2-umber-abbey-main/scripts/kb_index.py:4-7 | an empty chunk appears only first, and only when the first line exceeds the size |
| KbChunk.NoChunksIffEmpty | p2-umber-abbey-main/scripts/kb_index.py:8-9 | a text yields no chunks exactly when it is empty, so the last non-empty buffer is never dropped |
| KbChunk.OneLine | p2-umber-abbey-main/scripts/kb_index.py:5 | a non-empty text without line breaks is a single line |
| KbChunk.LongLineGivesEmptyChunk | p2-umber-abbey-main/scripts/kb_index.py:6 | as written, a single line longer than the size yields an empty chunk and then the line |
| KbChunk.FixedChunkLinesConcat | p2-umber-abbey-main/scripts/kb_index.py:3-9 | the corrected loop's chunks concatenate to the buffer followed by the lines |
| KbChunk.FixedChunkConcat | p2-umber-abbey-main/scripts/kb_index.py:3-9 | the corrected chunks concatenate to the text |
| KbChunk.FixedChunkNonEmpty | p2-umber-abbey-main/scripts/kb_index.py:6-8 | the corrected chunker never emits an empty chunk |
| KbChunk.FixedChunkBound | p2-umber-abbey-main/scripts/kb_index.py:6-7 | every chunk fits in the size or is a single line of the text |
| KbChunk.ChunkersAgreeFromNonEmpty | p2-umber-abbey-main/scripts/kb_index.py:5-7 | from a non-empty buffer on, the as-written and corrected loops agree |
| KbChunk.ChunkIsFixedChunkPlusEmpty | p2-umber-abbey-main/scripts/kb_index.py:3-9 | the two chunkers differ exactly by the empty first chunk emitted when the first line exceeds the size |
| KbChunk.ChunkIdsDistinct | p2-umber-abbey-main/scripts/kb_index.py:16 | chunk ids of one file are pairwise distinct |
| KbChunk.EntriesIdsDistinct | p2-umber-abbey-main/scripts/kb_index.py:15-16 | the entries of one file never share an id |
| KbChunk.FileEntries | p2-umber-abbey-main/scripts/kb_index.py:15-16 | one entry per chunk of the chunker as written, numbered from 1, holding that chunk |
| KbChunk.FileEntriesFaithful | p2-umber-abbey-main/scripts/kb_index.py:3-16 | a file's entries have distinct ids and their texts rebuild the file; a text is empty exactly when it is the first and the first line is longer than 400 characters |
| KbChunk.FixedFileEntries | p2-umber-abbey-main/scripts/kb_index.py:15-16 | the corrected entries: one per chunk of the corrected chunker, numbered from 1 |
| KbChunk.FixedFileEntriesFaithful | p2-umber-abbey-main/scripts/kb_index.py:3-16 | the corrected entries have distinct ids and non-empty texts, and their texts rebuild the file |
| KbChunk.FileEntriesAgree | p2-umber-abbey-main/scripts/kb_index.py:6 | without an overlong first line the script's entries are the corrected ones |
| KbChunk.FileEntriesShifted | p2-umber-abbey-main/scripts/kb_index.py:6 | with an overlong first line the script's `chunk-1` is empty and each corrected entry appears one number higher |
| KbChunk.IndexEntries | p2-umber-abbey-main/scripts/kb_index.py:12-16 | every entry, as the script writes it, comes from a Markdown file of the listing |
| KbChunk.IndexEntriesFromFiles | p2-umber-abbey-main/scripts/kb_index.py:12-16 | every entry of the index is an entry of its own file, empty `chunk-1` included |
| KbChunk.IndexEntriesOne | p2-umber-abbey-main/scripts/kb_index.py:13-16 | a single listed file contributes exactly its entries if it is Markdown, and nothing otherwise |
| KbChunk.IndexEntriesAppend | p2-umber-abbey-main/scripts/kb_index.py:12-16 | indexing a listing is indexing its parts one after the other, so listing order is kept |
| KbChunk.IndexEntriesComplete | p2-umber-abbey-main/scripts/kb_index.py:12-16 | every entry of every Markdown file of the listing is in the index |

## Left out

- HTTP transport, FastAPI routing, pydantic's validation machinery, `/health` and `/reply/draft`'s dict plumbing (app/main.py): only the table logic behind the endpoints is modelled.
- Exceptions inside a graph run becoming HTTP 500 (app/main.py:153-154, 219-220): a run's errors are not threaded through the walk. Only a missing stored run is reported as 500 by `Api.AdminReviewTurn`.
- The checkpointer and thread persistence: stored runs are a map from thread id to outcome.
- Graph library internals: `update_state`'s choice of the node the patch is attributed to, and the library's own recursion limit. The walk runs node after node, and a resumed run starts with its pending node.
- Workflow.Run: a run that needs more than `fuel` steps ends `OutOfFuel`; the lemmas assume enough fuel and say so in their requires.
- `resolve_order`, `prepare_action` and `finalize` are imported by app/graph/workflow.py but defined nowhere in the files of this model. Inside the walk their effects are the `rest` parameter of `Api.ServiceStep`. So are the effects of `kb_orchestrator` and `policy_evaluator`: their models (`RagNodes.KbOrchestrator`, `RagNodes.PolicyEvaluator`) need the store's and the language model's answers and are stated on their own. The walk lemmas of `Workflow` and the turn lemmas of `Api` hold for any `step`; `Api.ServiceTurnClassifies` and `Api.ServiceReviewRedrafts` are stated over `ServiceStep`.
- Api.NodeEffect: inside the walk `draft_reply` is the corrected `Nodes.DraftReplyDefaulted`, so the `TypeError` of the as-written node (see Findings) is not threaded through a run.
- Language-model calls, prompts and `_safe_json_object` (app/rag/rag_nodes.py:39-51, app/rag/retriever.py:124-155): the parsed answer is a parameter, so the prompt truncations (`[:500]`, `[:700]`) are not modelled.
- The vector store and embeddings: `get_chroma_client`, `get_embedding_function`, `get_collection`, `index_policies` and `list_indexed_policies` (app/rag/indexer.py:32-60, 95-150). Query answers are parameters.
- `_score_from_distance` (app/rag/retriever.py:16-19): its floating-point arithmetic is the `toScore` parameter. Scores are reals.
- `float()` on a string amount (app/rag/retriever.py:57): the conversion result is carried by the amount value rather than computed.
- File system access: `os.path.isdir`/`isfile`, `os.listdir`, `open().read()` and `os.makedirs` are parameters. A listing entry that is not a regular file is not modelled.
- Unicode: character classes, case mapping and whitespace are ASCII.
- The index script's JSON output and its progress line (p2-umber-abbey-main/scripts/kb_index.py:17-18). `IndexEntries` takes the directory listing in the order given.
- `admin_review`'s log lines (app/graph/nodes.py:212-214).
- The policy entries the model names: only `source` is read, so `title`, `cited_rule` and `compliance` are modelled as optional text that is passed through, although any JSON value would be passed through the same way.
- Partial order records: an order is always a complete record, never a dict missing keys and never the empty dict. So the `.get` defaults of `draft_reply` (`"Customer"` and `""` at app/graph/nodes.py:163-164, `'N/A'` for the status at app/graph/nodes.py:176) and of `render_reply` (app/main.py:71) are never taken, and the falsiness of an empty order dict (app/graph/nodes.py:162, app/main.py:234) does not arise.
- Workflow.RouteAfterAdminReview: its own contract states only that its label is a valid target; the agreement with the edge it stands for is `Workflow.AdminReviewRouterMatchesEdge`.
- Indexer.LoadPolicyDocuments: its own contract covers only the missing directory; the document list is characterised by `LoadPolicyDocumentsSound`, `LoadPolicyDocumentsOrdered` and `LoadPolicyDocumentsComplete`.

## Findings

| source | as written | input that shows it | evidently intended | confidence | as-written member | corrected member |
|---|---|---|---|---|---|---|
| app/graph/nodes.py:167 | without order details, the order id is read back with `state.get("order_id", "")`; a stored `None` is passed to `str.replace`, which raises `TypeError` | a state whose `order_details` and `order_id` are both `None`, as every turn of a ticket naming no order starts | substitute the empty string for a missing order id, the default the lookup names | not executed; medium: whether the draft is reached in that state depends on `resolve_order`, which is not part of this model | Nodes.DraftReplyFailsWithoutOrderId | Nodes.DraftReplyDefaulted |
| p2-umber-abbey-main/scripts/kb_index.py:6 | a line that would overflow the buffer flushes it even when the buffer is still empty | a text whose first line is longer than 400 characters: the chunks are `["", text]` | flush only a non-empty buffer, so that no chunk is empty; the index as written keeps the empty `chunk-1` entry (`KbChunk.FileEntriesShifted`), the corrected entries are `KbChunk.FixedFileEntries` | not executed; high | KbChunk.LongLineGivesEmptyChunk | KbChunk.FixedFileEntriesFaithful |

=== FILE: api.dfy ===
/**
 * The table logic behind the HTTP endpoints of app/main.py: the legacy
 * order, classification and reply endpoints, and the per-turn state
 * handling of the graph-backed triage and admin-review endpoints.
 *
 * An `HTTPException` is an `Err(HttpError(status, detail))`. The order,
 * rule and template tables loaded from the mock data files are parameters.
 */
module Api {
  import opened Wrappers
  import opened Strings
  import opened Schema
  import opened OrderTools
  import opened TriageState
  import opened OrderIdPattern
  import opened Nodes
  import Workflow

  datatype HttpError = HttpError(status: nat, detail: string)

  const LegacyFallbackTemplate: string := "Hi {{customer_name}}, we are reviewing order {{order_id}}."

  // ------------------------------------------------------------------
  // /orders/get, /orders/search
  // ------------------------------------------------------------------

  /** `orders_get`: the first order with exactly this id, else 404. */
  function OrdersGet(orders: seq<Order>, id: string): (r: Result<Order, HttpError>)
    ensures r.Err? <==> forall j | 0 <= j < |orders| :: orders[j].orderId != id
    ensures r.Err? ==> r.error.status == 404
    ensures r.Ok? ==> exists k | 0 <= k < |orders| ::
      orders[k] == r.value && r.value.orderId == id
      && forall j | 0 <= j < k :: orders[j].orderId != id
  {
    var k := FirstOrderIndex(orders, id);
    if k < |orders| then Ok(orders[k]) else Err(HttpError(404, "Order not found"))
  }

  /** The endpoint and the graph's lookup tool find the same order. */
  lemma OrdersGetAgreesWithFetchOrder(orders: seq<Order>, id: string)
    ensures OrdersGet(orders, id).Ok? <==> FetchOrder(OrderTable(orders), id).Some?
    ensures OrdersGet(orders, id).Ok? ==> OrdersGet(orders, id).value == FetchOrder(OrderTable(orders), id).value
  {
  }

  /**
   * Whether `orders_search` lists an order: its e-mail equals the given one
   * ignoring case, or else the lower-cased order id or customer name occurs
   * in the lower-cased query. Empty parameters count as absent.
   */
  predicate SearchMatches(o: Order, customerEmail: Option<string>, q: Option<string>) {
    (Truthy(customerEmail) && Lower(o.email) == Lower(customerEmail.value))
    || (Truthy(q) && (Contains(Lower(q.value), Lower(o.orderId)) || Contains(Lower(q.value), Lower(o.customerName))))
  }

  /** `orders_search`: the matching orders, each occurrence at most once, in table order. */
  function OrdersSearch(orders: seq<Order>, customerEmail: Option<string>, q: Option<string>): (r: seq<Order>)
    ensures |r| <= |orders|
    ensures forall o :: o in r <==> o in orders && SearchMatches(o, customerEmail, q)
    ensures multiset(r) <= multiset(orders)
    ensures !Truthy(customerEmail) && !Truthy(q) ==> r == []
  {
    if |orders| == 0 then []
    else
      assert orders == [orders[0]] + orders[1..];
      (if SearchMatches(orders[0], customerEmail, q) then [orders[0]] else [])
      + OrdersSearch(orders[1..], customerEmail, q)
  }

  /** Searching a concatenated table searches each part in turn: table order is kept. */
  lemma {:induction false} OrdersSearchAppend(a: seq<Order>, b: seq<Order>, customerEmail: Option<string>, q: Option<string>)
    ensures OrdersSearch(a + b, customerEmail, q) == OrdersSearch(a, customerEmail, q) + OrdersSearch(b, customerEmail, q)
    decreases |a|
  {
    if |a| == 0 {
      assert a + b == b;
    } else {
      assert (a + b)[0] == a[0];
      assert (a + b)[1..] == a[1..] + b;
      OrdersSearchAppend(a[1..], b, customerEmail, q);
    }
  }

  // ------------------------------------------------------------------
  // /classify/issue, render_reply
  // ------------------------------------------------------------------

  datatype Classification = Classification(issueType: string, confidence: real)

  /** The legacy classifier: the graph's first-match rule with a fixed confidence. */
  function ClassifyLegacy(rules: seq<IssueRule>, text: string): (c: Classification)
    ensures c.issueType == ClassifyText(rules, text)
    ensures c.confidence == 0.85 <==> exists j | 0 <= j < |rules| :: Contains(Lower(text), rules[j].keyword)
    ensures c.confidence == 0.1 <==> forall j | 0 <= j < |rules| :: !Contains(Lower(text), rules[j].keyword)
  {
    var k := FirstMatchingRule(rules, Lower(text));
    if k < |rules| then Classification(rules[k].issueType, 0.85) else Classification(UnknownIssue, 0.1)
  }

  /**
   * `render_reply`: the first template for the issue type (the shorter
   * fallback when there is none or it is empty), filled from the order; a
   * missing order (`{}`) fills "Customer" and "".
   */
  function RenderReply(replies: seq<ReplyRule>, issueType: Option<string>, order: Option<Order>): (text: string)
    ensures order.None? ==> text == FillTemplate(SelectTemplate(replies, issueType, LegacyFallbackTemplate), DefaultCustomerName, "")
    ensures order.Some? ==> text == FillTemplate(SelectTemplate(replies, issueType, LegacyFallbackTemplate), order.value.customerName, order.value.orderId)
  {
    var template := SelectTemplate(replies, issueType, LegacyFallbackTemplate);
    if order.Some? then FillTemplate(template, order.value.customerName, order.value.orderId)
    else FillTemplate(template, DefaultCustomerName, "")
  }

  /**
   * Where the first template for the issue type is non-empty, the legacy reply is the graph's
   * draft without the admin note: only the fallback texts differ.
   */
  lemma RenderReplyMatchesDraft(s: GraphState, replies: seq<ReplyRule>)
    requires s.orderDetails.Some? && !Truthy(s.adminFeedback)
    requires FirstReplyIndex(replies, s.issueType) < |replies|
    requires replies[FirstReplyIndex(replies, s.issueType)].template != ""
    ensures DraftReplyDefaulted(s, replies).messages[0].content == RenderReply(replies, s.issueType, s.orderDetails)
  {
    SameFirstTemplate(replies, s.issueType, DraftFallbackTemplate, LegacyFallbackTemplate);
    DraftWithoutNote(s, replies);
  }

  /** With order details and no admin note, the draft is the filled template. */
  lemma DraftWithoutNote(s: GraphState, replies: seq<ReplyRule>)
    requires s.orderDetails.Some? && !Truthy(s.adminFeedback)
    ensures DraftReplyDefaulted(s, replies).messages[0].content == FillTemplate(
      SelectTemplate(replies, s.issueType, DraftFallbackTemplate),
      s.orderDetails.value.customerName, s.orderDetails.value.orderId)
  {
  }

  /** When the first template for an issue type is non-empty, the fallback is irrelevant. */
  lemma SameFirstTemplate(replies: seq<ReplyRule>, issueType: Option<string>, f1: string, f2: string)
    requires FirstReplyIndex(replies, issueType) < |replies|
    requires replies[FirstReplyIndex(replies, issueType)].template != ""
    ensures SelectTemplate(replies, issueType, f1) == SelectTemplate(replies, issueType, f2)
  {
  }

  // ------------------------------------------------------------------
  // /triage/invoke_legacy
  // ------------------------------------------------------------------

  datatype LegacyReply = LegacyReply(orderId: string, issueType: string, order: Order, replyText: string)

  /** The order id the legacy endpoint works with: the given one, else the first unbounded match. */
  function LegacyOrderId(body: TriageInput): (id: Option<string>)
    ensures Truthy(body.orderId) ==> id == body.orderId
    ensures !Truthy(body.orderId) ==> id == ExtractOrderId(body.ticketText, false)
    ensures id.Some? ==> id.value != ""
  {
    if Truthy(body.orderId) then body.orderId else ExtractOrderId(body.ticketText, false)
  }

  /** `triage_invoke_legacy`: 400 without an id, 404 for an unknown one, else the classified reply. */
  function TriageLegacy(body: TriageInput, orders: seq<Order>, rules: seq<IssueRule>, replies: seq<ReplyRule>)
    : (r: Result<LegacyReply, HttpError>)
    ensures r.Err? && r.error.status == 400 <==> !Truthy(body.orderId) && ExtractOrderId(body.ticketText, false).None?
    ensures r.Err? && r.error.status == 404 <==>
      LegacyOrderId(body).Some? && forall j | 0 <= j < |orders| :: orders[j].orderId != LegacyOrderId(body).value
    ensures r.Ok? ==> Some(r.value.orderId) == LegacyOrderId(body) && r.value.order.orderId == r.value.orderId
    ensures r.Ok? <==> LegacyOrderId(body).Some? && exists j | 0 <= j < |orders| :: orders[j].orderId == LegacyOrderId(body).value
    ensures r.Ok? ==> r.value.order in orders && Ok(r.value.order) == OrdersGet(orders, r.value.orderId)
    ensures r.Ok? ==> r.value.issueType == ClassifyText(rules, body.ticketText)
    ensures r.Ok? ==> r.value.replyText == RenderReply(replies, Some(r.value.issueType), Some(r.value.order))
  {
    match LegacyOrderId(body)
    case None => Err(HttpError(400, "order_id missing and not found in text"))
    case Some(id) =>
      match OrdersGet(orders, id)
      case Err(_) => Err(HttpError(404, "order not found"))
      case Ok(order) =>
        var issue := ClassifyLegacy(rules, body.ticketText).issueType;
        Ok(LegacyReply(id, issue, order, RenderReply(replies, Some(issue), Some(order))))
  }

  /** Five digits after ORD: the legacy endpoint takes the first four, the graph finds no id. */
  lemma LegacyAndGraphDisagreeOnFiveDigits()
    ensures LegacyOrderId(TriageInput("ORD12345", None, None)) == Some("ORD1234")
    ensures ExtractOrderId("ORD12345", true).None?
  {
    FiveDigitsDifferByBoundary();
  }

  // ------------------------------------------------------------------
  // /triage/invoke and /admin/review
  // ------------------------------------------------------------------

  /**
   * The input of every turn: all declared channels are written (the
   * ticket and order id from the request, `None` elsewhere) and no message
   * is added. The undeclared keys the request also names are dropped.
   */
  function TurnInput(body: TriageInput): (u: Update)
    ensures u.messages == []
    ensures u.ticketText == Some(body.ticketText) && u.orderId == Some(body.orderId)
    ensures u.issueType == Some(None) && u.orderDetails == Some(None) && u.reviewStatus == Some(None)
    ensures u.evidence == Some(None) && u.recommendation == Some(None) && u.draftReply == Some(None)
    ensures u.adminFeedback == Some(None) && u.sender == Some(None)
  {
    Update([], Some(body.ticketText), Some(body.orderId), Some(None), Some(None), Some(None),
           Some(None), Some(None), Some(None), Some(None), Some(None))
  }

  /** Only the message history carries over from one turn to the next. */
  lemma TurnKeepsOnlyHistory(prev1: GraphState, prev2: GraphState, body: TriageInput)
    requires prev1.messages == prev2.messages
    ensures Merge(prev1, TurnInput(body)) == Merge(prev2, TurnInput(body))
    ensures Merge(prev1, TurnInput(body)).messages == prev1.messages
  {
    assert prev1.messages + [] == prev1.messages;
    assert prev2.messages + [] == prev2.messages;
  }

  /** The state of a thread that has no checkpoint yet. */
  const EmptyState: GraphState := GraphState([], "", None, None, None, None, None, None, None, None, None)

  datatype Turn = Turn(threadId: string, outcome: Workflow.Outcome<GraphState>)

  /**
   * The state a thread's checkpoint holds: the state its last run ended,
   * suspended or stopped in; an unknown thread starts empty.
   */
  function LastState(runs: map<string, Workflow.Outcome<GraphState>>, id: string): (s: GraphState)
    ensures id in runs ==> s == runs[id].state
    ensures id !in runs ==> s == EmptyState
  {
    if id in runs then runs[id].state else EmptyState
  }

  /**
   * One `/triage/invoke` turn: the request is merged into the thread's last
   * state and the graph runs from the start under the service's interrupt
   * set. `runs` is the same thread store `/admin/review` resumes from.
   */
  function TriageTurn(
    body: TriageInput, freshId: string, runs: map<string, Workflow.Outcome<GraphState>>,
    step: (Workflow.Node, GraphState) -> GraphState, fuel: nat): (t: Turn)
    ensures Truthy(body.threadId) ==> t.threadId == body.threadId.value
    ensures !Truthy(body.threadId) ==> t.threadId == freshId
    ensures fuel > 0 ==> |t.outcome.trace| > 0 && t.outcome.trace[0] == Workflow.Ingest
    ensures t.outcome == Workflow.Invoke(Workflow.DeclaredGraph(step), Workflow.HitlInterrupts,
      GraphState(LastState(runs, t.threadId).messages, body.ticketText, body.orderId,
                 None, None, None, None, None, None, None, None), fuel)
  {
    var id := OrElse(body.threadId, freshId);
    var prev := LastState(runs, id);
    assert prev.messages + [] == prev.messages;
    Turn(id, Workflow.Invoke(Workflow.DeclaredGraph(step), Workflow.HitlInterrupts, Merge(prev, TurnInput(body)), fuel))
  }

  /** A turn starts from the request and the thread's history, nothing else of the old state. */
  lemma TriageTurnStartsFresh(body: TriageInput, freshId: string, runs: map<string, Workflow.Outcome<GraphState>>)
    ensures var id := OrElse(body.threadId, freshId);
      var prev := LastState(runs, id);
      Merge(prev, TurnInput(body)) == GraphState(prev.messages, body.ticketText, body.orderId,
                                                 None, None, None, None, None, None, None, None)
  {
    var id := OrElse(body.threadId, freshId);
    var prev := LastState(runs, id);
    assert prev.messages + [] == prev.messages;
  }

  /** Two stores that hold the same history for the thread give the same turn. */
  lemma TriageTurnReadsOnlyHistory(
    body: TriageInput, freshId: string, runs1: map<string, Workflow.Outcome<GraphState>>,
    runs2: map<string, Workflow.Outcome<GraphState>>, step: (Workflow.Node, GraphState) -> GraphState, fuel: nat)
    requires var id := OrElse(body.threadId, freshId);
      LastState(runs1, id).messages == LastState(runs2, id).messages
    ensures TriageTurn(body, freshId, runs1, step, fuel) == TriageTurn(body, freshId, runs2, step, fuel)
  {
    var id := OrElse(body.threadId, freshId);
    TriageTurnStartsFresh(body, freshId, runs1);
    TriageTurnStartsFresh(body, freshId, runs2);
  }

  /**
   * With enough fuel every turn finishes after the draft, having run the
   * intake, classification, order lookup, action and draft nodes in order.
   */
  lemma TriageTurnFinishes(
    body: TriageInput, freshId: string, runs: map<string, Workflow.Outcome<GraphState>>,
    step: (Workflow.Node, GraphState) -> GraphState, fuel: nat)
    requires fuel >= 5
    ensures TriageTurn(body, freshId, runs, step, fuel).outcome.Finished?
    ensures TriageTurn(body, freshId, runs, step, fuel).outcome.trace
      == [Workflow.Ingest, Workflow.ClassifyIssue, Workflow.ResolveOrder, Workflow.PrepareAction, Workflow.DraftReply]
  {
    var id := OrElse(body.threadId, freshId);
    Workflow.DeclaredStateSkipsReview(step, Merge(LastState(runs, id), TurnInput(body)), fuel);
  }

  /** The patch an admin decision applies before the run resumes. */
  function ReviewPatch(action: ReviewAction): (u: Update)
    ensures forall s: GraphState :: Merge(s, u) == s.(reviewStatus := Some(action.status), adminFeedback := action.feedback)
  {
    var u := NoWrites.(reviewStatus := Some(Some(action.status)), adminFeedback := Some(action.feedback));
    assert forall s: GraphState :: s.messages + u.messages == s.messages;
    u
  }

  /**
   * `/admin/review`: an empty thread id is refused before any state is
   * read; otherwise the decision is patched in and the run resumes. A
   * thread with no stored run is reported as the endpoint's error 500.
   */
  function AdminReviewTurn(
    threadId: string, action: ReviewAction, runs: map<string, Workflow.Outcome<GraphState>>,
    step: (Workflow.Node, GraphState) -> GraphState, fuel: nat): (r: Result<Workflow.Outcome<GraphState>, HttpError>)
    ensures threadId == "" <==> r.Err? && r.error.status == 400
    ensures r.Ok? <==> threadId != "" && threadId in runs
    ensures r.Ok? && runs[threadId].Suspended? && runs[threadId].pending != Workflow.End && fuel > 0 ==>
      |r.value.trace| > 0 && r.value.trace[0] == runs[threadId].pending
    ensures r.Ok? && runs[threadId].Suspended? ==>
      r.value == Workflow.Run(Workflow.DeclaredGraph(step), Workflow.HitlInterrupts, runs[threadId].pending,
                              runs[threadId].state.(reviewStatus := Some(action.status), adminFeedback := action.feedback), fuel)
    ensures r.Ok? && !runs[threadId].Suspended? ==>
      r.value == Workflow.Finished(runs[threadId].state.(reviewStatus := Some(action.status), adminFeedback := action.feedback), [])
  {
    if threadId == "" then Err(HttpError(400, "thread_id is required"))
    else if threadId !in runs then Err(HttpError(500, "Error processing admin review"))
    else
      var patch := (s: GraphState) => Merge(s, ReviewPatch(action));
      Ok(Workflow.Resume(Workflow.Graph(Workflow.DeclaredView, step), Workflow.HitlInterrupts, runs[threadId], patch, fuel))
  }

  /**
   * A run waiting before `admin_review` resumes on its state with the
   * admin's verdict and feedback written in: review runs on that state, then
   * the draft, and over the declared state the run ends there.
   */
  lemma AdminVerdictReachesReview(
    threadId: string, action: ReviewAction, runs: map<string, Workflow.Outcome<GraphState>>,
    step: (Workflow.Node, GraphState) -> GraphState, fuel: nat)
    requires threadId != "" && threadId in runs
    requires runs[threadId].Suspended? && runs[threadId].pending == Workflow.AdminReview
    requires fuel >= 2
    ensures var patched := runs[threadId].state.(reviewStatus := Some(action.status), adminFeedback := action.feedback);
      var s1 := step(Workflow.AdminReview, patched);
      AdminReviewTurn(threadId, action, runs, step, fuel)
        == Ok(Workflow.Finished(step(Workflow.DraftReply, s1), [Workflow.AdminReview, Workflow.DraftReply]))
  {
    var g := Workflow.DeclaredGraph(step);
    var patched := runs[threadId].state.(reviewStatus := Some(action.status), adminFeedback := action.feedback);
    var s1 := step(Workflow.AdminReview, patched);
    assert Workflow.Next(Workflow.AdminReview, Workflow.DeclaredView(s1)) == Workflow.DraftReply;
    Workflow.DeclaredDraftEnds(step, s1, fuel - 1);
    Workflow.RunThrough(g, Workflow.HitlInterrupts, Workflow.AdminReview, patched, fuel,
                        step(Workflow.DraftReply, s1), [Workflow.DraftReply]);
    assert [Workflow.AdminReview] + [Workflow.DraftReply] == [Workflow.AdminReview, Workflow.DraftReply];
  }

  // ------------------------------------------------------------------
  // The walk over the nodes defined here
  // ------------------------------------------------------------------

  /**
   * The effect of one node inside the service's walk. Intake,
   * classification, draft and review merge the update their node returns
   * (the draft as evidently intended, `DraftReplyDefaulted`); order lookup,
   * action, retrieval, policy check and finalize are `rest`.
   */
  function NodeEffect(
    rules: seq<IssueRule>, replies: seq<ReplyRule>, rest: (Workflow.Node, GraphState) -> GraphState,
    n: Workflow.Node, s: GraphState): (r: GraphState)
    ensures n == Workflow.Ingest ==>
      r.messages == s.messages + [Message(Human, s.ticketText, None)]
      && r.ticketText == s.ticketText && r.issueType == s.issueType && r.sender == Some("ingest")
    ensures n == Workflow.ClassifyIssue ==>
      r == s.(issueType := Some(ClassifyText(rules, s.ticketText)), sender := Some("classify_issue"))
    ensures n == Workflow.DraftReply ==>
      r.reviewStatus == Some(Pending)
      && |r.messages| == |s.messages| + 1 && r.messages[..|s.messages|] == s.messages
      && r.messages[|s.messages|].role == Ai && r.draftReply == Some(r.messages[|s.messages|].content)
      && r.orderId == s.orderId && r.issueType == s.issueType && r.orderDetails == s.orderDetails
      && r.adminFeedback == s.adminFeedback
      && (Truthy(s.adminFeedback) ==> EndsWith(r.draftReply.value, AdminNote(s.adminFeedback.value)))
    ensures n == Workflow.AdminReview ==> r == s.(sender := Some("admin_review"))
    ensures n != Workflow.Ingest && n != Workflow.ClassifyIssue && n != Workflow.DraftReply && n != Workflow.AdminReview ==>
      r == rest(n, s)
  {
    if n == Workflow.Ingest then
      IngestMerged(s);
      Merge(s, Nodes.Ingest(s))
    else if n == Workflow.ClassifyIssue then
      Merge(s, Nodes.ClassifyIssue(s, rules))
    else if n == Workflow.DraftReply then
      DraftReplyMerged(s, replies);
      Merge(s, DraftReplyDefaulted(s, replies))
    else if n == Workflow.AdminReview then
      Merge(s, Nodes.AdminReview(s))
    else
      rest(n, s)
  }

  /** The service's `step`: `NodeEffect` for every node. */
  function ServiceStep(
    rules: seq<IssueRule>, replies: seq<ReplyRule>, rest: (Workflow.Node, GraphState) -> GraphState)
    : (step: (Workflow.Node, GraphState) -> GraphState)
    ensures forall n, s :: step(n, s) == NodeEffect(rules, replies, rest, n, s)
  {
    (n: Workflow.Node, s: GraphState) => NodeEffect(rules, replies, rest, n, s)
  }

  /**
   * A turn over the nodes defined here ends with the ticket classified by
   * the keyword rules and a new draft pending review, as long as the order
   * lookup and the action leave the issue type alone.
   */
  lemma ServiceTurnClassifies(
    body: TriageInput, freshId: string, runs: map<string, Workflow.Outcome<GraphState>>,
    rules: seq<IssueRule>, replies: seq<ReplyRule>, rest: (Workflow.Node, GraphState) -> GraphState, fuel: nat)
    requires fuel >= 5
    requires forall s :: rest(Workflow.ResolveOrder, s).issueType == s.issueType
    requires forall s :: rest(Workflow.PrepareAction, s).issueType == s.issueType
    ensures var o := TriageTurn(body, freshId, runs, ServiceStep(rules, replies, rest), fuel).outcome;
      o.Finished?
      && o.state.issueType == Some(ClassifyText(rules, body.ticketText))
      && o.state.reviewStatus == Some(Pending)
      && |o.state.messages| > 0 && o.state.messages[|o.state.messages| - 1].role == Ai
      && o.state.draftReply == Some(o.state.messages[|o.state.messages| - 1].content)
  {
    var step := ServiceStep(rules, replies, rest);
    var id := OrElse(body.threadId, freshId);
    var s0 := Merge(LastState(runs, id), TurnInput(body));
    TriageTurnStartsFresh(body, freshId, runs);
    Workflow.DeclaredStateSkipsReview(step, s0, fuel);
    var s1 := step(Workflow.Ingest, s0);
    assert s1.ticketText == body.ticketText && s1.issueType == None;
    var s2 := step(Workflow.ClassifyIssue, s1);
    assert s2.issueType == Some(ClassifyText(rules, body.ticketText));
    var s4 := step(Workflow.PrepareAction, step(Workflow.ResolveOrder, s2));
    assert s4.issueType == s2.issueType;
    var s5 := step(Workflow.DraftReply, s4);
    assert s5.issueType == s4.issueType;
  }

  /**
   * An admin's verdict on a run waiting for review, over the nodes defined
   * here: the feedback is stored, the issue type, order id and details stay,
   * exactly one message is added, and it is a new draft, pending review
   * again, that carries the feedback as its note.
   */
  lemma ServiceReviewRedrafts(
    threadId: string, action: ReviewAction, runs: map<string, Workflow.Outcome<GraphState>>,
    rules: seq<IssueRule>, replies: seq<ReplyRule>, rest: (Workflow.Node, GraphState) -> GraphState, fuel: nat)
    requires threadId != "" && threadId in runs
    requires runs[threadId].Suspended? && runs[threadId].pending == Workflow.AdminReview
    requires fuel >= 2
    ensures var r := AdminReviewTurn(threadId, action, runs, ServiceStep(rules, replies, rest), fuel);
      var old_ := runs[threadId].state;
      r.Ok? && r.value.Finished?
      && r.value.state.adminFeedback == action.feedback
      && r.value.state.reviewStatus == Some(Pending)
      && r.value.state.issueType == old_.issueType && r.value.state.orderId == old_.orderId
      && r.value.state.orderDetails == old_.orderDetails
      && |r.value.state.messages| == |old_.messages| + 1
      && r.value.state.messages[..|old_.messages|] == old_.messages
      && r.value.state.draftReply == Some(r.value.state.messages[|old_.messages|].content)
      && (Truthy(action.feedback) ==> EndsWith(r.value.state.draftReply.value, AdminNote(action.feedback.value)))
  {
    var step := ServiceStep(rules, replies, rest);
    AdminVerdictReachesReview(threadId, action, runs, step, fuel);
    var patched := runs[threadId].state.(reviewStatus := Some(action.status), adminFeedback := action.feedback);
    var s1 := step(Workflow.AdminReview, patched);
    assert s1 == patched.(sender := Some("admin_review"));
    var s2 := step(Workflow.DraftReply, s1);
    assert s2.adminFeedback == action.feedback;
  }

  /** With an empty thread id the stored runs are never consulted. */
  lemma EmptyThreadIgnoresStore(
    action: ReviewAction, runs1: map<string, Workflow.Outcome<GraphState>>, runs2: map<string, Workflow.Outcome<GraphState>>,
    step: (Workflow.Node, GraphState) -> GraphState, fuel: nat)
    ensures AdminReviewTurn("", action, runs1, step, fuel) == AdminReviewTurn("", action, runs2, step, fuel)
  {
  }

  // ------------------------------------------------------------------
  // Response assembly
  // ------------------------------------------------------------------

  /** `msg.type` of a stored message. */
  function RoleName(r: Role): string {
    match r
    case Human => "human"
    case Ai => "ai"
  }

  /** The transcript as the API reports it: one entry per message, in order. */
  function MessageViews(ms: seq<Message>): (vs: seq<MessageView>)
    ensures |vs| == |ms|
    ensures forall i | 0 <= i < |ms| :: vs[i] == MessageView(RoleName(ms[i].role), ms[i].content)
  {
    seq(|ms|, i requires 0 <= i < |ms| => MessageView(RoleName(ms[i].role), ms[i].content))
  }

  /** The candidate summary: absent for no candidates, else one entry per candidate. */
  function SummarizeCandidates(candidates: Option<seq<Order>>): (r: Option<seq<CandidateSummary>>)
    ensures r.None? <==> candidates.None? || candidates.value == []
    ensures r.Some? ==> |r.value| == |candidates.value|
    ensures r.Some? ==> forall i | 0 <= i < |r.value| ::
      r.value[i].orderId == candidates.value[i].orderId
      && r.value[i].status == candidates.value[i].status
      && (r.value[i].firstItem.None? <==> candidates.value[i].items == [])
      && (r.value[i].firstItem.Some? ==> r.value[i].firstItem.value == candidates.value[i].items[0].name)
  {
    if candidates.None? || candidates.value == [] then None
    else
      var cs := candidates.value;
      Some(seq(|cs|, i requires 0 <= i < |cs| =>
        CandidateSummary(cs[i].orderId, cs[i].status,
                         if cs[i].items != [] then Some(cs[i].items[0].name) else None)))
  }

  /**
   * The response of either endpoint. `email`, `draft_scenario` and
   * `candidate_orders` are not declared channels, so they are always
   * absent from the result state and reported as `None`.
   */
  function ToOutput(threadId: string, s: GraphState): (out: TriageOutput)
    ensures out.threadId == threadId && out.orderId == s.orderId && out.issueType == s.issueType
    ensures out.reviewStatus == s.reviewStatus && out.draftReply == s.draftReply
    ensures out.evidence == s.evidence && out.recommendation == s.recommendation
    ensures out.email.None? && out.draftScenario.None? && out.candidateOrders.None?
    ensures out.suggestedAction.None? && out.policyEvaluation.None?
    ensures |out.messages| == |s.messages|
    ensures forall i | 0 <= i < |s.messages| ::
      out.messages[i].role == RoleName(s.messages[i].role) && out.messages[i].content == s.messages[i].content
  {
    TriageOutput(threadId, s.orderId, None, s.issueType, None, s.draftReply, None, None,
                 s.reviewStatus, s.evidence, s.recommendation, SummarizeCandidates(None),
                 MessageViews(s.messages))
  }
}

=== FILE: config.dfy ===
/** Constants and policy mappings of the retrieval subsystem (app/rag/config.py). */
module RagConfig {

  /** Number of citations the orchestrator asks for and keeps. */
  const TopK: nat := 3

  /** Order amount above which fraud-eligible issues also cite the fraud policy. */
  const FraudThreshold: real := 80.0

  const FraudPolicyFile: string := "fraud_policy.md"

  /** Primary policy file to the issue types it covers. */
  const PolicyIssueMap: map<string, seq<string>> := map[
    "chargeback_policy.md" := ["duplicate_charge"],
    "delivery_policy.md" := ["late_delivery"],
    "refund_policy.md" := ["refund_request"],
    "warranty_policy.md" := ["defective_product", "damaged_item"],
    "fraud_policy.md" := []
  ]

  const KnownIssueTypes: set<string> := {
    "refund_request", "duplicate_charge", "late_delivery", "defective_product",
    "damaged_item", "wrong_item", "missing_item"
  }

  const FraudEligibleIssues: set<string> := {"refund_request", "wrong_item", "missing_item"}

  /** `POLICY_ISSUE_MAP.get(filename, [])` */
  function PolicyIssueTypes(filename: string): (types: seq<string>)
    ensures filename !in PolicyIssueMap ==> types == []
    ensures forall i | 0 <= i < |types| :: types[i] in KnownIssueTypes
  {
    MappedIssuesAreKnown();
    if filename in PolicyIssueMap then PolicyIssueMap[filename] else []
  }

  lemma FraudEligibleAreKnown()
    ensures FraudEligibleIssues <= KnownIssueTypes
  {
  }

  /** Every issue type a policy file is mapped to is a known one. */
  lemma MappedIssuesAreKnown()
    ensures forall f, i | f in PolicyIssueMap && 0 <= i < |PolicyIssueMap[f]| :: PolicyIssueMap[f][i] in KnownIssueTypes
  {
  }

  /** The fraud policy is cited only through the amount rule, never by issue type. */
  lemma FraudPolicyHasNoIssueType()
    ensures FraudPolicyFile in PolicyIssueMap && PolicyIssueMap[FraudPolicyFile] == []
  {
  }

  /** No issue type is mapped to two different policy files. */
  lemma NoIssueInTwoPolicies()
    ensures forall f, g, i, j |
      f in PolicyIssueMap && g in PolicyIssueMap && 0 <= i < |PolicyIssueMap[f]| && 0 <= j < |PolicyIssueMap[g]|
      && PolicyIssueMap[f][i] == PolicyIssueMap[g][j] :: f == g
  {
  }
}

=== FILE: indexer.dfy ===
/**
 * Turning policy files into vector-store documents (app/rag/indexer.py):
 * the display title derived from a file name, the issue metadata, and which
 * files of a directory become documents under which id.
 *
 * The file system is a parameter: whether the directory exists, its
 * listing, and a function from path to file content.
 */
module Indexer {
  import opened Wrappers
  import opened Strings
  import opened RagConfig

  // ------------------------------------------------------------------
  // Titles
  // ------------------------------------------------------------------

  /** Every whitespace character is a single space strictly inside the text, followed by a non-space. */
  predicate SingleSpaced(r: string) {
    forall i | 0 <= i < |r| :: IsSpace(r[i]) ==> r[i] == ' ' && 0 < i < |r| - 1 && !IsSpace(r[i + 1])
  }

  /** `" ".join(word.capitalize() for word in base.split())` */
  function CapitalizedWords(base: string): seq<string> {
    var ws := Words(base);
    seq(|ws|, k requires 0 <= k < |ws| => Capitalize(ws[k]))
  }

  /**
   * `_title_from_filename`. The underscore replacement is written as the
   * character substitution `SwapChar`, which `ReplaceOneChar` shows equal to
   * `replace("_", " ")`.
   */
  function TitleFromFilename(filename: string): string {
    Join(CapitalizedWords(SwapChar(Replace(filename, ".md", ""), '_', ' ')), " ")
  }

  /**
   * A title is every ".md" removed, underscores read as spaces, and the
   * whitespace-separated words capitalised: it has no underscore, its
   * whitespace is single spaces between words, and its words are the
   * capitalised words of the stem.
   */
  lemma TitleShape(filename: string)
    ensures var title := TitleFromFilename(filename);
      SingleSpaced(title) && '_' !in title
      && Words(title) == CapitalizedWords(Replace(Replace(filename, ".md", ""), "_", " "))
  {
    var stem := Replace(filename, ".md", "");
    var base := SwapChar(stem, '_', ' ');
    ReplaceOneChar(stem, '_', ' ');
    var ws := CapitalizedWords(base);
    assert '_' !in base;
    WordsCapitalized(base);
    JoinOfWords(ws);
    JoinAvoids(ws, " ", '_');
    WordsOfJoin(ws);
  }

  /**
   * For a Markdown file whose stem has no dot, the title's words are the
   * capitalised words of the stem with underscores read as spaces.
   */
  lemma TitleOfMarkdownFile(stem: string)
    requires '.' !in stem
    ensures Words(TitleFromFilename(stem + ".md")) == CapitalizedWords(SwapChar(stem, '_', ' '))
  {
    assert ".md"[0] == '.';
    RemoveSuffix(stem, ".md");
    ReplaceOneChar(stem, '_', ' ');
    assert Replace(stem, "_", " ") == SwapChar(stem, '_', ' ');
    TitleShape(stem + ".md");
  }

  /** Capitalising keeps a word a word and introduces no underscore. */
  lemma CapitalizeKeepsWord(w: string)
    requires IsWord(w)
    ensures IsWord(Capitalize(w))
    ensures '_' !in w ==> '_' !in Capitalize(w)
  {
    var c := Capitalize(w);
    assert forall j | 1 <= j < |c| :: c[j] == LowerChar(w[j]);
  }

  /** A character absent from the text is absent from each of its words. */
  lemma {:induction false} WordsFromText(s: string, ch: char)
    requires ch !in s
    ensures forall k | 0 <= k < |Words(s)| :: ch !in Words(s)[k]
    decreases |s|
  {
    var t := TrimStart(s);
    if |t| > 0 {
      var e := WordEnd(t, 0);
      assert ch !in t;
      assert ch !in t[e..];
      assert ch !in t[..e];
      WordsFromText(t[e..], ch);
      var ws := Words(s);
      var rest := Words(t[e..]);
      assert ws == [t[..e]] + rest;
      forall k | 0 <= k < |ws|
        ensures ch !in ws[k]
      {
        if k > 0 {
          assert ws[k] == rest[k - 1];
        }
      }
    }
  }

  /** The capitalised words of a text without underscores are words without underscores. */
  lemma WordsCapitalized(base: string)
    ensures forall k | 0 <= k < |CapitalizedWords(base)| :: IsWord(CapitalizedWords(base)[k])
    ensures '_' !in base ==> forall k | 0 <= k < |CapitalizedWords(base)| :: '_' !in CapitalizedWords(base)[k]
  {
    var ws := Words(base);
    WordsAreWords(base);
    if '_' !in base {
      WordsFromText(base, '_');
    }
    forall k | 0 <= k < |ws|
      ensures IsWord(Capitalize(ws[k]))
      ensures '_' !in base ==> '_' !in Capitalize(ws[k])
    {
      CapitalizeKeepsWord(ws[k]);
    }
  }

  /** Words joined by single spaces are single-spaced, and start and end with a word character. */
  lemma {:induction false} JoinOfWords(ws: seq<string>)
    requires forall k | 0 <= k < |ws| :: IsWord(ws[k])
    ensures SingleSpaced(Join(ws, " "))
    ensures |ws| > 0 ==> |Join(ws, " ")| > 0 && !IsSpace(Join(ws, " ")[0])
    decreases |ws|
  {
    if |ws| > 1 {
      var w := ws[0];
      var rest := Join(ws[1..], " ");
      JoinOfWords(ws[1..]);
      var j := w + " " + rest;
      assert Join(ws, " ") == j;
      forall i | 0 <= i < |j| && IsSpace(j[i])
        ensures j[i] == ' ' && 0 < i < |j| - 1 && !IsSpace(j[i + 1])
      {
        if i > |w| {
          assert j[i] == rest[i - |w| - 1];
        }
      }
    }
  }

  /** A character in neither the parts nor the separator is not in the joined text. */
  lemma {:induction false} JoinAvoids(parts: seq<string>, sep: string, ch: char)
    requires ch !in sep
    requires forall k | 0 <= k < |parts| :: ch !in parts[k]
    ensures ch !in Join(parts, sep)
    decreases |parts|
  {
    if |parts| > 1 {
      JoinAvoids(parts[1..], sep, ch);
    }
  }

  // ------------------------------------------------------------------
  // Metadata
  // ------------------------------------------------------------------

  /** A metadata value: a string or a boolean flag. */
  datatype MetaValue = Str(s: string) | Flag(b: bool)

  /** The metadata key marking a document as covering an issue type. */
  function IssueKey(issueType: string): (k: string)
    ensures |k| >= 6 && k[..6] == "issue_" && k[6..] == issueType
  {
    "issue_" + issueType
  }

  /** `k` is the issue key of one of `types`. */
  predicate IsIssueKeyOf(k: string, types: seq<string>) {
    |k| >= 6 && k[..6] == "issue_" && k[6..] in types
  }

  /** The loop of `_build_issue_metadata`, applied to `m`. */
  function AddIssueFlags(m: map<string, MetaValue>, types: seq<string>): (r: map<string, MetaValue>)
    ensures forall t | t in types :: IssueKey(t) in r && r[IssueKey(t)] == Flag(true)
    ensures forall k | k in r :: k in m || IsIssueKeyOf(k, types)
    ensures forall k | k in m && !IsIssueKeyOf(k, types) :: k in r && r[k] == m[k]
    decreases |types|
  {
    if |types| == 0 then m
    else
      var m' := m[IssueKey(types[0]) := Flag(true)];
      var r := AddIssueFlags(m', types[1..]);
      assert forall t | t in types[1..] :: t in types;
      assert forall k | k in m' :: k in m || k == IssueKey(types[0]);
      r
  }

  /**
   * `_build_issue_metadata`: `issue_types` holds the comma-joined list, and
   * `issue_<t>` is true for each listed type. An issue type named "types"
   * would overwrite the list with `True`.
   */
  function BuildIssueMetadata(types: seq<string>): (m: map<string, MetaValue>)
    ensures "issue_types" in m
    ensures forall t | t in types :: IssueKey(t) in m && m[IssueKey(t)] == Flag(true)
    ensures forall k | k in m :: k == "issue_types" || IsIssueKeyOf(k, types)
    ensures "types" !in types ==> m["issue_types"] == Str(Join(types, ","))
    ensures "types" in types ==> m["issue_types"] == Flag(true)
  {
    var base := map["issue_types" := Str(Join(types, ","))];
    var r := AddIssueFlags(base, types);
    assert "issue_types"[6..] == "types" && "issue_types"[..6] == "issue_";
    assert IssueKey("types") == "issue_types";
    r
  }

  /** The full metadata of a policy file: source, title and its issue flags. */
  function PolicyMetadata(filename: string): (m: map<string, MetaValue>)
    ensures "source" in m && m["source"] == Str(filename)
    ensures "title" in m && m["title"] == Str(TitleFromFilename(filename))
    ensures "issue_types" in m && m["issue_types"] == Str(Join(PolicyIssueTypes(filename), ","))
  {
    var types := PolicyIssueTypes(filename);
    assert "types" !in types;
    var issues := BuildIssueMetadata(types);
    assert issues["issue_types"] == Str(Join(types, ","));
    IssueKeysAreNotNames(types);
    var sourced := issues["source" := Str(filename)];
    assert "issue_types"[0] != "source"[0];
    assert sourced["issue_types"] == issues["issue_types"];
    var titled := sourced["title" := Str(TitleFromFilename(filename))];
    assert "issue_types"[0] != "title"[0] && "source"[0] != "title"[0];
    assert titled["source"] == sourced["source"];
    assert titled["issue_types"] == sourced["issue_types"];
    titled
  }

  /** A policy's metadata flags each issue type the policy covers. */
  lemma PolicyMetadataFlags(filename: string)
    ensures forall t | t in PolicyIssueTypes(filename) ::
      IssueKey(t) in PolicyMetadata(filename) && PolicyMetadata(filename)[IssueKey(t)] == Flag(true)
  {
    var types := PolicyIssueTypes(filename);
    IssueKeysAreNotNames(types);
  }

  /** A policy's metadata has no keys besides source, title, the list and its own issue flags. */
  lemma PolicyMetadataKeys(filename: string)
    ensures forall k | k in PolicyMetadata(filename) ::
      (k == "source" || k == "title" || k == "issue_types" || IsIssueKeyOf(k, PolicyIssueTypes(filename)))
  {
    var types := PolicyIssueTypes(filename);
    var issues := BuildIssueMetadata(types);
    assert PolicyMetadata(filename).Keys == issues.Keys + {"source", "title"};
  }

  /** No issue key collides with the `source` and `title` keys. */
  lemma IssueKeysAreNotNames(types: seq<string>)
    ensures forall t | t in types :: IssueKey(t) != "source" && IssueKey(t) != "title"
  {
    forall t | t in types
      ensures IssueKey(t) != "source" && IssueKey(t) != "title"
    {
      assert IssueKey(t)[0] == 'i';
    }
  }

  /**
   * A policy file carries the flag of an issue type exactly when the issue
   * map lists that type for it (the key of a type named "types" would be
   * the list itself).
   */
  lemma IssueFlagIffMapped(filename: string, t: string)
    requires t != "types"
    ensures IssueKey(t) in PolicyMetadata(filename) <==> t in PolicyIssueTypes(filename)
    ensures t in PolicyIssueTypes(filename) ==> PolicyMetadata(filename)[IssueKey(t)] == Flag(true)
  {
    PolicyMetadataFlags(filename);
    PolicyMetadataKeys(filename);
    var k := IssueKey(t);
    assert k[0] == 'i';
    assert "issue_types"[6..] == "types";
    assert k != "issue_types";
  }

  // ------------------------------------------------------------------
  // Documents
  // ------------------------------------------------------------------

  /**
   * One document to index. Its metadata is a function of its source file
   * name alone, so it is derived by `Metadata` rather than stored.
   */
  datatype PolicyDocument = PolicyDocument(id: string, document: string, source: string)

  /** The metadata stored with a document. */
  function Metadata(d: PolicyDocument): map<string, MetaValue> {
    PolicyMetadata(d.source)
  }

  /** The document id of a policy file. */
  function DocumentId(filename: string): string {
    "policy::" + filename
  }

  /** The document for a file with the given raw content. */
  function DocumentFor(filename: string, content: string): PolicyDocument {
    PolicyDocument(DocumentId(filename), Strip(content), filename)
  }

  /** `os.path.join(dir, name)` for a relative name. */
  function JoinPath(dir: string, name: string): string {
    if dir == "" || EndsWith(dir, "/") then dir + name else dir + "/" + name
  }

  /** A file that becomes a document: a Markdown name with non-blank content. */
  predicate Indexable(filename: string, content: string) {
    EndsWith(filename, ".md") && Strip(content) != ""
  }

  /** The names, in order, that `keep` accepts. */
  function KeepNames(names: seq<string>, keep: string -> bool): (r: seq<string>)
    ensures |r| <= |names|
    ensures forall k | 0 <= k < |r| :: r[k] in names && keep(r[k])
    decreases |names|
  {
    if |names| == 0 then []
    else
      var rest := KeepNames(names[1..], keep);
      assert forall k | 0 <= k < |rest| :: rest[k] in names;
      if keep(names[0]) then [names[0]] + rest else rest
  }

  /** Every accepted name is kept. */
  lemma {:induction false} KeepNamesComplete(names: seq<string>, keep: string -> bool, n: string)
    requires n in names && keep(n)
    ensures n in KeepNames(names, keep)
    decreases |names|
  {
    if n != names[0] {
      KeepNamesComplete(names[1..], keep, n);
    }
  }

  /** Keeping some of a sorted sequence of names keeps it sorted. */
  lemma {:induction false} KeepNamesSorted(names: seq<string>, keep: string -> bool)
    requires StrictlySorted(names)
    ensures StrictlySorted(KeepNames(names, keep))
    decreases |names|
  {
    if |names| > 0 {
      var rest := KeepNames(names[1..], keep);
      KeepNamesSorted(names[1..], keep);
      forall k | 0 <= k < |rest|
        ensures LexLess(names[0], rest[k])
      {
        var b :| 0 <= b < |names[1..]| && names[1..][b] == rest[k];
        assert names[b + 1] == rest[k];
      }
      var r := KeepNames(names, keep);
      if keep(names[0]) {
        assert r == [names[0]] + rest;
        forall i, j | 0 <= i < j < |r|
          ensures LexLess(r[i], r[j])
        {
          assert r[j] == rest[j - 1];
          if i > 0 {
            assert r[i] == rest[i - 1];
          }
        }
      }
    }
  }

  /** The names of the files in `dir` that become documents. */
  function IndexableIn(dir: string, read: string -> string): string -> bool {
    n => Indexable(n, read(JoinPath(dir, n)))
  }

  /** The documents of the given files of `dir`, in order. */
  function DocumentsOf(dir: string, names: seq<string>, read: string -> string): (docs: seq<PolicyDocument>)
    ensures |docs| == |names|
    ensures forall k | 0 <= k < |names| ::
      (docs[k] == DocumentFor(names[k], read(JoinPath(dir, names[k]))) && docs[k].source == names[k])
  {
    seq(|names|, k requires 0 <= k < |names| => DocumentFor(names[k], read(JoinPath(dir, names[k]))))
  }

  /**
   * `load_policy_documents`: nothing when the directory is missing;
   * otherwise one document per indexable file, in sorted file-name order.
   * `isDir` and `listing` describe the resolved directory.
   */
  function LoadPolicyDocuments(policiesDir: Option<string>, defaultDir: string, isDir: bool,
                               listing: seq<string>, read: string -> string): (docs: seq<PolicyDocument>)
    ensures !isDir ==> docs == []
  {
    if !isDir then []
    else
      var dir := OrElse(policiesDir, defaultDir);
      DocumentsOf(dir, KeepNames(SortedDistinct(listing), IndexableIn(dir, read)), read)
  }

  /** Each loaded document is the document of an indexable file of the listing. */
  lemma LoadPolicyDocumentsSound(policiesDir: Option<string>, defaultDir: string,
                                 listing: seq<string>, read: string -> string)
    ensures var dir := OrElse(policiesDir, defaultDir);
      var docs := LoadPolicyDocuments(policiesDir, defaultDir, true, listing, read);
      forall k | 0 <= k < |docs| ::
        (docs[k].source in listing && Indexable(docs[k].source, read(JoinPath(dir, docs[k].source)))
         && docs[k] == DocumentFor(docs[k].source, read(JoinPath(dir, docs[k].source))))
  {
    var dir := OrElse(policiesDir, defaultDir);
    var names := KeepNames(SortedDistinct(listing), IndexableIn(dir, read));
    assert forall k | 0 <= k < |names| :: names[k] in listing;
    assert LoadPolicyDocuments(policiesDir, defaultDir, true, listing, read) == DocumentsOf(dir, names, read);
  }

  /** The loaded documents come in strictly increasing order of file name. */
  lemma LoadPolicyDocumentsOrdered(policiesDir: Option<string>, defaultDir: string,
                                   listing: seq<string>, read: string -> string)
    ensures var docs := LoadPolicyDocuments(policiesDir, defaultDir, true, listing, read);
      forall i, j | 0 <= i < j < |docs| :: LexLess(docs[i].source, docs[j].source)
  {
    var dir := OrElse(policiesDir, defaultDir);
    var names := KeepNames(SortedDistinct(listing), IndexableIn(dir, read));
    KeepNamesSorted(SortedDistinct(listing), IndexableIn(dir, read));
    assert LoadPolicyDocuments(policiesDir, defaultDir, true, listing, read) == DocumentsOf(dir, names, read);
  }

  /** A directory listing's indexable files all get their document. */
  lemma LoadPolicyDocumentsComplete(policiesDir: Option<string>, defaultDir: string,
                                    listing: seq<string>, read: string -> string, n: string)
    requires n in listing
    requires Indexable(n, read(JoinPath(OrElse(policiesDir, defaultDir), n)))
    ensures DocumentFor(n, read(JoinPath(OrElse(policiesDir, defaultDir), n)))
      in LoadPolicyDocuments(policiesDir, defaultDir, true, listing, read)
  {
    var dir := OrElse(policiesDir, defaultDir);
    var names := KeepNames(SortedDistinct(listing), IndexableIn(dir, read));
    KeepNamesComplete(SortedDistinct(listing), IndexableIn(dir, read), n);
    var k :| 0 <= k < |names| && names[k] == n;
    assert LoadPolicyDocuments(policiesDir, defaultDir, true, listing, read)[k]
      == DocumentFor(n, read(JoinPath(dir, n)));
  }

  /** Why a single policy file cannot be indexed. */
  datatype IndexError = FileNotFound(path: string) | EmptyPolicy(path: string)

  /** `os.path.basename`: the part after the last slash. */
  function Basename(path: string): (name: string)
    ensures '/' !in name
    ensures EndsWith(path, name)
    ensures |name| < |path| ==> path[|path| - |name| - 1] == '/'
    decreases |path|
  {
    if |path| == 0 then ""
    else if path[|path| - 1] == '/' then ""
    else
      var init := Basename(path[..|path| - 1]);
      var name := init + [path[|path| - 1]];
      assert path[|path| - |name|..] == path[..|path| - 1][|path| - 1 - |init|..] + [path[|path| - 1]];
      name
  }

  /**
   * `upsert_policy_document`: a missing file and blank content are errors;
   * otherwise the document of the file, named by its base name.
   */
  function UpsertPolicyDocument(isFile: bool, path: string, read: string -> string): (r: Result<PolicyDocument, IndexError>)
    ensures !isFile ==> r == Err(FileNotFound(path))
    ensures isFile && Strip(read(path)) == "" ==> r == Err(EmptyPolicy(path))
    ensures r.Ok? <==> isFile && Strip(read(path)) != ""
    ensures r.Ok? ==>
      (r.value.id == DocumentId(Basename(path)) && r.value.document == Strip(read(path))
       && r.value.source == Basename(path))
  {
    if !isFile then Err(FileNotFound(path))
    else if Strip(read(path)) == "" then Err(EmptyPolicy(path))
    else Ok(DocumentFor(Basename(path), read(path)))
  }

  /** The base name of a path ending in a slash-free name is that name. */
  lemma BasenameOfJoin(dir: string, name: string)
    requires '/' !in name
    ensures Basename(JoinPath(dir, name)) == name
  {
    var p := JoinPath(dir, name);
    var b := Basename(p);
    assert p[|p| - |name|..] == name;
    assert forall i | |p| - |name| <= i < |p| :: p[i] == name[i - (|p| - |name|)];
    assert |name| < |p| ==> p[|p| - |name| - 1] == '/';
    assert |b| == |name|;
  }

  /**
   * Upserting one file of the policy directory yields the very document a
   * full load produces for it.
   */
  lemma UpsertAgreesWithLoad(policiesDir: Option<string>, defaultDir: string, listing: seq<string>,
                             read: string -> string, name: string)
    requires name in listing && '/' !in name
    requires Indexable(name, read(JoinPath(OrElse(policiesDir, defaultDir), name)))
    ensures var r := UpsertPolicyDocument(true, JoinPath(OrElse(policiesDir, defaultDir), name), read);
      r.Ok? && r.value in LoadPolicyDocuments(policiesDir, defaultDir, true, listing, read)
  {
    BasenameOfJoin(OrElse(policiesDir, defaultDir), name);
    LoadPolicyDocumentsComplete(policiesDir, defaultDir, listing, read, name);
  }
}

=== FILE: kb_chunk.dfy ===
/**
 * The line-based chunker of the knowledge-base index script
 * (p2-umber-abbey-main/scripts/kb_index.py): a text is cut at line
 * boundaries into chunks of at most `size` characters, and each chunk gets
 * the id `<file>#chunk-<n>`, counting from 1.
 *
 * `ChunkLines` is the loop as written. When the first line alone is longer
 * than `size`, it flushes the still-empty buffer and so emits an empty first
 * chunk. `FixedChunkLines` flushes only a non-empty buffer. The index
 * entries follow the script (`FileEntries`, `IndexEntries`); the corrected
 * entries are `FixedFileEntries`.
 */
module KbChunk {
  import opened Strings

  /** The script's default chunk size. */
  const DefaultChunkSize: nat := 400

  /** Lines that are never empty, as `splitlines(True)` produces them. */
  predicate NonEmptyLines(lines: seq<string>) {
    forall k | 0 <= k < |lines| :: lines[k] != ""
  }

  /** Every line of `lines` is one of `all`. */
  predicate LinesOf(lines: seq<string>, all: seq<string>) {
    forall k | 0 <= k < |lines| :: lines[k] in all
  }

  // ------------------------------------------------------------------
  // The chunker as written
  // ------------------------------------------------------------------

  /**
   * The chunking loop over the remaining lines, with `buffer` accumulated
   * so far: a line that would push the buffer past `size` first flushes the
   * buffer (even an empty one); a non-empty buffer is flushed at the end.
   */
  function ChunkLines(lines: seq<string>, buffer: string, size: nat): seq<string>
    decreases |lines|
  {
    if |lines| == 0 then (if buffer != "" then [buffer] else [])
    else if |buffer| + |lines[0]| > size then [buffer] + ChunkLines(lines[1..], lines[0], size)
    else ChunkLines(lines[1..], buffer + lines[0], size)
  }

  /** `chunk(t, size)` as written. */
  function Chunk(t: string, size: nat): seq<string> {
    ChunkLines(SplitLinesKeepEnds(t), "", size)
  }

  /** The chunks of the remaining lines concatenate to the buffer followed by those lines. */
  lemma {:induction false} ChunkLinesConcat(lines: seq<string>, buffer: string, size: nat)
    ensures Concat(ChunkLines(lines, buffer, size)) == buffer + Concat(lines)
    decreases |lines|
  {
    if |lines| == 0 {
      assert buffer + "" == buffer;
    } else if |buffer| + |lines[0]| > size {
      ChunkLinesConcat(lines[1..], lines[0], size);
      var rest := ChunkLines(lines[1..], lines[0], size);
      assert ([buffer] + rest)[1..] == rest;
      assert Concat(lines) == lines[0] + Concat(lines[1..]);
    } else {
      ChunkLinesConcat(lines[1..], buffer + lines[0], size);
      assert Concat(lines) == lines[0] + Concat(lines[1..]);
    }
  }

  /** Chunking loses, adds and reorders nothing: the chunks concatenate to the text. */
  lemma ChunkConcat(t: string, size: nat)
    ensures Concat(Chunk(t, size)) == t
  {
    ChunkLinesConcat(SplitLinesKeepEnds(t), "", size);
    SplitLinesKeepEndsConcat(t);
  }

  /** Only the empty text yields no chunks: a non-empty final buffer is always emitted. */
  lemma NoChunksIffEmpty(t: string, size: nat)
    ensures Chunk(t, size) == [] <==> t == ""
  {
    ChunkConcat(t, size);
  }

  /**
   * With non-empty lines, an empty chunk can only be the flushed empty
   * starting buffer, in front, when the first line alone is too long.
   */
  lemma {:induction false} ChunkLinesEmpty(lines: seq<string>, buffer: string, size: nat)
    requires NonEmptyLines(lines)
    ensures forall i | 0 <= i < |ChunkLines(lines, buffer, size)| && ChunkLines(lines, buffer, size)[i] == "" ::
      (i == 0 && buffer == "" && |lines| > 0 && |lines[0]| > size)
    decreases |lines|
  {
    if |lines| > 0 {
      if |buffer| + |lines[0]| > size {
        ChunkLinesEmpty(lines[1..], lines[0], size);
      } else {
        ChunkLinesEmpty(lines[1..], buffer + lines[0], size);
      }
    }
  }

  /** An empty chunk appears only first, and only when the first line exceeds `size`. */
  lemma ChunkEmptyOnlyFirst(t: string, size: nat, i: nat)
    requires i < |Chunk(t, size)| && Chunk(t, size)[i] == ""
    ensures i == 0 && |SplitLinesKeepEnds(t)| > 0 && |SplitLinesKeepEnds(t)[0]| > size
  {
    ChunkLinesEmpty(SplitLinesKeepEnds(t), "", size);
  }

  /** A text without line breaks is a single line. */
  lemma OneLine(s: string)
    requires |s| > 0 && forall k | 0 <= k < |s| :: !IsLineBreak(s[k])
    ensures SplitLinesKeepEnds(s) == [s]
  {
    assert FirstBreak(s, 0) == |s|;
    assert s[|s|..] == [];
    assert s[..|s|] == s;
  }

  /** The script's chunker emits an empty first chunk for a single line longer than `size`. */
  lemma LongLineGivesEmptyChunk(s: string, size: nat)
    requires |s| > size && forall k | 0 <= k < |s| :: !IsLineBreak(s[k])
    ensures Chunk(s, size) == ["", s]
  {
    OneLine(s);
    assert |""| + |[s][0]| > size;
    assert ChunkLines([s], "", size) == [""] + ChunkLines([s][1..], s, size);
    assert [s][1..] == [];
  }

  // ------------------------------------------------------------------
  // The corrected chunker
  // ------------------------------------------------------------------

  /** The chunking loop flushing only a non-empty buffer. */
  function FixedChunkLines(lines: seq<string>, buffer: string, size: nat): seq<string>
    decreases |lines|
  {
    if |lines| == 0 then (if buffer != "" then [buffer] else [])
    else if buffer != "" && |buffer| + |lines[0]| > size then [buffer] + FixedChunkLines(lines[1..], lines[0], size)
    else FixedChunkLines(lines[1..], buffer + lines[0], size)
  }

  /** `chunk(t, size)` without the empty chunk. */
  function FixedChunk(t: string, size: nat): seq<string> {
    FixedChunkLines(SplitLinesKeepEnds(t), "", size)
  }

  /** The corrected chunks also concatenate to the buffer followed by the lines. */
  lemma {:induction false} FixedChunkLinesConcat(lines: seq<string>, buffer: string, size: nat)
    ensures Concat(FixedChunkLines(lines, buffer, size)) == buffer + Concat(lines)
    decreases |lines|
  {
    if |lines| == 0 {
      assert buffer + "" == buffer;
    } else if buffer != "" && |buffer| + |lines[0]| > size {
      FixedChunkLinesConcat(lines[1..], lines[0], size);
      var rest := FixedChunkLines(lines[1..], lines[0], size);
      assert ([buffer] + rest)[1..] == rest;
      assert Concat(lines) == lines[0] + Concat(lines[1..]);
    } else {
      FixedChunkLinesConcat(lines[1..], buffer + lines[0], size);
      assert Concat(lines) == lines[0] + Concat(lines[1..]);
    }
  }

  /** The corrected chunks concatenate to the text. */
  lemma FixedChunkConcat(t: string, size: nat)
    ensures Concat(FixedChunk(t, size)) == t
  {
    FixedChunkLinesConcat(SplitLinesKeepEnds(t), "", size);
    SplitLinesKeepEndsConcat(t);
  }

  /** A non-empty buffer is never lost, and only non-empty buffers are flushed. */
  lemma {:induction false} FixedChunkLinesNonEmpty(lines: seq<string>, buffer: string, size: nat)
    requires NonEmptyLines(lines)
    ensures forall i | 0 <= i < |FixedChunkLines(lines, buffer, size)| :: FixedChunkLines(lines, buffer, size)[i] != ""
    decreases |lines|
  {
    if |lines| > 0 {
      if buffer != "" && |buffer| + |lines[0]| > size {
        FixedChunkLinesNonEmpty(lines[1..], lines[0], size);
      } else {
        FixedChunkLinesNonEmpty(lines[1..], buffer + lines[0], size);
      }
    }
  }

  /** The corrected chunker never emits an empty chunk. */
  lemma FixedChunkNonEmpty(t: string, size: nat)
    ensures forall i | 0 <= i < |FixedChunk(t, size)| :: FixedChunk(t, size)[i] != ""
  {
    FixedChunkLinesNonEmpty(SplitLinesKeepEnds(t), "", size);
  }

  /**
   * A chunk fits in `size` unless it is a single line that does not: the
   * buffer only outgrows `size` by taking one long line into an empty buffer.
   */
  lemma {:induction false} FixedChunkLinesBound(lines: seq<string>, buffer: string, size: nat, all: seq<string>)
    requires LinesOf(lines, all)
    requires |buffer| <= size || buffer in all
    ensures forall i | 0 <= i < |FixedChunkLines(lines, buffer, size)| ::
      (|FixedChunkLines(lines, buffer, size)[i]| <= size || FixedChunkLines(lines, buffer, size)[i] in all)
    decreases |lines|
  {
    if |lines| > 0 {
      assert lines[0] in all;
      if buffer != "" && |buffer| + |lines[0]| > size {
        FixedChunkLinesBound(lines[1..], lines[0], size, all);
      } else {
        assert buffer == "" ==> buffer + lines[0] == lines[0];
        FixedChunkLinesBound(lines[1..], buffer + lines[0], size, all);
      }
    }
  }

  /** Every corrected chunk has at most `size` characters, or is one line of the text. */
  lemma FixedChunkBound(t: string, size: nat)
    ensures forall i | 0 <= i < |FixedChunk(t, size)| ::
      (|FixedChunk(t, size)[i]| <= size || FixedChunk(t, size)[i] in SplitLinesKeepEnds(t))
  {
    FixedChunkLinesBound(SplitLinesKeepEnds(t), "", size, SplitLinesKeepEnds(t));
  }

  /** From a non-empty buffer on, both chunkers agree. */
  lemma {:induction false} ChunkersAgreeFromNonEmpty(lines: seq<string>, buffer: string, size: nat)
    requires NonEmptyLines(lines) && buffer != ""
    ensures ChunkLines(lines, buffer, size) == FixedChunkLines(lines, buffer, size)
    decreases |lines|
  {
    if |lines| > 0 {
      if |buffer| + |lines[0]| > size {
        ChunkersAgreeFromNonEmpty(lines[1..], lines[0], size);
      } else {
        ChunkersAgreeFromNonEmpty(lines[1..], buffer + lines[0], size);
      }
    }
  }

  /**
   * The two chunkers differ exactly by the empty first chunk the script
   * emits when the first line is longer than `size`.
   */
  lemma ChunkIsFixedChunkPlusEmpty(t: string, size: nat)
    ensures var lines := SplitLinesKeepEnds(t);
      if |lines| > 0 && |lines[0]| > size then Chunk(t, size) == [""] + FixedChunk(t, size)
      else Chunk(t, size) == FixedChunk(t, size)
  {
    var lines := SplitLinesKeepEnds(t);
    if |lines| > 0 {
      assert "" + lines[0] == lines[0];
      ChunkersAgreeFromNonEmpty(lines[1..], lines[0], size);
    }
  }

  // ------------------------------------------------------------------
  // Chunk ids and index entries
  // ------------------------------------------------------------------

  /** `f"{f}#chunk-{i+1}"` */
  function ChunkId(file: string, i: nat): string {
    file + "#chunk-" + Decimal(i + 1)
  }

  /** Ids of the chunks of one file are pairwise distinct. */
  lemma ChunkIdsDistinct(file: string, i: nat, j: nat)
    requires ChunkId(file, i) == ChunkId(file, j)
    ensures i == j
  {
    var p := file + "#chunk-";
    assert ChunkId(file, i)[|p|..] == Decimal(i + 1);
    assert ChunkId(file, j)[|p|..] == Decimal(j + 1);
    DecimalInjective(i + 1, j + 1);
  }

  /** One entry of the index file. */
  datatype ChunkDoc = ChunkDoc(docId: string, file: string, text: string)

  /** A file's chunks as index entries, numbered from 1 in chunk order. */
  function Entries(file: string, chunks: seq<string>): (docs: seq<ChunkDoc>)
    ensures |docs| == |chunks|
    ensures forall i | 0 <= i < |docs| ::
      (docs[i].docId == ChunkId(file, i) && docs[i].file == file && docs[i].text == chunks[i])
  {
    seq(|chunks|, i requires 0 <= i < |chunks| => ChunkDoc(ChunkId(file, i), file, chunks[i]))
  }

  /** The texts of a file's entries, in order. */
  function Texts(docs: seq<ChunkDoc>): (texts: seq<string>)
    ensures |texts| == |docs| && forall i | 0 <= i < |docs| :: texts[i] == docs[i].text
  {
    seq(|docs|, i requires 0 <= i < |docs| => docs[i].text)
  }

  /** The entries of one file never share an id. */
  lemma EntriesIdsDistinct(file: string, chunks: seq<string>)
    ensures var docs := Entries(file, chunks);
      forall i, j | 0 <= i < j < |docs| :: docs[i].docId != docs[j].docId
  {
    var docs := Entries(file, chunks);
    forall i, j | 0 <= i < j < |docs|
      ensures docs[i].docId != docs[j].docId
    {
      if docs[i].docId == docs[j].docId {
        ChunkIdsDistinct(file, i, j);
      }
    }
  }

  /** The script's entries for one file: the chunks of `chunk(txt)` as written. */
  function FileEntries(file: string, text: string): (docs: seq<ChunkDoc>)
    ensures |docs| == |Chunk(text, DefaultChunkSize)|
    ensures forall i | 0 <= i < |docs| ::
      (docs[i].docId == ChunkId(file, i) && docs[i].file == file && docs[i].text == Chunk(text, DefaultChunkSize)[i])
  {
    Entries(file, Chunk(text, DefaultChunkSize))
  }

  /**
   * The script's entries of one file have distinct ids and rebuild the file;
   * an entry's text is empty exactly when it is the first one and the first
   * line of the file is longer than the chunk size.
   */
  lemma FileEntriesFaithful(file: string, text: string)
    ensures var docs := FileEntries(file, text);
      (forall i, j | 0 <= i < j < |docs| :: docs[i].docId != docs[j].docId)
      && Concat(Texts(docs)) == text
    ensures var docs := FileEntries(file, text);
      var lines := SplitLinesKeepEnds(text);
      forall i | 0 <= i < |docs| ::
        (docs[i].text == "" <==> i == 0 && |lines| > 0 && |lines[0]| > DefaultChunkSize)
  {
    var docs := FileEntries(file, text);
    var lines := SplitLinesKeepEnds(text);
    EntriesIdsDistinct(file, Chunk(text, DefaultChunkSize));
    ChunkConcat(text, DefaultChunkSize);
    assert Texts(docs) == Chunk(text, DefaultChunkSize);
    ChunkIsFixedChunkPlusEmpty(text, DefaultChunkSize);
    forall i | 0 <= i < |docs|
      ensures docs[i].text == "" <==> i == 0 && |lines| > 0 && |lines[0]| > DefaultChunkSize
    {
      if docs[i].text == "" {
        ChunkEmptyOnlyFirst(text, DefaultChunkSize, i);
      }
    }
  }

  /** The corrected entries for one file: the chunks of the corrected chunker. */
  function FixedFileEntries(file: string, text: string): (docs: seq<ChunkDoc>)
    ensures |docs| == |FixedChunk(text, DefaultChunkSize)|
    ensures forall i | 0 <= i < |docs| ::
      (docs[i].docId == ChunkId(file, i) && docs[i].file == file && docs[i].text == FixedChunk(text, DefaultChunkSize)[i])
  {
    Entries(file, FixedChunk(text, DefaultChunkSize))
  }

  /**
   * The corrected entries of one file have distinct ids and non-empty
   * texts, and their texts rebuild the file.
   */
  lemma FixedFileEntriesFaithful(file: string, text: string)
    ensures var docs := FixedFileEntries(file, text);
      (forall i, j | 0 <= i < j < |docs| :: docs[i].docId != docs[j].docId)
      && (forall i | 0 <= i < |docs| :: docs[i].text != "")
      && Concat(Texts(docs)) == text
  {
    var docs := FixedFileEntries(file, text);
    EntriesIdsDistinct(file, FixedChunk(text, DefaultChunkSize));
    FixedChunkNonEmpty(text, DefaultChunkSize);
    FixedChunkConcat(text, DefaultChunkSize);
    assert Texts(docs) == FixedChunk(text, DefaultChunkSize);
  }

  /** Without an overlong first line, the script's entries are the corrected ones. */
  lemma FileEntriesAgree(file: string, text: string)
    requires var lines := SplitLinesKeepEnds(text); !(|lines| > 0 && |lines[0]| > DefaultChunkSize)
    ensures FileEntries(file, text) == FixedFileEntries(file, text)
  {
    ChunkIsFixedChunkPlusEmpty(text, DefaultChunkSize);
  }

  /**
   * With an overlong first line, the script's `chunk-1` is empty and every
   * corrected entry appears one number higher.
   */
  lemma FileEntriesShifted(file: string, text: string)
    requires var lines := SplitLinesKeepEnds(text); |lines| > 0 && |lines[0]| > DefaultChunkSize
    ensures var docs := FileEntries(file, text);
      var fixed := FixedFileEntries(file, text);
      |docs| == |fixed| + 1 && docs[0] == ChunkDoc(ChunkId(file, 0), file, "")
      && forall i | 0 <= i < |fixed| :: docs[i + 1] == fixed[i].(docId := ChunkId(file, i + 1))
  {
    ChunkIsFixedChunkPlusEmpty(text, DefaultChunkSize);
    var cs := Chunk(text, DefaultChunkSize);
    var fs := FixedChunk(text, DefaultChunkSize);
    assert cs == [""] + fs;
    var docs := FileEntries(file, text);
    var fixed := FixedFileEntries(file, text);
    forall i | 0 <= i < |fixed|
      ensures docs[i + 1] == fixed[i].(docId := ChunkId(file, i + 1))
    {
      assert cs[i + 1] == fs[i];
    }
  }

  /**
   * The script's loop: every Markdown file of the listing, in listing order,
   * contributes its entries. `read(f)` is the content of the policy file `f`.
   */
  function IndexEntries(listing: seq<string>, read: string -> string): (docs: seq<ChunkDoc>)
    ensures forall i | 0 <= i < |docs| :: (docs[i].file in listing && EndsWith(docs[i].file, ".md"))
    decreases |listing|
  {
    if |listing| == 0 then []
    else
      var here := if EndsWith(listing[0], ".md") then FileEntries(listing[0], read(listing[0])) else [];
      var rest := IndexEntries(listing[1..], read);
      assert forall i | 0 <= i < |rest| :: rest[i].file in listing;
      here + rest
  }

  /** Every entry of the index is an entry of its own file. */
  lemma {:induction false} IndexEntriesFromFiles(listing: seq<string>, read: string -> string, i: nat)
    requires i < |IndexEntries(listing, read)|
    ensures IndexEntries(listing, read)[i] in FileEntries(IndexEntries(listing, read)[i].file, read(IndexEntries(listing, read)[i].file))
    decreases |listing|
  {
    var here := if EndsWith(listing[0], ".md") then FileEntries(listing[0], read(listing[0])) else [];
    var rest := IndexEntries(listing[1..], read);
    assert IndexEntries(listing, read) == here + rest;
    if i < |here| {
      assert IndexEntries(listing, read)[i] == here[i] && here[i].file == listing[0];
    } else {
      IndexEntriesFromFiles(listing[1..], read, i - |here|);
      assert IndexEntries(listing, read)[i] == rest[i - |here|];
    }
  }

  /** A listing of one file contributes exactly that file's entries, if it is Markdown. */
  lemma IndexEntriesOne(f: string, read: string -> string)
    ensures IndexEntries([f], read) == if EndsWith(f, ".md") then FileEntries(f, read(f)) else []
  {
    assert [f][1..] == [];
    var here := if EndsWith(f, ".md") then FileEntries(f, read(f)) else [];
    assert here + [] == here;
  }

  /** Indexing a listing is indexing its parts one after the other, so listing order is kept. */
  lemma {:induction false} IndexEntriesAppend(a: seq<string>, b: seq<string>, read: string -> string)
    ensures IndexEntries(a + b, read) == IndexEntries(a, read) + IndexEntries(b, read)
    decreases |a|
  {
    if |a| == 0 {
      assert a + b == b;
    } else {
      assert (a + b)[0] == a[0];
      assert (a + b)[1..] == a[1..] + b;
      IndexEntriesAppend(a[1..], b, read);
      var here := if EndsWith(a[0], ".md") then FileEntries(a[0], read(a[0])) else [];
      assert here + (IndexEntries(a[1..], read) + IndexEntries(b, read))
        == (here + IndexEntries(a[1..], read)) + IndexEntries(b, read);
    }
  }

  /** Every entry of every Markdown file of the listing is in the index. */
  lemma IndexEntriesComplete(listing: seq<string>, read: string -> string, k: nat)
    requires k < |listing| && EndsWith(listing[k], ".md")
    ensures forall d | d in FileEntries(listing[k], read(listing[k])) :: d in IndexEntries(listing, read)
  {
    var f := listing[k];
    assert listing == listing[..k] + ([f] + listing[k + 1..]);
    IndexEntriesAppend(listing[..k], [f] + listing[k + 1..], read);
    IndexEntriesAppend([f], listing[k + 1..], read);
    IndexEntriesOne(f, read);
  }
}

=== FILE: nodes.dfy ===
/**
 * The step functions of the triage graph that are defined in
 * app/graph/nodes.py. Each takes the current state (and the tables it would
 * read from disk, as parameters) and returns a partial update.
 *
 * Every declared channel is assumed present in the state, as the service
 * and its tests always supply all of them; so `state.get(key, default)` on
 * a declared key yields the stored value, `None` included, and an f-string
 * renders a stored `None` as "None".
 */
module Nodes {
  import opened Wrappers
  import opened Strings
  import opened Schema
  import opened OrderTools
  import opened TriageState
  import opened OrderIdPattern

  /** One row of the keyword classification table. */
  datatype IssueRule = IssueRule(keyword: string, issueType: string)

  /** One row of the reply template table. */
  datatype ReplyRule = ReplyRule(issueType: string, template: string)

  /** An exception raised inside a node. */
  datatype NodeError = TypeError(detail: string)

  const UnknownIssue: string := "unknown"
  const NamePlaceholder: string := "{{customer_name}}"
  const IdPlaceholder: string := "{{order_id}}"
  const DefaultCustomerName: string := "Customer"
  const DraftFallbackTemplate: string :=
    "Hi {{customer_name}}, we are reviewing order {{order_id}}. We will get back to you shortly."

  // ------------------------------------------------------------------
  // ingest
  // ------------------------------------------------------------------

  /** `ingest`: records the ticket as a human message and extracts an order id if none is set. */
  function Ingest(s: GraphState): (u: Update)
    ensures u.messages == [Message(Human, s.ticketText, None)]
    ensures u.sender == Some(Some("ingest"))
    ensures u.(orderId := None, messages := [], sender := None) == NoWrites
    ensures u.orderId.Some?
    ensures Truthy(s.orderId) ==> u.orderId.value == s.orderId
    ensures !Truthy(s.orderId) && ExtractOrderId(s.ticketText, true).Some? ==>
      u.orderId.value == ExtractOrderId(s.ticketText, true)
    ensures ExtractOrderId(s.ticketText, true).None? ==> u.orderId.value == s.orderId
  {
    var orderId :=
      if !Truthy(s.orderId) && s.ticketText != "" && ExtractOrderId(s.ticketText, true).Some?
      then ExtractOrderId(s.ticketText, true)
      else s.orderId;
    NoWrites.(orderId := Some(orderId), messages := [Message(Human, s.ticketText, None)], sender := Some(Some("ingest")))
  }

  /** After ingest the history has grown by the ticket, and a set order id is never replaced. */
  lemma IngestMerged(s: GraphState)
    ensures Merge(s, Ingest(s)).messages == s.messages + [Message(Human, s.ticketText, None)]
    ensures Truthy(s.orderId) ==> Merge(s, Ingest(s)) == s.(messages := s.messages + [Message(Human, s.ticketText, None)], sender := Some("ingest"))
    ensures ExtractOrderId(s.ticketText, true).None? ==> Merge(s, Ingest(s)).orderId == s.orderId
  {
  }

  // ------------------------------------------------------------------
  // classify_issue
  // ------------------------------------------------------------------

  /** Index of the first rule whose keyword occurs in `text`, or `|rules|`. */
  function FirstMatchingRule(rules: seq<IssueRule>, text: string): (k: nat)
    ensures k <= |rules|
    ensures forall j | 0 <= j < k :: !Contains(text, rules[j].keyword)
    ensures k < |rules| ==> Contains(text, rules[k].keyword)
  {
    if |rules| == 0 then 0
    else if Contains(text, rules[0].keyword) then 0
    else 1 + FirstMatchingRule(rules[1..], text)
  }

  /** First-match keyword classification over the lower-cased text. */
  function ClassifyText(rules: seq<IssueRule>, text: string): (issueType: string)
    ensures (forall j | 0 <= j < |rules| :: !Contains(Lower(text), rules[j].keyword)) ==> issueType == UnknownIssue
    ensures (exists j | 0 <= j < |rules| :: Contains(Lower(text), rules[j].keyword)) ==>
      exists k | 0 <= k < |rules| ::
        Contains(Lower(text), rules[k].keyword) && issueType == rules[k].issueType
        && forall j | 0 <= j < k :: !Contains(Lower(text), rules[j].keyword)
  {
    var k := FirstMatchingRule(rules, Lower(text));
    if k < |rules| then rules[k].issueType else UnknownIssue
  }

  /** A keyword holding an upper-case letter can never match the lower-cased text. */
  lemma UpperCaseKeywordNeverMatches(text: string, keyword: string, j: nat)
    requires j < |keyword| && IsAsciiUpper(keyword[j])
    ensures !Contains(Lower(text), keyword)
  {
    var t := Lower(text);
    forall i | 0 <= i <= |t|
      ensures !OccursAt(t, keyword, i)
    {
      if i + |keyword| <= |t| {
        assert t[i..i + |keyword|][j] == t[i + j];
        assert !IsAsciiUpper(t[i + j]);
      }
    }
  }

  /** `classify_issue` writes the issue type and the sender, nothing else. */
  function ClassifyIssue(s: GraphState, rules: seq<IssueRule>): (u: Update)
    ensures u.issueType == Some(Some(ClassifyText(rules, s.ticketText)))
    ensures u.sender == Some(Some("classify_issue"))
    ensures u.(issueType := None, sender := None) == NoWrites
  {
    NoWrites.(issueType := Some(Some(ClassifyText(rules, s.ticketText))), sender := Some(Some("classify_issue")))
  }

  // ------------------------------------------------------------------
  // fetch_order_node
  // ------------------------------------------------------------------

  /** `fetch_order_node`: looks the order up only when an order id is set. */
  function FetchOrderNode(s: GraphState, table: OrderTable): (u: Update)
    ensures !Truthy(s.orderId) ==> u.orderDetails == Some(None)
    ensures Truthy(s.orderId) ==> u.orderDetails == Some(FetchOrder(table, s.orderId.value))
    ensures u.sender == Some(Some("fetch_order_node"))
    ensures u.(orderDetails := None, sender := None) == NoWrites
  {
    var details := if !Truthy(s.orderId) then None else FetchOrder(table, s.orderId.value);
    NoWrites.(orderDetails := Some(details), sender := Some(Some("fetch_order_node")))
  }

  /** Without an order id the order table is not consulted. */
  lemma FetchWithoutIdIgnoresTable(s: GraphState, t1: OrderTable, t2: OrderTable)
    requires !Truthy(s.orderId)
    ensures FetchOrderNode(s, t1) == FetchOrderNode(s, t2)
    ensures Merge(s, FetchOrderNode(s, t1)).orderDetails.None?
  {
  }

  // ------------------------------------------------------------------
  // Templates
  // ------------------------------------------------------------------

  /** Index of the first reply rule for the issue type, or `|replies|`; `None` matches no rule. */
  function FirstReplyIndex(replies: seq<ReplyRule>, issueType: Option<string>): (k: nat)
    ensures k <= |replies|
    ensures forall j | 0 <= j < k :: Some(replies[j].issueType) != issueType
    ensures k < |replies| ==> Some(replies[k].issueType) == issueType
  {
    if |replies| == 0 then 0
    else if Some(replies[0].issueType) == issueType then 0
    else 1 + FirstReplyIndex(replies[1..], issueType)
  }

  /** The first template for the issue type; the fallback when none exists or it is empty. */
  function SelectTemplate(replies: seq<ReplyRule>, issueType: Option<string>, fallback: string): (t: string)
    ensures issueType.None? ==> t == fallback
    ensures (forall j | 0 <= j < |replies| :: Some(replies[j].issueType) != issueType) ==> t == fallback
    ensures t == fallback || exists k | 0 <= k < |replies| ::
      Some(replies[k].issueType) == issueType && t == replies[k].template && t != ""
      && forall j | 0 <= j < k :: Some(replies[j].issueType) != issueType
  {
    var k := FirstReplyIndex(replies, issueType);
    if k < |replies| && replies[k].template != "" then replies[k].template else fallback
  }

  /** Substitutes the customer name, then the order id, for every placeholder. */
  function FillTemplate(template: string, name: string, id: string): (text: string)
    ensures text == Join(Split(Join(Split(template, NamePlaceholder), name), IdPlaceholder), id)
  {
    var named := Replace(template, NamePlaceholder, name);
    ReplaceIsJoinOfSplit(template, NamePlaceholder, name);
    ReplaceIsJoinOfSplit(named, IdPlaceholder, id);
    Replace(named, IdPlaceholder, id)
  }

  /** A template without placeholders is used verbatim. */
  lemma {:induction false} ReplaceAbsentIsIdentity(s: string, target: string, repl: string)
    requires |target| > 0 && !Contains(s, target)
    ensures Replace(s, target, repl) == s
    decreases |s|
  {
    if |s| >= |target| {
      assert !OccursAt(s, target, 0);
      assert forall i | 0 <= i <= |s[1..]| && OccursAt(s[1..], target, i) :: OccursAt(s, target, i + 1);
      ReplaceAbsentIsIdentity(s[1..], target, repl);
    }
  }

  /** The note an admin's feedback adds below a draft. */
  function AdminNote(feedback: string): string {
    "\n\n[Admin Note: " + feedback + "]"
  }

  /** A draft with the admin's feedback, when there is any, appended as a note. */
  function WithAdminNote(draft: string, feedback: Option<string>): (r: string)
    ensures StartsWith(r, draft)
    ensures Truthy(feedback) ==> EndsWith(r, AdminNote(feedback.value)) && |r| == |draft| + |AdminNote(feedback.value)|
    ensures !Truthy(feedback) ==> |r| == |draft|
  {
    if Truthy(feedback) then
      var r := draft + AdminNote(feedback.value);
      assert r[..|draft|] == draft;
      assert r[|r| - |AdminNote(feedback.value)|..] == AdminNote(feedback.value);
      r
    else
      assert draft[..|draft|] == draft;
      draft
  }

  // ------------------------------------------------------------------
  // draft_reply
  // ------------------------------------------------------------------

  /**
   * The evidence line: the stored order id and issue type, then the order's
   * status when there are order details. A stored `None` renders as "None".
   */
  function Evidence(s: GraphState): (e: string)
    ensures StartsWith(e, "Order ID: " + PyStr(s.orderId) + ", Issue Type: " + PyStr(s.issueType))
    ensures s.orderDetails.None? ==> |e| == |"Order ID: " + PyStr(s.orderId) + ", Issue Type: " + PyStr(s.issueType)|
    ensures s.orderDetails.Some? ==>
      EndsWith(e, ", Status: " + s.orderDetails.value.status)
      && |e| == |"Order ID: " + PyStr(s.orderId) + ", Issue Type: " + PyStr(s.issueType)| + |", Status: " + s.orderDetails.value.status|
  {
    var head := "Order ID: " + PyStr(s.orderId) + ", Issue Type: " + PyStr(s.issueType);
    var tail := if s.orderDetails.Some? then ", Status: " + s.orderDetails.value.status else "";
    var e := head + tail;
    assert e[..|head|] == head;
    assert e[|e| - |tail|..] == tail;
    e
  }

  /** The recommendation line: the issue type, then the stored order id. */
  function Recommendation(s: GraphState): (r: string)
    ensures StartsWith(r, "Recommend " + PyStr(s.issueType))
    ensures EndsWith(r, " resolution for order " + PyStr(s.orderId))
    ensures |r| == |"Recommend " + PyStr(s.issueType)| + |" resolution for order " + PyStr(s.orderId)|
  {
    var head := "Recommend " + PyStr(s.issueType);
    var tail := " resolution for order " + PyStr(s.orderId);
    var r := head + tail;
    assert r[..|head|] == head;
    assert r[|r| - |tail|..] == tail;
    r
  }

  /**
   * The update `draft_reply` returns for a given draft text: the draft, its
   * evidence and recommendation, the pending review and the sender; the
   * ticket, ids, details and admin feedback are left unwritten.
   */
  function DraftUpdate(s: GraphState, draft: string): (u: Update)
    ensures u.messages == [Message(Ai, draft, None)]
    ensures u.draftReply == Some(Some(draft))
    ensures u.reviewStatus == Some(Some(Pending))
    ensures u.evidence == Some(Some(Evidence(s))) && u.recommendation == Some(Some(Recommendation(s)))
    ensures u.sender == Some(Some("draft_reply"))
    ensures u.ticketText.None? && u.orderId.None? && u.issueType.None? && u.orderDetails.None? && u.adminFeedback.None?
  {
    NoWrites.(
      draftReply := Some(Some(draft)),
      evidence := Some(Some(Evidence(s))),
      recommendation := Some(Some(Recommendation(s))),
      messages := [Message(Ai, draft, None)],
      reviewStatus := Some(Some(Pending)),
      sender := Some(Some("draft_reply")))
  }

  /**
   * `draft_reply` as written. Without order details the order id is read
   * back from the state, and a stored `None` reaches `str.replace`, which
   * raises `TypeError`.
   */
  function DraftReply(s: GraphState, replies: seq<ReplyRule>): (r: Result<Update, NodeError>)
    ensures r.Err? <==> s.orderDetails.None? && s.orderId.None?
    ensures r.Ok? ==> r.value.reviewStatus == Some(Some(Pending))
    ensures r.Ok? ==> |r.value.messages| == 1 && r.value.messages[0].role == Ai
    ensures r.Ok? ==> r.value.draftReply == Some(Some(r.value.messages[0].content))
    ensures r.Ok? ==> r.value.evidence == Some(Some(Evidence(s))) && r.value.recommendation == Some(Some(Recommendation(s)))
    ensures r.Ok? ==> r.value.sender == Some(Some("draft_reply"))
    ensures r.Ok? ==>
      r.value.ticketText.None? && r.value.orderId.None? && r.value.issueType.None?
      && r.value.orderDetails.None? && r.value.adminFeedback.None?
    ensures r.Ok? && s.orderDetails.Some? ==> r.value.messages[0].content == WithAdminNote(
      FillTemplate(SelectTemplate(replies, s.issueType, DraftFallbackTemplate),
                   s.orderDetails.value.customerName, s.orderDetails.value.orderId),
      s.adminFeedback)
    ensures r.Ok? && s.orderDetails.None? ==> r.value.messages[0].content == WithAdminNote(
      FillTemplate(SelectTemplate(replies, s.issueType, DraftFallbackTemplate), DefaultCustomerName, s.orderId.value),
      s.adminFeedback)
  {
    var template := SelectTemplate(replies, s.issueType, DraftFallbackTemplate);
    if s.orderDetails.Some? then
      var o := s.orderDetails.value;
      Ok(DraftUpdate(s, WithAdminNote(FillTemplate(template, o.customerName, o.orderId), s.adminFeedback)))
    else if s.orderId.Some? then
      Ok(DraftUpdate(s, WithAdminNote(FillTemplate(template, DefaultCustomerName, s.orderId.value), s.adminFeedback)))
    else
      Err(TypeError("replace() argument 2 must be str, not None"))
  }

  /**
   * `draft_reply` as evidently intended: a missing order id is substituted
   * by the empty string, the default its lookup names.
   */
  function DraftReplyDefaulted(s: GraphState, replies: seq<ReplyRule>): (u: Update)
    ensures u.reviewStatus == Some(Some(Pending))
    ensures |u.messages| == 1 && u.messages[0].role == Ai
    ensures u.draftReply == Some(Some(u.messages[0].content))
    ensures DraftReply(s, replies).Ok? ==> DraftReply(s, replies).value == u
    ensures s.orderDetails.None? ==> u.messages[0].content == WithAdminNote(
      FillTemplate(SelectTemplate(replies, s.issueType, DraftFallbackTemplate), DefaultCustomerName, s.orderId.GetOr("")),
      s.adminFeedback)
    ensures s.orderDetails.Some? ==> u.messages[0].content == WithAdminNote(
      FillTemplate(SelectTemplate(replies, s.issueType, DraftFallbackTemplate),
                   s.orderDetails.value.customerName, s.orderDetails.value.orderId),
      s.adminFeedback)
  {
    var template := SelectTemplate(replies, s.issueType, DraftFallbackTemplate);
    var name := if s.orderDetails.Some? then s.orderDetails.value.customerName else DefaultCustomerName;
    var id := if s.orderDetails.Some? then s.orderDetails.value.orderId else s.orderId.GetOr("");
    DraftUpdate(s, WithAdminNote(FillTemplate(template, name, id), s.adminFeedback))
  }

  /** The first turn of a ticket without any order id reaches `draft_reply` with nothing to substitute. */
  lemma DraftReplyFailsWithoutOrderId(replies: seq<ReplyRule>)
    ensures DraftReply(
      GraphState([], "I have a problem with my order", None, Some("unknown"), None, None, None, None, None, None, None),
      replies).Err?
  {
  }

  /** After a draft the review is pending and the draft is the one new message. */
  lemma DraftReplyMerged(s: GraphState, replies: seq<ReplyRule>)
    ensures var m := Merge(s, DraftReplyDefaulted(s, replies));
      m.reviewStatus == Some(Pending)
      && |m.messages| == |s.messages| + 1
      && m.messages[..|s.messages|] == s.messages
      && m.draftReply == Some(m.messages[|s.messages|].content)
      && m.orderId == s.orderId && m.issueType == s.issueType && m.orderDetails == s.orderDetails
  {
  }

  // ------------------------------------------------------------------
  // admin_review, final_response
  // ------------------------------------------------------------------

  /** `admin_review`: a pass-through that only records itself as the sender. */
  function AdminReview(s: GraphState): (u: Update)
    ensures Merge(s, u) == s.(sender := Some("admin_review"))
  {
    var u := NoWrites.(sender := Some(Some("admin_review")));
    assert s.messages + [] == s.messages;
    u
  }

  /** `final_response`: appends the approved draft as one assistant message. */
  function FinalResponse(s: GraphState): (u: Update)
    ensures Merge(s, u) == s.(
      messages := s.messages + [Message(Ai, "[APPROVED] " + PyStr(s.draftReply), Some("assistant"))],
      sender := Some("final_response"))
  {
    NoWrites.(
      messages := [Message(Ai, "[APPROVED] " + PyStr(s.draftReply), Some("assistant"))],
      sender := Some(Some("final_response")))
  }
}

=== FILE: order_id.dfy ===
/**
 * Recognising an order identifier in free text: the pattern `ORD` followed
 * by four digits, matched case-insensitively and returned upper-cased.
 *
 * The graph's ingest node (app/graph/nodes.py) searches `\bORD\d{4}\b`;
 * the legacy endpoint (app/main.py) searches `ORD\d{4}` without word
 * boundaries, so it also finds `ORD1234` inside `ORD12345`.
 */
module OrderIdPattern {
  import opened Wrappers
  import opened Strings

  /** The pattern occupies seven characters. */
  const MatchLen: nat := 7

  /** `ORD\d{4}` (case-insensitive) at index `i`. */
  predicate CoreMatchAt(s: string, i: int) {
    0 <= i && i + MatchLen <= |s|
    && LowerChar(s[i]) == 'o' && LowerChar(s[i + 1]) == 'r' && LowerChar(s[i + 2]) == 'd'
    && IsDigit(s[i + 3]) && IsDigit(s[i + 4]) && IsDigit(s[i + 5]) && IsDigit(s[i + 6])
  }

  /** `\bORD\d{4}\b` at index `i`: no word character touches the match on either side. */
  predicate BoundedMatchAt(s: string, i: int) {
    CoreMatchAt(s, i)
    && (i == 0 || !IsWordChar(s[i - 1]))
    && (i + MatchLen == |s| || !IsWordChar(s[i + MatchLen]))
  }

  predicate MatchAt(s: string, i: int, wordBounded: bool) {
    if wordBounded then BoundedMatchAt(s, i) else CoreMatchAt(s, i)
  }

  /** Leftmost match at or after `from`, as `re.search` scans. */
  function SearchFrom(s: string, wordBounded: bool, from: nat): (r: Option<nat>)
    ensures r.Some? ==> from <= r.value && MatchAt(s, r.value, wordBounded)
    ensures r.Some? ==> forall j | from <= j < r.value :: !MatchAt(s, j, wordBounded)
    ensures r.None? ==> forall j | from <= j :: !MatchAt(s, j, wordBounded)
    decreases |s| - from
  {
    if from + MatchLen > |s| then None
    else if MatchAt(s, from, wordBounded) then Some(from)
    else SearchFrom(s, wordBounded, from + 1)
  }

  /** The first match, upper-cased; `None` when the text holds no match. */
  function ExtractOrderId(s: string, wordBounded: bool): (r: Option<string>)
    ensures r.None? <==> forall j | 0 <= j :: !MatchAt(s, j, wordBounded)
    ensures r.Some? ==> exists i | 0 <= i ::
      MatchAt(s, i, wordBounded)
      && (forall j | 0 <= j < i :: !MatchAt(s, j, wordBounded))
      && r.value == Upper(s[i..i + MatchLen])
    ensures r.Some? ==> |r.value| == MatchLen && r.value[..3] == "ORD"
    ensures r.Some? ==> forall k | 3 <= k < MatchLen :: IsDigit(r.value[k])
  {
    match SearchFrom(s, wordBounded, 0)
    case None => None
    case Some(i) =>
      var id := Upper(s[i..i + MatchLen]);
      FoldedUpper(s[i], 'o');
      FoldedUpper(s[i + 1], 'r');
      FoldedUpper(s[i + 2], 'd');
      assert id[..3] == "ORD";
      Some(id)
  }

  /** A character that lower-cases to an ASCII letter upper-cases like that letter. */
  lemma FoldedUpper(c: char, l: char)
    requires IsAsciiLower(l) && LowerChar(c) == l
    ensures UpperChar(c) == UpperChar(l)
  {
  }

  /** A word-bounded match is also a match of the unbounded pattern. */
  lemma BoundedImpliesUnbounded(s: string)
    requires ExtractOrderId(s, true).Some?
    ensures ExtractOrderId(s, false).Some?
  {
    var i := SearchFrom(s, true, 0).value;
    assert MatchAt(s, i, false);
  }

  /** Surrounding punctuation does not stop the bounded pattern. */
  lemma ParenthesisedIdIsFound()
    ensures ExtractOrderId("(ORD1002)", true) == Some("ORD1002")
  {
    var s := "(ORD1002)";
    assert !MatchAt(s, 0, true);
    assert MatchAt(s, 1, true);
    assert SearchFrom(s, true, 0) == Some(1);
    assert forall k | 0 <= k < 7 :: Upper(s[1..8])[k] == "ORD1002"[k];
    assert Upper(s[1..8]) == "ORD1002";
  }

  /** Lower-case input is normalised to upper case. */
  lemma LowerCaseIdIsUpperCased()
    ensures ExtractOrderId("ord1001", true) == Some("ORD1001")
  {
    var s := "ord1001";
    assert MatchAt(s, 0, true);
    assert SearchFrom(s, true, 0) == Some(0);
    assert forall k | 0 <= k < 7 :: Upper(s[0..7])[k] == "ORD1001"[k];
    assert Upper(s[0..7]) == "ORD1001";
  }

  /** Five digits: the bounded pattern finds nothing, the unbounded one the first four. */
  lemma FiveDigitsDifferByBoundary()
    ensures ExtractOrderId("ORD12345", true) == None
    ensures ExtractOrderId("ORD12345", false) == Some("ORD1234")
  {
    var s := "ORD12345";
    assert MatchAt(s, 0, false);
    assert SearchFrom(s, false, 0) == Some(0);
    assert forall k | 0 <= k < 7 :: Upper(s[0..7])[k] == "ORD1234"[k];
    assert Upper(s[0..7]) == "ORD1234";
    assert !MatchAt(s, 0, true);
    assert !MatchAt(s, 1, true);
    assert SearchFrom(s, true, 2) == None;
    assert SearchFrom(s, true, 1) == None;
    assert SearchFrom(s, true, 0) == None;
  }
}

=== FILE: rag_nodes.dfy ===
/**
 * The two retrieval-augmented steps of the graph (app/rag/rag_nodes.py):
 * `kb_orchestrator` fetches policy citations for a reply, and
 * `policy_evaluator` records which policies the proposed action relies on.
 *
 * The language model's answers are parameters, already parsed from JSON.
 * Both steps read and write channels the graph state does not declare
 * (`draft_scenario`, `suggested_action`, `policy_citations`), so they are
 * modelled on their own inputs rather than on `GraphState`.
 */
module RagNodes {
  import opened Wrappers
  import opened Strings
  import opened Schema
  import opened RagConfig
  import opened Retriever

  // ------------------------------------------------------------------
  // First rule line
  // ------------------------------------------------------------------

  /** A stripped line that states a rule: not blank and not a Markdown heading. */
  predicate IsRuleLine(cleaned: string) {
    cleaned != "" && cleaned[0] != '#'
  }

  /** The lines of a text, each stripped. */
  function StrippedLines(content: string): (cleaned: seq<string>)
    ensures |cleaned| == |SplitLines(content)|
    ensures forall k | 0 <= k < |cleaned| :: cleaned[k] == Strip(SplitLines(content)[k])
  {
    var lines := SplitLines(content);
    seq(|lines|, k requires 0 <= k < |lines| => Strip(lines[k]))
  }

  /** Index of the first rule line at or after `from`; `|cleaned|` if none. */
  function FirstRuleIndex(cleaned: seq<string>, from: nat): (k: nat)
    requires from <= |cleaned|
    ensures from <= k <= |cleaned|
    ensures forall j | from <= j < k :: !IsRuleLine(cleaned[j])
    ensures k < |cleaned| ==> IsRuleLine(cleaned[k])
    decreases |cleaned| - from
  {
    if from == |cleaned| then from
    else if IsRuleLine(cleaned[from]) then from
    else FirstRuleIndex(cleaned, from + 1)
  }

  /** The longest fallback citation taken from a text without a rule line. */
  const FallbackRuleLength: nat := 160

  /**
   * `_extract_first_rule_line`: the first non-blank, non-heading line,
   * stripped; when there is none, the start of the stripped text.
   */
  function FirstRuleLine(content: string): (line: string)
    ensures var cleaned := StrippedLines(content);
      (exists k | 0 <= k < |cleaned| :: IsRuleLine(cleaned[k])) ==>
        exists k | 0 <= k < |cleaned| ::
          line == cleaned[k] && IsRuleLine(line)
          && forall j | 0 <= j < k :: !IsRuleLine(cleaned[j])
    ensures var cleaned := StrippedLines(content);
      (forall k | 0 <= k < |cleaned| :: !IsRuleLine(cleaned[k])) ==>
        |line| <= FallbackRuleLength && StartsWith(Strip(content), line)
        && (|Strip(content)| <= FallbackRuleLength ==> line == Strip(content))
        && line == Take(Strip(content), FallbackRuleLength)
  {
    var cleaned := StrippedLines(content);
    var k := FirstRuleIndex(cleaned, 0);
    if k < |cleaned| then cleaned[k] else Take(Strip(content), FallbackRuleLength)
  }

  /** When some line is a rule line, the cited line is the first of them. */
  lemma FirstRuleLineAtIndex(content: string)
    ensures var cleaned := StrippedLines(content);
      var k := FirstRuleIndex(cleaned, 0);
      k < |cleaned| ==> FirstRuleLine(content) == cleaned[k]
  {
  }

  /** A rule line with no whitespace at either end. */
  predicate IsCleanRuleLine(l: string) {
    IsRuleLine(l) && !IsSpace(l[0]) && !IsSpace(l[|l| - 1])
  }

  /** Among stripped lines, the first rule line is found and is clean. */
  lemma FirstStrippedRuleIsClean(lines: seq<string>, cleaned: seq<string>, w: nat)
    requires |cleaned| == |lines|
    requires forall k | 0 <= k < |cleaned| :: cleaned[k] == Strip(lines[k])
    requires w < |cleaned| && IsRuleLine(cleaned[w])
    ensures FirstRuleIndex(cleaned, 0) < |cleaned|
    ensures IsCleanRuleLine(cleaned[FirstRuleIndex(cleaned, 0)])
  {
    var k := FirstRuleIndex(cleaned, 0);
    assert k <= w;
    assert cleaned[k] == Strip(lines[k]);
  }

  /** A found rule line never starts or ends with whitespace and is never a heading. */
  lemma FirstRuleLineIsClean(content: string)
    requires exists k | 0 <= k < |StrippedLines(content)| :: IsRuleLine(StrippedLines(content)[k])
    ensures IsCleanRuleLine(FirstRuleLine(content))
  {
    var cleaned := StrippedLines(content);
    var w :| 0 <= w < |cleaned| && IsRuleLine(cleaned[w]);
    FirstStrippedRuleIsClean(SplitLines(content), cleaned, w);
    FirstRuleLineAtIndex(content);
  }

  /**
   * Blank lines and headings before a rule line are skipped: the rule line
   * is the one cited.
   */
  lemma HeadingsAreSkipped(content: string, k: nat)
    requires k < |StrippedLines(content)| && IsRuleLine(StrippedLines(content)[k])
    requires forall j | 0 <= j < k :: (StrippedLines(content)[j] == "" || StrippedLines(content)[j][0] == '#')
    ensures FirstRuleLine(content) == StrippedLines(content)[k]
  {
    var i := FirstRuleIndex(StrippedLines(content), 0);
    assert i == k;
  }

  // ------------------------------------------------------------------
  // kb_orchestrator
  // ------------------------------------------------------------------

  /** What the vector store answers to the three requests of one retrieval. */
  datatype StoreAnswers = StoreAnswers(filtered: QueryAnswer, semantic: QueryAnswer, fraud: FraudAnswer, toScore: real -> real)

  /**
   * `kb_orchestrator`: citations only for a plain reply; a failed retrieval
   * or rerank leaves none; more than `TOP_K` citations are reranked.
   */
  function KbOrchestrator(
    scenario: Option<DraftScenario>, issueType: Option<string>, order: Option<Order>,
    store: StoreAnswers, rerank: RankingReply): (citations: seq<Citation>)
    ensures scenario != Some(Reply) ==> citations == []
    ensures |citations| <= TopK
    ensures SortedDesc(citations)
    ensures !NeedsFraudPolicy(issueType, AmountOf(order)) ==> forall c | c in citations :: c.source != FraudPolicyFile
    ensures scenario == Some(Reply) ==>
      match QueryPolicies(issueType, order, store.filtered, store.semantic, store.fraud, store.toScore, TopK)
      case Err(_) => citations == []
      case Ok(found) => citations == found
  {
    if scenario != Some(Reply) then []
    else
      match QueryPolicies(issueType, order, store.filtered, store.semantic, store.fraud, store.toScore, TopK)
      case Err(_) => []
      case Ok(found) =>
        if |found| > TopK then
          match RerankWithLlm(found, rerank, TopK)
          case Err(_) => []
          case Ok(reranked) => reranked
        else found
  }

  /**
   * The rerank branch is dead: retrieval already keeps at most
   * `max(TOP_K, 3)` = `TOP_K` citations, so the model's ranking never matters.
   */
  lemma KbOrchestratorIgnoresRerank(
    scenario: Option<DraftScenario>, issueType: Option<string>, order: Option<Order>,
    store: StoreAnswers, r1: RankingReply, r2: RankingReply)
    ensures KbOrchestrator(scenario, issueType, order, store, r1) == KbOrchestrator(scenario, issueType, order, store, r2)
  {
  }

  // ------------------------------------------------------------------
  // policy_evaluator
  // ------------------------------------------------------------------

  /** One entry of `applied_policies`; `None` marks a key the entry lacks. */
  datatype AppliedPolicy = AppliedPolicy(source: Option<string>, title: Option<string>, citedRule: Option<string>, compliance: Option<string>)

  /**
   * One element of the model's `applied_policies` list: an object whose
   * source is text or missing, an object whose source is some other JSON
   * value (null, a number, a list, ...), or not an object at all. A list or
   * object source cannot be put in a set.
   */
  datatype PolicyEntry = EntryObject(policy: AppliedPolicy) | EntryBadSource(hashable: bool) | EntryNotObject

  /** The `applied_policies` value of the model's answer. */
  datatype AppliedField = AppliedMissing | AppliedList(entries: seq<PolicyEntry>) | AppliedNotList

  /** The `policy_evaluation` value of the model's answer. */
  datatype EvaluationField = EvaluationMissing | EvaluationText(text: string) | EvaluationNotText

  /**
   * The model's answer after `_safe_json_object`. Unparsable text and a
   * failed call both come out as an object with neither key; JSON that is
   * not an object makes the following `.get` raise.
   */
  datatype EvaluatorReply = ReplyObject(applied: AppliedField, evaluation: EvaluationField) | ReplyNotObject

  /**
   * `.get` on a non-object raises `AttributeError`; a source that is not
   * text makes the set, `sorted` or `", ".join` raise `TypeError`.
   */
  datatype EvaluatorError = AttributeError | TypeError

  /** The channels `policy_evaluator` writes; `suggestedAction` is `None` when it is not written. */
  datatype EvaluatorOutput = EvaluatorOutput(policyEvaluation: string, appliedPolicies: seq<AppliedPolicy>, suggestedAction: Option<string>)

  const NoCitationsEvaluation: string := "No policy citations were available for this issue."
  // Written as two literals so that the verifier can read individual characters of it.
  const DefaultEvaluation: string := "Policy review completed." + " See applied_policies for cited rules."
  const RequiresReview: string := "requires_review"

  /** `state.get("suggested_action", "")` as an f-string renders it. */
  function ActionText(action: Slot<string>): string {
    match action
    case Missing => ""
    case Null => "None"
    case Has(a) => a
  }

  /** The fallback entry for one citation: its source and title, its first rule line, to be reviewed. */
  function FallbackEntry(c: Citation): AppliedPolicy {
    AppliedPolicy(Some(c.source), Some(c.title), Some(FirstRuleLine(c.content)), Some(RequiresReview))
  }

  /** One fallback entry per citation, in order. */
  function FallbackPolicies(citations: seq<Citation>): (ps: seq<AppliedPolicy>)
    ensures |ps| == |citations|
    ensures forall i | 0 <= i < |ps| ::
      ps[i].source == Some(citations[i].source) && ps[i].title == Some(citations[i].title)
      && ps[i].citedRule == Some(FirstRuleLine(citations[i].content))
      && ps[i].compliance == Some(RequiresReview)
  {
    seq(|citations|, i requires 0 <= i < |citations| => FallbackEntry(citations[i]))
  }

  /**
   * What collecting the cited sources of a non-empty policy list raises, if
   * anything. Entries are visited in order: a non-object fails its `.get`
   * at once, an unhashable source fails the set at once, and any other
   * non-text source fails the sort or the join once the set is built.
   */
  function EntriesError(es: seq<PolicyEntry>): (e: Option<EvaluatorError>)
    decreases |es|
  {
    if |es| == 0 then None
    else
      match es[0]
      case EntryNotObject => Some(AttributeError)
      case EntryBadSource(hashable) =>
        if !hashable then Some(TypeError)
        else
          var rest := EntriesError(es[1..]);
          if rest.Some? then rest else Some(TypeError)
      case EntryObject(_) => EntriesError(es[1..])
  }

  /** Nothing is raised exactly when every entry is an object with a text or missing source. */
  lemma {:induction false} EntriesErrorNoneIff(es: seq<PolicyEntry>)
    ensures EntriesError(es).None? <==> forall i | 0 <= i < |es| :: es[i].EntryObject?
    decreases |es|
  {
    if |es| > 0 {
      EntriesErrorNoneIff(es[1..]);
      assert forall i | 1 <= i < |es| :: es[i] == es[1..][i - 1];
    }
  }

  /**
   * `AttributeError` is raised exactly when some entry is not an object and
   * no earlier entry has an unhashable source.
   */
  lemma {:induction false} EntriesErrorAttributeIff(es: seq<PolicyEntry>)
    ensures EntriesError(es) == Some(AttributeError) <==>
      exists k | 0 <= k < |es| :: es[k].EntryNotObject? && forall j | 0 <= j < k :: es[j] != EntryBadSource(false)
    decreases |es|
  {
    if |es| > 0 {
      EntriesErrorAttributeIff(es[1..]);
      var rest := es[1..];
      if (exists k | 0 <= k < |rest| :: rest[k].EntryNotObject? && forall j | 0 <= j < k :: rest[j] != EntryBadSource(false)) {
        var k :| 0 <= k < |rest| && rest[k].EntryNotObject? && forall j | 0 <= j < k :: rest[j] != EntryBadSource(false);
        if es[0] != EntryBadSource(false) {
          assert es[k + 1].EntryNotObject? && forall j | 0 <= j < k + 1 :: es[j] != EntryBadSource(false);
        }
      }
      if (exists k | 0 <= k < |es| :: es[k].EntryNotObject? && forall j | 0 <= j < k :: es[j] != EntryBadSource(false)) {
        var k :| 0 <= k < |es| && es[k].EntryNotObject? && forall j | 0 <= j < k :: es[j] != EntryBadSource(false);
        if k > 0 {
          assert rest[k - 1].EntryNotObject? && forall j | 0 <= j < k - 1 :: rest[j] != EntryBadSource(false) by {
            forall j | 0 <= j < k - 1
              ensures rest[j] != EntryBadSource(false)
            {
              assert rest[j] == es[j + 1];
            }
          }
        }
      }
    }
  }

  /** The policies of a list whose entries are all objects, in order. */
  function PoliciesOf(es: seq<PolicyEntry>): (ps: seq<AppliedPolicy>)
    requires forall i | 0 <= i < |es| :: es[i].EntryObject?
    ensures |ps| == |es| && forall i | 0 <= i < |es| :: ps[i] == es[i].policy
  {
    seq(|es|, i requires 0 <= i < |es| => es[i].policy)
  }

  /** The cited source names, a missing source read as "unknown". */
  function SourceNames(ps: seq<AppliedPolicy>): (names: seq<string>)
    ensures |names| == |ps|
    ensures forall i | 0 <= i < |ps| :: names[i] == ps[i].source.GetOr(DefaultSource)
  {
    seq(|ps|, i requires 0 <= i < |ps| => ps[i].source.GetOr(DefaultSource))
  }

  /**
   * The proposed action followed by the evaluation and the cited policy
   * names, each on a labelled line.
   */
  function EnrichAction(action: string, evaluation: string, names: string): (r: string)
    ensures StartsWith(r, action)
    ensures EndsWith(r, "\nApplied policies: " + names)
    ensures OccursAt(r, "Policy evaluation: " + evaluation, |action| + 2)
    ensures r[|action|..|action| + 2] == "\n\n"
    ensures |r| == |action| + 2 + |"Policy evaluation: " + evaluation| + |"\nApplied policies: " + names|
  {
    var head := action + "\n\n";
    var line := "Policy evaluation: " + evaluation;
    var tail := "\nApplied policies: " + names;
    var r := head + line + tail;
    assert r[..|action|] == action;
    assert r[|head|..|head| + |line|] == line;
    assert r[|r| - |tail|..] == tail;
    r
  }

  /** `", ".join(sorted({...}))` over the cited sources. */
  function CitedPolicyNames(ps: seq<AppliedPolicy>): string {
    Join(SortedDistinct(SourceNames(ps)), ", ")
  }

  /** The evaluation text unless it is missing, not a string, or blank. */
  function EvaluationOf(e: EvaluationField): (text: string)
    ensures !IsBlank(text)
    ensures e.EvaluationText? && !IsBlank(e.text) ==> text == e.text
    ensures !(e.EvaluationText? && !IsBlank(e.text)) ==> text == DefaultEvaluation
  {
    assert !IsSpace(DefaultEvaluation[0]);
    if e.EvaluationText? && Strip(e.text) != "" then e.text else DefaultEvaluation
  }

  /**
   * `policy_evaluator`: without citations it reports so and leaves the
   * action alone; otherwise it keeps the model's non-empty policy list or
   * builds one entry per citation, and appends the evaluation and the
   * sorted, distinct cited sources to the proposed action. A kept list
   * with a non-object entry or a non-text source raises.
   */
  function PolicyEvaluator(citations: seq<Citation>, action: Slot<string>, reply: EvaluatorReply): (r: Result<EvaluatorOutput, EvaluatorError>)
    ensures |citations| == 0 ==> r == Ok(EvaluatorOutput(NoCitationsEvaluation, [], None))
    ensures |citations| > 0 ==>
      (r.Err? <==> reply.ReplyNotObject? || (reply.applied.AppliedList? && EntriesError(reply.applied.entries).Some?))
    ensures |citations| > 0 && reply.ReplyNotObject? ==> r == Err(AttributeError)
    ensures |citations| > 0 && reply.ReplyObject? && reply.applied.AppliedList? && EntriesError(reply.applied.entries).Some? ==>
      r == Err(EntriesError(reply.applied.entries).value)
    ensures r.Ok? && |citations| > 0 ==>
      var applied := r.value.appliedPolicies;
      (reply.applied.AppliedList? && |reply.applied.entries| > 0 ==>
        |applied| == |reply.applied.entries|
        && forall i | 0 <= i < |applied| :: reply.applied.entries[i] == EntryObject(applied[i]))
      && (!(reply.applied.AppliedList? && |reply.applied.entries| > 0) ==> applied == FallbackPolicies(citations))
      && r.value.policyEvaluation == EvaluationOf(reply.evaluation)
      && r.value.suggestedAction == Some(EnrichAction(ActionText(action), r.value.policyEvaluation, CitedPolicyNames(applied)))
  {
    if |citations| == 0 then Ok(EvaluatorOutput(NoCitationsEvaluation, [], None))
    else
      match reply
      case ReplyNotObject => Err(AttributeError)
      case ReplyObject(applied, evaluation) =>
        var kept := applied.AppliedList? && |applied.entries| > 0;
        var failure := if applied.AppliedList? then EntriesError(applied.entries) else None;
        if failure.Some? then Err(failure.value)
        else
          EntriesErrorNoneIff(if applied.AppliedList? then applied.entries else []);
          var policies := if kept then PoliciesOf(applied.entries) else FallbackPolicies(citations);
          var text := EvaluationOf(evaluation);
          Ok(EvaluatorOutput(text, policies, Some(EnrichAction(ActionText(action), text, CitedPolicyNames(policies)))))
  }

  /** A policy list naming a bare string, or a policy with a null source, makes the node raise. */
  lemma MalformedPolicyListRaises(citations: seq<Citation>, action: Slot<string>)
    requires |citations| > 0
    ensures PolicyEvaluator(citations, action, ReplyObject(AppliedList([EntryNotObject]), EvaluationMissing))
      == Err(AttributeError)
    ensures PolicyEvaluator(citations, action, ReplyObject(AppliedList([EntryBadSource(true)]), EvaluationMissing))
      == Err(TypeError)
  {
  }

  /** The cited names are sorted, each listed once, and are exactly the cited sources. */
  lemma CitedNamesAreSortedSources(ps: seq<AppliedPolicy>)
    ensures StrictlySorted(SortedDistinct(SourceNames(ps)))
    ensures forall n :: n in SortedDistinct(SourceNames(ps)) <==>
      exists i | 0 <= i < |ps| :: ps[i].source.GetOr(DefaultSource) == n
  {
    var names := SourceNames(ps);
    forall n
      ensures n in SortedDistinct(names) <==> exists i | 0 <= i < |ps| :: ps[i].source.GetOr(DefaultSource) == n
    {
      if n in names {
        var i :| 0 <= i < |names| && names[i] == n;
        assert ps[i].source.GetOr(DefaultSource) == n;
      }
    }
  }

  /** Without an answer from the model, every citation is listed for review. */
  lemma SilentModelMeansReviewEverything(citations: seq<Citation>, action: Slot<string>)
    requires |citations| > 0
    ensures var r := PolicyEvaluator(citations, action, ReplyObject(AppliedMissing, EvaluationMissing));
      r.Ok? && |r.value.appliedPolicies| == |citations|
      && r.value.policyEvaluation == DefaultEvaluation
      && forall i | 0 <= i < |citations| :: r.value.appliedPolicies[i].compliance == Some(RequiresReview)
  {
  }
}

=== FILE: retriever.dfy ===
/**
 * Policy retrieval (app/rag/retriever.py): normalising the vector store's
 * answers into citations, keeping the best citation per source, the
 * conditional fraud policy, the score ranking and the optional LLM rerank.
 *
 * The vector store and the LLM are not modelled: their answers are
 * parameters. The conversion of a distance into a score is a parameter
 * too, since it is floating-point arithmetic.
 */
module Retriever {
  import opened Wrappers
  import opened Strings
  import opened Schema
  import opened RagConfig

  /** The metadata keys the retriever reads; `None` for an absent key. */
  datatype Metadata = Metadata(source: Option<string>, title: Option<string>)

  /** An empty (or missing, or null) metadata dictionary. */
  const NoMetadata: Metadata := Metadata(None, None)

  /** One retrieved policy snippet. */
  datatype Citation = Citation(content: string, source: string, title: string, score: real, metadata: Metadata)

  const DefaultSource: string := "unknown"
  const DefaultTitle: string := "Unknown Policy"
  const FraudTitle: string := "Fraud Policy"

  /**
   * A `query` answer: one batch per query text; each field may be missing
   * (or null), and inside a batch a metadata or distance may be null.
   */
  datatype QueryAnswer = QueryAnswer(
    documents: Option<seq<seq<string>>>,
    metadatas: Option<seq<seq<Option<Metadata>>>>,
    distances: Option<seq<seq<Option<real>>>>)

  // ------------------------------------------------------------------
  // Normalisation
  // ------------------------------------------------------------------

  /** `(x or [[]])[0]`: the first batch, empty when the field is missing or has no batch. */
  function FirstBatch<T>(x: Option<seq<seq<T>>>): seq<T> {
    if x.None? || |x.value| == 0 then [] else x.value[0]
  }

  /** The metadata at `i`, or none when the batch is too short or holds null. */
  function MetadataAt(metas: seq<Option<Metadata>>, i: nat): Metadata {
    if i < |metas| && metas[i].Some? then metas[i].value else NoMetadata
  }

  /** The distance at `i`, or none when the batch is too short or holds null. */
  function DistanceAt(dists: seq<Option<real>>, i: nat): Option<real> {
    if i < |dists| then dists[i] else None
  }

  /** A citation built from a snippet and its metadata, with the given defaults and score. */
  function CitationOf(content: string, meta: Metadata, defaultSource: string, defaultTitle: string, score: real): (c: Citation)
    ensures c.content == content && c.metadata == meta && c.score == score
    ensures meta.source.None? ==> c.source == defaultSource
    ensures meta.source.Some? ==> c.source == meta.source.value
    ensures meta.title.None? ==> c.title == defaultTitle
    ensures meta.title.Some? ==> c.title == meta.title.value
  {
    Citation(content, meta.source.GetOr(defaultSource), meta.title.GetOr(defaultTitle), score, meta)
  }

  /**
   * `_normalize_query_result`: one citation per document of the first
   * batch, in order; a missing distance scores 0.
   */
  function NormalizeQueryResult(q: QueryAnswer, toScore: real -> real): (r: seq<Citation>)
    ensures |r| == |FirstBatch(q.documents)|
    ensures forall i | 0 <= i < |r| :: r[i].content == FirstBatch(q.documents)[i]
    ensures forall i | 0 <= i < |r| :: r[i].metadata == MetadataAt(FirstBatch(q.metadatas), i)
    ensures forall i | 0 <= i < |r| && MetadataAt(FirstBatch(q.metadatas), i).source.None? ::
      r[i].source == DefaultSource
    ensures forall i | 0 <= i < |r| && MetadataAt(FirstBatch(q.metadatas), i).source.Some? ::
      r[i].source == MetadataAt(FirstBatch(q.metadatas), i).source.value
    ensures forall i | 0 <= i < |r| && MetadataAt(FirstBatch(q.metadatas), i).title.None? ::
      r[i].title == DefaultTitle
    ensures forall i | 0 <= i < |r| && MetadataAt(FirstBatch(q.metadatas), i).title.Some? ::
      r[i].title == MetadataAt(FirstBatch(q.metadatas), i).title.value
    ensures forall i | 0 <= i < |r| && DistanceAt(FirstBatch(q.distances), i).None? :: r[i].score == 0.0
    ensures forall i | 0 <= i < |r| && DistanceAt(FirstBatch(q.distances), i).Some? ::
      r[i].score == toScore(DistanceAt(FirstBatch(q.distances), i).value)
  {
    var docs := FirstBatch(q.documents);
    seq(|docs|, i requires 0 <= i < |docs| =>
      NormalizedAt(docs[i], FirstBatch(q.metadatas), FirstBatch(q.distances), i, toScore))
  }

  /** The citation for the `i`-th document of a batch. */
  function NormalizedAt(doc: string, metas: seq<Option<Metadata>>, dists: seq<Option<real>>, i: nat, toScore: real -> real): Citation {
    var d := DistanceAt(dists, i);
    CitationOf(doc, MetadataAt(metas, i), DefaultSource, DefaultTitle, if d.Some? then toScore(d.value) else 0.0)
  }

  /** A store that answers without metadata or distances still yields every document, unattributed and unscored. */
  lemma BareAnswerIsUnattributed(docs: seq<string>, toScore: real -> real)
    ensures var r := NormalizeQueryResult(QueryAnswer(Some([docs]), None, None), toScore);
      |r| == |docs|
      && forall i | 0 <= i < |r| :: r[i] == Citation(docs[i], DefaultSource, DefaultTitle, 0.0, NoMetadata)
  {
  }

  // ------------------------------------------------------------------
  // Deduplication by source
  // ------------------------------------------------------------------

  /** Position of the first citation with this source, or `|items|`. */
  function IndexOfSource(items: seq<Citation>, src: string): (k: nat)
    ensures k <= |items|
    ensures forall i | 0 <= i < k :: items[i].source != src
    ensures k < |items| ==> items[k].source == src
  {
    SourceFrom(items, src, 0)
  }

  /** Position of the first citation at or after `from` with this source, or `|items|`. */
  function SourceFrom(items: seq<Citation>, src: string, from: nat): (k: nat)
    requires from <= |items|
    ensures from <= k <= |items|
    ensures forall i | from <= i < k :: items[i].source != src
    ensures k < |items| ==> items[k].source == src
    decreases |items| - from
  {
    if from == |items| then from
    else if items[from].source == src then from
    else SourceFrom(items, src, from + 1)
  }

  /** The first-occurrence index is determined by its two defining properties. */
  lemma IndexOfSourceIs(items: seq<Citation>, src: string, k: nat)
    requires k <= |items|
    requires forall i | 0 <= i < k :: items[i].source != src
    requires k < |items| ==> items[k].source == src
    ensures IndexOfSource(items, src) == k
  {
  }

  /** Appending keeps earlier first occurrences and gives a new source the last index. */
  lemma IndexOfSourceAppend(items: seq<Citation>, x: Citation, src: string)
    ensures IndexOfSource(items, src) < |items| ==> IndexOfSource(items + [x], src) == IndexOfSource(items, src)
    ensures IndexOfSource(items, src) == |items| && x.source == src ==> IndexOfSource(items + [x], src) == |items|
  {
    var k := IndexOfSource(items, src);
    IndexOfSourceIs(items + [x], src, if k < |items| || x.source == src then k else |items| + 1);
  }

  /** Two lists with the same sources, position by position, agree on first occurrences. */
  lemma IndexOfSourceSameSources(a: seq<Citation>, b: seq<Citation>, src: string)
    requires |a| == |b|
    requires forall i | 0 <= i < |a| :: a[i].source == b[i].source
    ensures IndexOfSource(a, src) == IndexOfSource(b, src)
  {
    IndexOfSourceIs(b, src, IndexOfSource(a, src));
  }

  /**
   * One iteration of the dictionary loop: a new source is appended; an
   * already seen source is replaced in place, only by a strictly higher score.
   */
  function Absorb(kept: seq<Citation>, x: Citation): seq<Citation> {
    var k := IndexOfSource(kept, x.source);
    if k == |kept| then kept + [x]
    else if x.score > kept[k].score then kept[k := x]
    else kept
  }

  /** `_dedupe_by_source`: the dictionary's values, in insertion order. */
  function DedupeBySource(items: seq<Citation>): seq<Citation>
    decreases |items|
  {
    if |items| == 0 then []
    else Absorb(DedupeBySource(items[..|items| - 1]), items[|items| - 1])
  }

  /** `c` sits at `j`, no citation of its source scores more, and every earlier one scores less. */
  predicate BestAt(items: seq<Citation>, c: Citation, j: int) {
    0 <= j < |items| && items[j] == c
    && (forall k | 0 <= k < |items| && items[k].source == c.source :: items[k].score <= c.score)
    && (forall k | 0 <= k < j && items[k].source == c.source :: items[k].score < c.score)
  }

  /** `c` is the first highest-scoring citation of its source. */
  predicate FirstBest(items: seq<Citation>, c: Citation) {
    exists j | 0 <= j < |items| :: BestAt(items, c, j)
  }

  /** One citation per source. */
  predicate DistinctSources(d: seq<Citation>) {
    forall i, j | 0 <= i < j < |d| :: d[i].source != d[j].source
  }

  /** Each kept citation is the first best of its source in the input. */
  predicate AllFirstBest(items: seq<Citation>, d: seq<Citation>) {
    forall i | 0 <= i < |d| :: FirstBest(items, d[i])
  }

  /** Every source of the input is represented. */
  predicate CoversSources(items: seq<Citation>, d: seq<Citation>) {
    forall j | 0 <= j < |items| :: IndexOfSource(d, items[j].source) < |d|
  }

  /** Sources are listed in the order they first appear in the input. */
  predicate InFirstSeenOrder(items: seq<Citation>, d: seq<Citation>) {
    forall i, j | 0 <= i < j < |d| :: IndexOfSource(items, d[i].source) < IndexOfSource(items, d[j].source)
  }

  /** What the deduplicated list is, with respect to the input. */
  predicate DedupedFrom(items: seq<Citation>, d: seq<Citation>) {
    DistinctSources(d) && AllFirstBest(items, d) && CoversSources(items, d) && InFirstSeenOrder(items, d)
  }

  /** A first best citation stays first best when a citation that does not beat it is appended. */
  lemma BestSurvives(items: seq<Citation>, c: Citation, x: Citation)
    requires FirstBest(items, c)
    requires x.source != c.source || x.score <= c.score
    ensures FirstBest(items + [x], c)
  {
    var j :| 0 <= j < |items| && BestAt(items, c, j);
    assert BestAt(items + [x], c, j);
  }

  /** A citation appended with a source never seen before is first best of it. */
  lemma NewSourceIsBest(items: seq<Citation>, x: Citation)
    requires forall j | 0 <= j < |items| :: items[j].source != x.source
    ensures FirstBest(items + [x], x)
  {
    assert BestAt(items + [x], x, |items|);
  }

  /** A citation appended with a strictly higher score than the best so far becomes first best. */
  lemma BetterIsBest(items: seq<Citation>, c: Citation, x: Citation)
    requires FirstBest(items, c)
    requires x.source == c.source && x.score > c.score
    ensures FirstBest(items + [x], x)
  {
    var j :| 0 <= j < |items| && BestAt(items, c, j);
    var its := items + [x];
    forall k | 0 <= k < |its| && its[k].source == x.source
      ensures its[k].score <= x.score
      ensures k < |items| ==> its[k].score < x.score
    {
      if k < |items| {
        assert items[k].source == c.source;
      }
    }
    assert BestAt(its, x, |items|);
  }

  /** Kept sources occur in the input, so appending leaves their first indexes alone. */
  lemma SeenIndexesStable(items: seq<Citation>, d: seq<Citation>, x: Citation)
    requires AllFirstBest(items, d)
    ensures forall i | 0 <= i < |d| ::
      IndexOfSource(items + [x], d[i].source) == IndexOfSource(items, d[i].source) < |items|
  {
    forall i | 0 <= i < |d|
      ensures IndexOfSource(items + [x], d[i].source) == IndexOfSource(items, d[i].source) < |items|
    {
      var b :| 0 <= b < |items| && BestAt(items, d[i], b);
      assert items[b].source == d[i].source;
      IndexOfSourceAppend(items, x, d[i].source);
    }
  }

  /** Kept citations of other sources stay first best after an append. */
  lemma OthersStayBest(items: seq<Citation>, d: seq<Citation>, x: Citation, k: nat)
    requires AllFirstBest(items, d) && DistinctSources(d)
    requires k == IndexOfSource(d, x.source)
    ensures forall i | 0 <= i < |d| && i != k :: FirstBest(items + [x], d[i])
  {
    forall i | 0 <= i < |d| && i != k
      ensures FirstBest(items + [x], d[i])
    {
      BestSurvives(items, d[i], x);
    }
  }

  /** A source absent from the deduplicated list is absent from the input. */
  lemma UncoveredIsUnseen(items: seq<Citation>, d: seq<Citation>, src: string)
    requires CoversSources(items, d)
    requires IndexOfSource(d, src) == |d|
    ensures forall j | 0 <= j < |items| :: items[j].source != src
  {
    forall j | 0 <= j < |items|
      ensures items[j].source != src
    {
      assert IndexOfSource(d, items[j].source) < |d|;
    }
  }

  /** A new source: every kept citation, and the new one, is first best. */
  lemma AbsorbNewBest(items: seq<Citation>, d: seq<Citation>, x: Citation)
    requires AllFirstBest(items, d) && DistinctSources(d) && CoversSources(items, d)
    requires IndexOfSource(d, x.source) == |d|
    ensures AllFirstBest(items + [x], d + [x])
  {
    UncoveredIsUnseen(items, d, x.source);
    NewSourceIsBest(items, x);
    OthersStayBest(items, d, x, |d|);
    forall i | 0 <= i < |d| + 1
      ensures FirstBest(items + [x], (d + [x])[i])
    {
      if i < |d| {
        assert (d + [x])[i] == d[i];
      }
    }
  }

  /** A new source: the appended citation covers it. */
  lemma AbsorbNewCovers(items: seq<Citation>, d: seq<Citation>, x: Citation)
    requires CoversSources(items, d)
    requires IndexOfSource(d, x.source) == |d|
    ensures CoversSources(items + [x], d + [x])
  {
    var its := items + [x];
    forall j | 0 <= j < |its|
      ensures IndexOfSource(d + [x], its[j].source) < |d| + 1
    {
      IndexOfSourceAppend(d, x, its[j].source);
    }
  }

  /** A new source: it is listed last and first seen last. */
  lemma AbsorbNewOrder(items: seq<Citation>, d: seq<Citation>, x: Citation)
    requires AllFirstBest(items, d) && CoversSources(items, d) && InFirstSeenOrder(items, d)
    requires IndexOfSource(d, x.source) == |d|
    ensures InFirstSeenOrder(items + [x], d + [x])
  {
    UncoveredIsUnseen(items, d, x.source);
    IndexOfSourceIs(items + [x], x.source, |items|);
    SeenIndexesStable(items, d, x);
    var d' := d + [x];
    forall i, j | 0 <= i < j < |d'|
      ensures IndexOfSource(items + [x], d'[i].source) < IndexOfSource(items + [x], d'[j].source)
    {
      assert d'[i] == d[i];
    }
  }

  /** Invariant step for an appended citation whose source was not seen yet. */
  lemma AbsorbNew(items: seq<Citation>, d: seq<Citation>, x: Citation)
    requires DedupedFrom(items, d)
    requires IndexOfSource(d, x.source) == |d|
    ensures DedupedFrom(items + [x], d + [x])
  {
    AbsorbNewBest(items, d, x);
    AbsorbNewCovers(items, d, x);
    AbsorbNewOrder(items, d, x);
  }

  /** A better score: sources stay where they were. */
  lemma AbsorbBetterCovers(items: seq<Citation>, d: seq<Citation>, x: Citation, k: nat)
    requires CoversSources(items, d)
    requires k == IndexOfSource(d, x.source) && k < |d|
    ensures CoversSources(items + [x], d[k := x])
  {
    var its := items + [x];
    forall j | 0 <= j < |its|
      ensures IndexOfSource(d[k := x], its[j].source) < |d|
    {
      IndexOfSourceSameSources(d, d[k := x], its[j].source);
    }
  }

  /** A better score: the order of sources is unchanged. */
  lemma AbsorbBetterOrder(items: seq<Citation>, d: seq<Citation>, x: Citation, k: nat)
    requires AllFirstBest(items, d) && InFirstSeenOrder(items, d)
    requires k == IndexOfSource(d, x.source) && k < |d|
    ensures InFirstSeenOrder(items + [x], d[k := x])
  {
    SeenIndexesStable(items, d, x);
    assert forall i | 0 <= i < |d| :: d[k := x][i].source == d[i].source;
  }

  /** Invariant step for an appended citation that beats the kept one of its source. */
  lemma AbsorbBetter(items: seq<Citation>, d: seq<Citation>, x: Citation, k: nat)
    requires DedupedFrom(items, d)
    requires k == IndexOfSource(d, x.source) && k < |d| && x.score > d[k].score
    ensures DedupedFrom(items + [x], d[k := x])
  {
    var d' := d[k := x];
    assert forall i | 0 <= i < |d| :: d'[i].source == d[i].source;
    assert DistinctSources(d');
    BetterIsBest(items, d[k], x);
    OthersStayBest(items, d, x, k);
    assert AllFirstBest(items + [x], d');
    AbsorbBetterCovers(items, d, x, k);
    AbsorbBetterOrder(items, d, x, k);
  }

  /** Invariant step for an appended citation that does not beat the kept one of its source. */
  lemma AbsorbWorse(items: seq<Citation>, d: seq<Citation>, x: Citation, k: nat)
    requires DedupedFrom(items, d)
    requires k == IndexOfSource(d, x.source) && k < |d| && x.score <= d[k].score
    ensures DedupedFrom(items + [x], d)
  {
    OthersStayBest(items, d, x, k);
    BestSurvives(items, d[k], x);
    assert AllFirstBest(items + [x], d);
    SeenIndexesStable(items, d, x);
    assert InFirstSeenOrder(items + [x], d);
  }

  /** One loop iteration keeps the characterisation. */
  lemma AbsorbKeepsDedupe(items: seq<Citation>, d: seq<Citation>, x: Citation)
    requires DedupedFrom(items, d)
    ensures DedupedFrom(items + [x], Absorb(d, x))
  {
    var k := IndexOfSource(d, x.source);
    if k == |d| {
      AbsorbNew(items, d, x);
    } else if x.score > d[k].score {
      AbsorbBetter(items, d, x, k);
    } else {
      AbsorbWorse(items, d, x, k);
    }
  }

  /** Processing one more citation keeps the characterisation. */
  lemma DedupeStep(items: seq<Citation>)
    requires |items| > 0
    requires DedupedFrom(items[..|items| - 1], DedupeBySource(items[..|items| - 1]))
    ensures DedupedFrom(items, DedupeBySource(items))
  {
    var init := items[..|items| - 1];
    var x := items[|items| - 1];
    SplitLast(items);
    AbsorbKeepsDedupe(init, DedupeBySource(init), x);
  }

  /** A non-empty sequence is its first element followed by the rest. */
  lemma SplitFirst<T>(s: seq<T>)
    requires |s| > 0
    ensures [s[0]] + s[1..] == s
  {
  }

  /** A non-empty sequence is its front followed by its last element. */
  lemma SplitLast<T>(s: seq<T>)
    requires |s| > 0
    ensures s[..|s| - 1] + [s[|s| - 1]] == s
  {
  }

  /**
   * `_dedupe_by_source` keeps exactly one citation per source: the first
   * one with the highest score, listed in the order the sources first appear.
   */
  lemma {:induction false} DedupeBySourceCorrect(items: seq<Citation>)
    ensures DedupedFrom(items, DedupeBySource(items))
    decreases |items|
  {
    if |items| > 0 {
      var init := items[..|items| - 1];
      DedupeBySourceCorrect(init);
      DedupeStep(items);
    }
  }

  /** Absorbing a citation adds at most that one citation. */
  lemma AbsorbAddsAtMostOne(kept: seq<Citation>, x: Citation)
    ensures |Absorb(kept, x)| <= |kept| + 1
    ensures forall c | c in Absorb(kept, x) :: c in kept || c == x
  {
    var k := IndexOfSource(kept, x.source);
    if k < |kept| && x.score > kept[k].score {
      forall c | c in kept[k := x]
        ensures c in kept || c == x
      {
        var j :| 0 <= j < |kept| && kept[k := x][j] == c;
        if j != k {
          assert kept[j] == c;
        }
      }
    }
  }

  /** Deduplication never grows the list. */
  lemma {:induction false} DedupeBySourceShrinks(items: seq<Citation>)
    ensures |DedupeBySource(items)| <= |items|
    ensures forall c | c in DedupeBySource(items) :: c in items
    decreases |items|
  {
    if |items| > 0 {
      var init := items[..|items| - 1];
      var last := items[|items| - 1];
      DedupeBySourceShrinks(init);
      assert DedupeBySource(items) == Absorb(DedupeBySource(init), last);
      AbsorbAddsAtMostOne(DedupeBySource(init), last);
      forall c | c in DedupeBySource(items)
        ensures c in items
      {
        if c != last {
          assert c in init;
          var j :| 0 <= j < |init| && init[j] == c;
          assert items[j] == c;
        }
      }
    }
  }

  // ------------------------------------------------------------------
  // Fraud policy
  // ------------------------------------------------------------------

  /**
   * The `total_amount` of the order details as Python sees it. A string
   * carries the result of `float()` on it (`None` when that raises).
   */
  datatype RawAmount = Absent | Null | Number(v: real) | Flag(b: bool) | Text(s: string, parsed: Option<real>) | Unconvertible

  /** `float(x or 0)`, or `None` when the conversion raises. */
  function AmountValue(a: RawAmount): (v: Option<real>)
    ensures a.Absent? || a.Null? ==> v == Some(0.0)
    ensures a.Unconvertible? ==> v.None?
    ensures a.Number? ==> v == Some(a.v)
  {
    match a
    case Absent => Some(0.0)
    case Null => Some(0.0)
    case Number(x) => Some(x)
    case Flag(b) => Some(if b then 1.0 else 0.0)
    case Text(s, parsed) => if s == "" then Some(0.0) else parsed
    case Unconvertible => None
  }

  /** The amount field of the order details, when there are order details. */
  function AmountOf(order: Option<Order>): RawAmount {
    if order.Some? then Number(order.value.totalAmount) else Absent
  }

  /** `_needs_fraud_policy`: an eligible issue type with an amount above the threshold. */
  function NeedsFraudPolicy(issueType: Option<string>, amount: RawAmount): (needed: bool)
    ensures needed <==>
      issueType.Some? && issueType.value in FraudEligibleIssues
      && AmountValue(amount).Some? && AmountValue(amount).value > FraudThreshold
  {
    if issueType.None? || issueType.value !in FraudEligibleIssues then false
    else
      match AmountValue(amount)
      case None => false
      case Some(v) => v > FraudThreshold
  }

  /** Falsy amounts count as zero and never call for the fraud policy. */
  lemma FalsyAmountNeverNeedsFraud(issueType: Option<string>, amount: RawAmount)
    requires amount.Absent? || amount.Null? || amount == Number(0.0) || amount == Flag(false) || (amount.Text? && amount.s == "")
    ensures !NeedsFraudPolicy(issueType, amount)
  {
  }

  /** Only refund, wrong-item and missing-item tickets can pull in the fraud policy. */
  lemma FraudOnlyForEligibleIssues(issueType: string, amount: RawAmount)
    requires NeedsFraudPolicy(Some(issueType), amount)
    ensures issueType == "refund_request" || issueType == "wrong_item" || issueType == "missing_item"
  {
  }

  // ------------------------------------------------------------------
  // Ranking
  // ------------------------------------------------------------------

  predicate SortedDesc(s: seq<Citation>) {
    forall i, j | 0 <= i < j < |s| :: s[i].score >= s[j].score
  }

  /** The citations with score `v`, in order. */
  function WithScore(s: seq<Citation>, v: real): seq<Citation>
    decreases |s|
  {
    if |s| == 0 then []
    else (if s[0].score == v then [s[0]] else []) + WithScore(s[1..], v)
  }

  lemma {:induction false} WithScoreAppend(a: seq<Citation>, b: seq<Citation>, v: real)
    ensures WithScore(a + b, v) == WithScore(a, v) + WithScore(b, v)
    decreases |a|
  {
    if |a| == 0 {
      assert a + b == b;
    } else {
      WithScoreAppend(a[1..], b, v);
      assert (a + b)[1..] == a[1..] + b;
      var h := if a[0].score == v then [a[0]] else [];
      calc {
        WithScore(a + b, v);
        h + WithScore(a[1..] + b, v);
        h + (WithScore(a[1..], v) + WithScore(b, v));
        (h + WithScore(a[1..], v)) + WithScore(b, v);
      }
    }
  }

  lemma {:induction false} WithScoreNone(s: seq<Citation>, v: real)
    requires forall i | 0 <= i < |s| :: s[i].score != v
    ensures WithScore(s, v) == []
    decreases |s|
  {
    if |s| > 0 {
      WithScoreNone(s[1..], v);
    }
  }

  /** A citation scoring at least as much as a descending list can head it. */
  lemma PrependSorted(h: Citation, rest: seq<Citation>)
    requires SortedDesc(rest)
    requires forall j | 0 <= j < |rest| :: rest[j].score <= h.score
    ensures SortedDesc([h] + rest)
  {
  }

  /** Elements of a list whose multiset is that of `tail` plus `x` score no more than a head above both. */
  lemma BoundedByHead(sorted: seq<Citation>, x: Citation, rest: seq<Citation>)
    requires |sorted| > 0 && SortedDesc(sorted) && x.score <= sorted[0].score
    requires multiset(rest) == multiset(sorted[1..]) + multiset{x}
    ensures forall j | 0 <= j < |rest| :: rest[j].score <= sorted[0].score
  {
    forall j | 0 <= j < |rest|
      ensures rest[j].score <= sorted[0].score
    {
      assert rest[j] in multiset(rest);
      if rest[j] != x {
        assert rest[j] in sorted[1..];
        var m :| 0 <= m < |sorted[1..]| && sorted[1..][m] == rest[j];
        assert sorted[m + 1] == rest[j];
      }
    }
  }

  /** Inserts after every citation scoring at least as much, which keeps equal scores in arrival order. */
  function InsertByScore(sorted: seq<Citation>, x: Citation): (r: seq<Citation>)
    requires SortedDesc(sorted)
    ensures SortedDesc(r)
    ensures multiset(r) == multiset(sorted) + multiset{x}
    decreases |sorted|
  {
    if |sorted| == 0 then [x]
    else if sorted[0].score >= x.score then
      var rest := InsertByScore(sorted[1..], x);
      BoundedByHead(sorted, x, rest);
      PrependSorted(sorted[0], rest);
      SplitFirst(sorted);
      [sorted[0]] + rest
    else
      PrependSorted(x, sorted);
      [x] + sorted
  }

  /** Insertion puts the new citation after all earlier ones of equal score. */
  lemma {:induction false} InsertByScoreStable(sorted: seq<Citation>, x: Citation, v: real)
    requires SortedDesc(sorted)
    ensures WithScore(InsertByScore(sorted, x), v) == WithScore(sorted, v) + WithScore([x], v)
    decreases |sorted|
  {
    if |sorted| == 0 {
      assert [] + WithScore([x], v) == WithScore([x], v);
    } else if sorted[0].score >= x.score {
      InsertByScoreStable(sorted[1..], x, v);
      InsertBehindHead(sorted, x);
      ConsKeepsWithScore(sorted[0], sorted[1..], InsertByScore(sorted[1..], x), x, v);
      SplitFirst(sorted);
    } else {
      InsertInFrontStable(sorted, x, v);
    }
  }

  /** A citation put in front of both sides keeps a split of the scores' entries. */
  lemma ConsKeepsWithScore(h: Citation, tail: seq<Citation>, rest: seq<Citation>, x: Citation, v: real)
    requires WithScore(rest, v) == WithScore(tail, v) + WithScore([x], v)
    ensures WithScore([h] + rest, v) == WithScore([h] + tail, v) + WithScore([x], v)
  {
    WithScoreAppend([h], rest, v);
    WithScoreAppend([h], tail, v);
    AppendAssoc(WithScore([h], v), WithScore(tail, v), WithScore([x], v));
  }

  /** Behind a head scoring at least as much, insertion goes into the tail. */
  lemma InsertBehindHead(sorted: seq<Citation>, x: Citation)
    requires SortedDesc(sorted) && |sorted| > 0 && sorted[0].score >= x.score
    ensures InsertByScore(sorted, x) == [sorted[0]] + InsertByScore(sorted[1..], x)
  {
  }

  /** Concatenation is associative. */
  lemma AppendAssoc<T>(a: seq<T>, b: seq<T>, c: seq<T>)
    ensures a + (b + c) == (a + b) + c
  {
  }

  /** Insertion in front of a list that all scores less than `x`. */
  lemma InsertInFrontStable(sorted: seq<Citation>, x: Citation, v: real)
    requires SortedDesc(sorted) && |sorted| > 0 && sorted[0].score < x.score
    ensures WithScore(InsertByScore(sorted, x), v) == WithScore(sorted, v) + WithScore([x], v)
  {
    assert InsertByScore(sorted, x) == [x] + sorted;
    WithScoreAppend([x], sorted, v);
    if v == x.score {
      WithScoreNone(sorted, v);
    } else {
      assert WithScore([x], v) == [];
    }
  }

  /** `list.sort(key=score, reverse=True)`: descending scores and a permutation of the input. */
  function SortByScoreDesc(s: seq<Citation>): (r: seq<Citation>)
    ensures SortedDesc(r)
    ensures multiset(r) == multiset(s)
    decreases |s|
  {
    if |s| == 0 then []
    else
      SplitLast(s);
      InsertByScore(SortByScoreDesc(s[..|s| - 1]), s[|s| - 1])
  }

  /** The sort is stable: citations of equal score keep their relative order. */
  lemma {:induction false} SortByScoreDescStable(s: seq<Citation>, v: real)
    ensures WithScore(SortByScoreDesc(s), v) == WithScore(s, v)
    decreases |s|
  {
    if |s| > 0 {
      var init := s[..|s| - 1];
      var x := s[|s| - 1];
      SortByScoreDescStable(init, v);
      InsertByScoreStable(SortByScoreDesc(init), x, v);
      SplitLast(s);
      WithScoreAppend(init, [x], v);
    }
  }

  /** The citations that are not the given source, in order. */
  function WithoutSource(s: seq<Citation>, src: string): (r: seq<Citation>)
    ensures |r| <= |s|
    ensures forall c | c in r :: c in s && c.source != src
    ensures forall c | c in s && c.source != src :: c in r
    decreases |s|
  {
    if |s| == 0 then []
    else (if s[0].source == src then [] else [s[0]]) + WithoutSource(s[1..], src)
  }

  /** `max(top_k, 3)`, the number of citations kept. */
  function KeepCount(topK: int): (n: nat)
    ensures n >= 3 && n >= topK
    ensures n == 3 || n == topK
  {
    if topK > 3 then topK else 3
  }

  /** The citations ranked: all of them when the fraud policy is needed, the others otherwise. */
  function Candidates(deduped: seq<Citation>, includeFraud: bool): seq<Citation> {
    if includeFraud then deduped else WithoutSource(deduped, FraudPolicyFile)
  }

  /** A prefix of a descending list is descending. */
  lemma TakeSortedDesc(s: seq<Citation>, n: nat)
    requires SortedDesc(s)
    ensures SortedDesc(Take(s, n))
  {
    assert forall i | 0 <= i < |Take(s, n)| :: Take(s, n)[i] == s[i];
  }

  /**
   * The tail of `query_policies`: drop the fraud policy unless it is needed,
   * sort by descending score, and keep the best `max(top_k, 3)`.
   */
  function RankTail(deduped: seq<Citation>, includeFraud: bool, topK: int): (r: seq<Citation>)
    ensures |r| <= KeepCount(topK)
    ensures SortedDesc(r)
    ensures forall c | c in r :: c in deduped
    ensures !includeFraud ==> forall c | c in r :: c.source != FraudPolicyFile
  {
    var sorted := SortByScoreDesc(Candidates(deduped, includeFraud));
    TakeSortedDesc(sorted, KeepCount(topK));
    assert forall c | c in sorted :: c in multiset(Candidates(deduped, includeFraud));
    Take(sorted, KeepCount(topK))
  }

  /** A list with one citation per source holds each citation at most once. */
  lemma {:induction false} DistinctSourcesCountOnce(s: seq<Citation>, c: Citation)
    requires DistinctSources(s)
    ensures multiset(s)[c] <= 1
    decreases |s|
  {
    if |s| > 0 {
      SplitFirst(s);
      assert multiset(s) == multiset{s[0]} + multiset(s[1..]);
      assert DistinctSources(s[1..]) by {
        forall i, j | 0 <= i < j < |s[1..]|
          ensures s[1..][i].source != s[1..][j].source
        {
          assert s[1..][i] == s[i + 1] && s[1..][j] == s[j + 1];
        }
      }
      DistinctSourcesCountOnce(s[1..], c);
      if s[0] == c {
        forall k | 0 <= k < |s[1..]|
          ensures s[1..][k] != c
        {
          assert s[1..][k] == s[k + 1];
        }
        assert c !in s[1..];
      }
    }
  }

  /** A citation at two positions is counted at least twice. */
  lemma TwoPositionsCountTwice(s: seq<Citation>, i: nat, j: nat)
    requires i < j < |s|
    ensures s[i] == s[j] ==> multiset(s)[s[i]] >= 2
  {
    assert s == s[..j] + s[j..];
    assert multiset(s) == multiset(s[..j]) + multiset(s[j..]);
    assert s[i] in s[..j];
    assert s[j] == s[j..][0];
  }

  /** Reordering keeps one citation per source. */
  lemma PermutationKeepsDistinctSources(s: seq<Citation>, r: seq<Citation>)
    requires DistinctSources(s) && multiset(r) == multiset(s)
    ensures DistinctSources(r)
  {
    forall i, j | 0 <= i < j < |r|
      ensures r[i].source != r[j].source
    {
      TwoPositionsCountTwice(r, i, j);
      DistinctSourcesCountOnce(s, r[i]);
      assert r[i] != r[j];
      assert r[i] in multiset(s) && r[j] in multiset(s);
      var p :| 0 <= p < |s| && s[p] == r[i];
      var q :| 0 <= q < |s| && s[q] == r[j];
      if p < q {
        assert s[p].source != s[q].source;
      } else {
        assert s[q].source != s[p].source;
      }
    }
  }

  /** Dropping one source keeps one citation per source. */
  lemma {:induction false} WithoutSourceKeepsDistinct(s: seq<Citation>, src: string)
    requires DistinctSources(s)
    ensures DistinctSources(WithoutSource(s, src))
    decreases |s|
  {
    if |s| > 0 {
      assert DistinctSources(s[1..]) by {
        forall i, j | 0 <= i < j < |s[1..]|
          ensures s[1..][i].source != s[1..][j].source
        {
          assert s[1..][i] == s[i + 1] && s[1..][j] == s[j + 1];
        }
      }
      WithoutSourceKeepsDistinct(s[1..], src);
      var rest := WithoutSource(s[1..], src);
      forall c | c in rest
        ensures c.source != s[0].source
      {
        var k :| 0 <= k < |s[1..]| && s[1..][k] == c;
        assert s[k + 1] == c;
      }
      var r := WithoutSource(s, src);
      forall i, j | 0 <= i < j < |r|
        ensures r[i].source != r[j].source
      {
        if s[0].source != src {
          assert r == [s[0]] + rest;
          if i == 0 {
            assert r[j] == rest[j - 1];
            assert r[j] in rest;
          } else {
            assert r[i] == rest[i - 1] && r[j] == rest[j - 1];
          }
        } else {
          assert r == rest;
        }
      }
    }
  }

  /** Ranking keeps one citation per source: it only filters, reorders and cuts. */
  lemma RankTailKeepsDistinct(deduped: seq<Citation>, includeFraud: bool, topK: int)
    requires DistinctSources(deduped)
    ensures DistinctSources(RankTail(deduped, includeFraud, topK))
  {
    var cands := Candidates(deduped, includeFraud);
    if !includeFraud {
      WithoutSourceKeepsDistinct(deduped, FraudPolicyFile);
    }
    var sorted := SortByScoreDesc(cands);
    PermutationKeepsDistinctSources(cands, sorted);
    var r := Take(sorted, KeepCount(topK));
    assert r == sorted[..|r|];
    assert forall i | 0 <= i < |r| :: r[i] == sorted[i];
  }

  /** With no more candidates than places, nothing is cut: the result is the candidates reordered. */
  lemma RankTailKeepsAllWhenFew(deduped: seq<Citation>, includeFraud: bool, topK: int)
    requires |Candidates(deduped, includeFraud)| <= KeepCount(topK)
    ensures multiset(RankTail(deduped, includeFraud, topK)) == multiset(Candidates(deduped, includeFraud))
  {
    var sorted := SortByScoreDesc(Candidates(deduped, includeFraud));
    assert |sorted| == |Candidates(deduped, includeFraud)| by {
      assert |multiset(sorted)| == |multiset(Candidates(deduped, includeFraud))|;
    }
    assert Take(sorted, KeepCount(topK)) == sorted;
  }

  /** Every citation cut off scores no more than every citation kept. */
  lemma RankTailKeepsTheBest(deduped: seq<Citation>, includeFraud: bool, topK: int, i: nat, j: nat)
    requires i < KeepCount(topK) <= j < |SortByScoreDesc(Candidates(deduped, includeFraud))|
    ensures RankTail(deduped, includeFraud, topK)[i].score >= SortByScoreDesc(Candidates(deduped, includeFraud))[j].score
  {
  }

  // ------------------------------------------------------------------
  // query_policies
  // ------------------------------------------------------------------

  /** A `get` answer for the fraud policy: documents and metadatas, each `[]` when missing. */
  datatype FraudAnswer = FraudAnswer(documents: seq<string>, metadatas: seq<Option<Metadata>>)

  /** `metas[0]` on an empty metadata list raises `IndexError`. */
  datatype RetrievalError = IndexError

  /** The fraud policy citation, when it is needed and the store holds it. */
  function FraudCitation(includeFraud: bool, fraud: FraudAnswer): (r: Result<seq<Citation>, RetrievalError>)
    ensures r.Err? <==> includeFraud && |fraud.documents| > 0 && |fraud.metadatas| == 0
    ensures r.Ok? ==> |r.value| <= 1
    ensures r.Ok? && |r.value| == 1 ==>
      |fraud.documents| > 0 && r.value[0].score == 1.0 && r.value[0].content == fraud.documents[0]
    ensures r.Ok? && |r.value| == 1 && r.value[0].metadata.source.None? ==> r.value[0].source == FraudPolicyFile
    ensures !includeFraud || |fraud.documents| == 0 ==> r == Ok([])
  {
    if !includeFraud || |fraud.documents| == 0 then Ok([])
    else if |fraud.metadatas| == 0 then Err(IndexError)
    else
      var meta := fraud.metadatas[0].GetOr(NoMetadata);
      Ok([CitationOf(fraud.documents[0], meta, FraudPolicyFile, FraudTitle, 1.0)])
  }

  /**
   * `query_policies`: the issue-filtered answer (only for a non-empty issue
   * type), then the semantic answer, then the fraud policy when needed;
   * deduplicated by source and ranked.
   */
  function QueryPolicies(
    issueType: Option<string>, order: Option<Order>,
    filtered: QueryAnswer, semantic: QueryAnswer, fraud: FraudAnswer,
    toScore: real -> real, topK: int): (r: Result<seq<Citation>, RetrievalError>)
    ensures r.Err? <==>
      NeedsFraudPolicy(issueType, AmountOf(order)) && |fraud.documents| > 0 && |fraud.metadatas| == 0
    ensures r.Ok? ==> |r.value| <= KeepCount(topK) && SortedDesc(r.value)
    ensures r.Ok? ==> DistinctSources(r.value)
    ensures r.Ok? && !NeedsFraudPolicy(issueType, AmountOf(order)) ==>
      forall c | c in r.value :: c.source != FraudPolicyFile
    ensures r.Ok? ==> forall c | c in r.value ::
      c in (if Truthy(issueType) then NormalizeQueryResult(filtered, toScore) else [])
        + NormalizeQueryResult(semantic, toScore)
        + FraudCitation(NeedsFraudPolicy(issueType, AmountOf(order)), fraud).value
  {
    var includeFraud := NeedsFraudPolicy(issueType, AmountOf(order));
    var issueResults := if Truthy(issueType) then NormalizeQueryResult(filtered, toScore) else [];
    match FraudCitation(includeFraud, fraud)
    case Err(e) => Err(e)
    case Ok(extra) =>
      var results := issueResults + NormalizeQueryResult(semantic, toScore) + extra;
      DedupeBySourceShrinks(results);
      DedupeBySourceCorrect(results);
      RankTailKeepsDistinct(DedupeBySource(results), includeFraud, topK);
      Ok(RankTail(DedupeBySource(results), includeFraud, topK))
  }

  // ------------------------------------------------------------------
  // rerank_with_llm
  // ------------------------------------------------------------------

  /** One element of the model's `ranked_indexes` list. */
  datatype RankEntry = IntEntry(i: int) | BoolEntry(b: bool) | OtherEntry

  /** `isinstance(x, int)` holds for booleans too, which index as 0 and 1. */
  function EntryIndex(e: RankEntry): Option<int> {
    match e
    case IntEntry(i) => Some(i)
    case BoolEntry(b) => Some(if b then 1 else 0)
    case OtherEntry => None
  }

  /**
   * The model's answer after `json.loads`: not JSON, an object on which
   * `.get` raises (a list, say), or the `ranked_indexes` entries (`[]` when
   * the key is missing).
   */
  datatype RankingReply = InvalidJson | Raises | Ranked(entries: seq<RankEntry>)

  /** The error a raising reply propagates. */
  datatype RerankError = ReplyNotAnObject

  /** Position of the first entry naming index `v`, or `|entries|`. */
  function FirstEntryFor(entries: seq<RankEntry>, v: int): (k: nat)
    ensures k <= |entries|
  {
    if |entries| == 0 then 0
    else if EntryIndex(entries[0]) == Some(v) then 0
    else 1 + FirstEntryFor(entries[1..], v)
  }

  /** `FirstEntryFor` finds the first entry that mentions `v`, and `|entries|` when none does. */
  lemma {:induction false} FirstEntryForIsFirst(entries: seq<RankEntry>, v: int)
    ensures forall j | 0 <= j < FirstEntryFor(entries, v) :: EntryIndex(entries[j]) != Some(v)
    ensures FirstEntryFor(entries, v) < |entries| ==> EntryIndex(entries[FirstEntryFor(entries, v)]) == Some(v)
  {
    if |entries| > 0 && EntryIndex(entries[0]) != Some(v) {
      FirstEntryForIsFirst(entries[1..], v);
      forall j | 0 <= j < FirstEntryFor(entries, v)
        ensures EntryIndex(entries[j]) != Some(v)
      {
        if j > 0 {
          assert entries[j] == entries[1..][j - 1];
        }
      }
    }
  }

  /**
   * The loop over `ranked`: the valid indexes below `n` that are not in
   * `used`, each once, in the order of their first mention.
   */
  function SanitizeIndexes(entries: seq<RankEntry>, n: nat, used: set<int>): (idx: seq<int>)
    ensures forall i | 0 <= i < |idx| :: 0 <= idx[i] < n && idx[i] !in used
    decreases |entries|
  {
    if |entries| == 0 then []
    else
      var e := EntryIndex(entries[0]);
      if e.Some? && 0 <= e.value < n && e.value !in used then
        [e.value] + SanitizeIndexes(entries[1..], n, used + {e.value})
      else
        SanitizeIndexes(entries[1..], n, used)
  }

  /** No index is kept twice. */
  lemma {:induction false} SanitizeIndexesDistinct(entries: seq<RankEntry>, n: nat, used: set<int>, i: nat, j: nat)
    requires i < j < |SanitizeIndexes(entries, n, used)|
    ensures SanitizeIndexes(entries, n, used)[i] != SanitizeIndexes(entries, n, used)[j]
    decreases |entries|
  {
    var e := EntryIndex(entries[0]);
    if e.Some? && 0 <= e.value < n && e.value !in used {
      var rest := SanitizeIndexes(entries[1..], n, used + {e.value});
      assert SanitizeIndexes(entries, n, used) == [e.value] + rest;
      if i > 0 {
        SanitizeIndexesDistinct(entries[1..], n, used + {e.value}, i - 1, j - 1);
      } else {
        assert rest[j - 1] !in used + {e.value};
      }
    } else {
      SanitizeIndexesDistinct(entries[1..], n, used, i, j);
    }
  }

  /** Past an entry that does not mention `w`, the first mention of `w` is one further on. */
  lemma FirstEntryPastOther(entries: seq<RankEntry>, w: int)
    requires |entries| > 0 && EntryIndex(entries[0]) != Some(w)
    ensures FirstEntryFor(entries, w) == 1 + FirstEntryFor(entries[1..], w)
  {
  }

  /** Every kept index is mentioned by some entry. */
  lemma {:induction false} SanitizeIndexesMentioned(entries: seq<RankEntry>, n: nat, used: set<int>, i: nat)
    requires i < |SanitizeIndexes(entries, n, used)|
    ensures FirstEntryFor(entries, SanitizeIndexes(entries, n, used)[i]) < |entries|
    decreases |entries|
  {
    var e := EntryIndex(entries[0]);
    var w := SanitizeIndexes(entries, n, used)[i];
    if e.Some? && 0 <= e.value < n && e.value !in used {
      if i > 0 {
        SanitizeIndexesMentioned(entries[1..], n, used + {e.value}, i - 1);
      }
    } else {
      SanitizeIndexesMentioned(entries[1..], n, used, i);
    }
  }

  /** Every valid index an entry mentions and that is not yet used is kept. */
  lemma {:induction false} SanitizeIndexesComplete(entries: seq<RankEntry>, n: nat, used: set<int>, j: nat)
    requires j < |entries| && EntryIndex(entries[j]).Some?
    requires 0 <= EntryIndex(entries[j]).value < n && EntryIndex(entries[j]).value !in used
    ensures EntryIndex(entries[j]).value in SanitizeIndexes(entries, n, used)
    decreases |entries|
  {
    var e := EntryIndex(entries[0]);
    var v := EntryIndex(entries[j]).value;
    if j > 0 {
      assert entries[1..][j - 1] == entries[j];
      if e.Some? && 0 <= e.value < n && e.value !in used {
        if e.value != v {
          SanitizeIndexesComplete(entries[1..], n, used + {e.value}, j - 1);
        }
      } else {
        SanitizeIndexesComplete(entries[1..], n, used, j - 1);
      }
    }
  }

  /** Kept indexes are listed in the order of their first mention. */
  lemma {:induction false} SanitizeIndexesOrdered(entries: seq<RankEntry>, n: nat, used: set<int>, i: nat, j: nat)
    requires i < j < |SanitizeIndexes(entries, n, used)|
    ensures FirstEntryFor(entries, SanitizeIndexes(entries, n, used)[i]) < FirstEntryFor(entries, SanitizeIndexes(entries, n, used)[j])
    decreases |entries|
  {
    var e := EntryIndex(entries[0]);
    var idx := SanitizeIndexes(entries, n, used);
    if e.Some? && 0 <= e.value < n && e.value !in used {
      var rest := SanitizeIndexes(entries[1..], n, used + {e.value});
      assert idx == [e.value] + rest;
      assert idx[j] == rest[j - 1] && rest[j - 1] != e.value;
      FirstEntryPastOther(entries, rest[j - 1]);
      if i > 0 {
        assert idx[i] == rest[i - 1] && rest[i - 1] != e.value;
        FirstEntryPastOther(entries, rest[i - 1]);
        SanitizeIndexesOrdered(entries[1..], n, used + {e.value}, i - 1, j - 1);
      } else {
        assert FirstEntryFor(entries, idx[i]) == 0;
      }
    } else {
      var rest := SanitizeIndexes(entries[1..], n, used);
      assert idx == rest;
      assert e != Some(rest[i]) && e != Some(rest[j]);
      FirstEntryPastOther(entries, rest[i]);
      FirstEntryPastOther(entries, rest[j]);
      SanitizeIndexesOrdered(entries[1..], n, used, i, j);
    }
  }

  /** `seq[:n]` with Python's reading of a negative bound. */
  function PySliceTo<T>(s: seq<T>, n: int): (r: seq<T>)
    ensures n >= 0 ==> r == Take(s, n)
    ensures n < 0 ==> |r| == if |s| + n > 0 then |s| + n else 0
    ensures r == s[..|r|]
  {
    if n >= 0 then Take(s, n)
    else if |s| + n > 0 then s[..|s| + n]
    else []
  }

  /**
   * `rerank_with_llm`: an empty list is returned without asking the model;
   * otherwise the model's valid indexes reorder the list, and an unusable
   * answer keeps the list as it is. Either way at most `top_n` are kept.
   */
  function RerankWithLlm(results: seq<Citation>, reply: RankingReply, topN: int): (r: Result<seq<Citation>, RerankError>)
    ensures |results| == 0 ==> r == Ok([])
    ensures r.Err? <==> |results| > 0 && reply.Raises?
    ensures reply.InvalidJson? ==> r == Ok(PySliceTo(results, topN))
    ensures reply.Ranked? && |results| > 0 ==>
      var idx := SanitizeIndexes(reply.entries, |results|, {});
      r.Ok?
      && (|idx| == 0 ==> r.value == PySliceTo(results, topN))
      && (|idx| > 0 ==> |r.value| <= |idx| && forall i | 0 <= i < |r.value| :: r.value[i] == results[idx[i]])
    ensures reply.Ranked? && |results| > 0 && |SanitizeIndexes(reply.entries, |results|, {})| > 0 ==>
      r.Ok? && |r.value| == |PySliceTo(SanitizeIndexes(reply.entries, |results|, {}), topN)|
    ensures r.Ok? ==> forall c | c in r.value :: c in results
  {
    if |results| == 0 then Ok([])
    else
      match reply
      case InvalidJson => Ok(PySliceTo(results, topN))
      case Raises => Err(ReplyNotAnObject)
      case Ranked(entries) =>
        var idx := SanitizeIndexes(entries, |results|, {});
        if |idx| == 0 then Ok(PySliceTo(results, topN))
        else
          var reindexed := seq(|idx|, i requires 0 <= i < |idx| => results[idx[i]]);
          Ok(PySliceTo(reindexed, topN))
  }

  /** The model's answer, whatever it is, is never consulted for an empty list. */
  lemma RerankEmptyIgnoresReply(r1: RankingReply, r2: RankingReply, topN: int)
    ensures RerankWithLlm([], r1, topN) == RerankWithLlm([], r2, topN) == Ok([])
  {
  }

  /** `true` in the ranking selects the second citation, as index 1. */
  lemma RerankReadsTrueAsOne(a: Citation, b: Citation)
    ensures RerankWithLlm([a, b], Ranked([BoolEntry(true)]), 3) == Ok([b])
  {
    var entries := [BoolEntry(true)];
    assert entries[1..] == [];
    assert SanitizeIndexes(entries, 2, {}) == [1];
    var reindexed := seq(1, i requires 0 <= i < 1 => [a, b][[1][i]]);
    assert reindexed == [b];
    assert PySliceTo(reindexed, 3) == [b];
  }
}

=== FILE: schema.dfy ===
/**
 * Domain records and enums of the ticket-triage service (app/schema.py).
 *
 * The string-valued enums are modelled as datatypes with their wire value
 * and a validating parser; the request records are built from the raw
 * request fields the way the validation layer does, with required fields
 * reported missing and optional fields defaulted.
 */
module Schema {
  import opened Wrappers

  // ------------------------------------------------------------------
  // Enums
  // ------------------------------------------------------------------

  /** Status of the admin review. */
  datatype ReviewStatus = Pending | Approved | Rejected

  function ReviewStatusValue(s: ReviewStatus): string {
    match s
    case Pending => "pending"
    case Approved => "approved"
    case Rejected => "rejected"
  }

  /** `ReviewStatus(v)`: accepts exactly the three wire values. */
  function ParseReviewStatus(v: string): (r: Option<ReviewStatus>)
    ensures r.Some? ==> ReviewStatusValue(r.value) == v
    ensures r.None? ==> forall s: ReviewStatus :: ReviewStatusValue(s) != v
  {
    if v == "pending" then Some(Pending)
    else if v == "approved" then Some(Approved)
    else if v == "rejected" then Some(Rejected)
    else None
  }

  /** Scenario selected for the unified draft node. */
  datatype DraftScenario = Reply | NeedIdentifier | OrderNotFound | NoOrdersFound | ConfirmOrder

  function DraftScenarioValue(s: DraftScenario): string {
    match s
    case Reply => "reply"
    case NeedIdentifier => "need_identifier"
    case OrderNotFound => "order_not_found"
    case NoOrdersFound => "no_orders_found"
    case ConfirmOrder => "confirm_order"
  }

  /** `DraftScenario(v)`: accepts exactly the five wire values. */
  function ParseDraftScenario(v: string): (r: Option<DraftScenario>)
    ensures r.Some? ==> DraftScenarioValue(r.value) == v
    ensures r.None? ==> forall s: DraftScenario :: DraftScenarioValue(s) != v
  {
    if v == "reply" then Some(Reply)
    else if v == "need_identifier" then Some(NeedIdentifier)
    else if v == "order_not_found" then Some(OrderNotFound)
    else if v == "no_orders_found" then Some(NoOrdersFound)
    else if v == "confirm_order" then Some(ConfirmOrder)
    else None
  }

  /** Routing path chosen after ingest in a multi-turn conversation. */
  datatype RoutePath = Full | Reclassify | Resolve | Draft

  function RoutePathValue(p: RoutePath): string {
    match p
    case Full => "full"
    case Reclassify => "reclassify"
    case Resolve => "resolve"
    case Draft => "draft"
  }

  /** `RoutePath(v)`: accepts exactly the four wire values. */
  function ParseRoutePath(v: string): (r: Option<RoutePath>)
    ensures r.Some? ==> RoutePathValue(r.value) == v
    ensures r.None? ==> forall p: RoutePath :: RoutePathValue(p) != v
  {
    if v == "full" then Some(Full)
    else if v == "reclassify" then Some(Reclassify)
    else if v == "resolve" then Some(Resolve)
    else if v == "draft" then Some(Draft)
    else None
  }

  // ------------------------------------------------------------------
  // Records
  // ------------------------------------------------------------------

  datatype OrderItem = OrderItem(sku: string, name: string, quantity: int)

  /** An order record; `totalAmount` is a float in the service, a real here. */
  datatype Order = Order(
    orderId: string,
    customerName: string,
    email: string,
    items: seq<OrderItem>,
    orderDate: string,
    status: string,
    deliveryDate: Option<string>,
    totalAmount: real,
    currency: string)

  datatype ReviewAction = ReviewAction(status: ReviewStatus, feedback: Option<string>)

  datatype TriageInput = TriageInput(ticketText: string, orderId: Option<string>, threadId: Option<string>)

  /** One message of the transcript as the API reports it. */
  datatype MessageView = MessageView(role: string, content: string)

  /** One entry of the candidate-order summary. */
  datatype CandidateSummary = CandidateSummary(orderId: string, status: string, firstItem: Option<string>)

  datatype TriageOutput = TriageOutput(
    threadId: string,
    orderId: Option<string>,
    email: Option<string>,
    issueType: Option<string>,
    draftScenario: Option<DraftScenario>,
    draftReply: Option<string>,
    suggestedAction: Option<string>,
    policyEvaluation: Option<string>,
    reviewStatus: Option<ReviewStatus>,
    evidence: Option<string>,
    recommendation: Option<string>,
    candidateOrders: Option<seq<CandidateSummary>>,
    messages: seq<MessageView>)

  // ------------------------------------------------------------------
  // Validation of raw request fields
  // ------------------------------------------------------------------

  datatype ValidationError = MissingField(field: string) | InvalidValue(field: string)

  /** An optional field: absent and explicit `null` both become `None`. */
  function OptionalField<T>(raw: Slot<T>): (r: Option<T>)
    ensures r.Some? <==> raw.Has?
    ensures raw.Has? ==> r.value == raw.value
  {
    if raw.Has? then Some(raw.value) else None
  }

  /** `ReviewAction`: `status` is required and must be a review status; `feedback` defaults to `None`. */
  function MakeReviewAction(status: Option<string>, feedback: Slot<string>): (r: Result<ReviewAction, ValidationError>)
    ensures status.None? ==> r == Err(MissingField("status"))
    ensures r.Ok? <==> status.Some? && ParseReviewStatus(status.value).Some?
    ensures r.Ok? ==> ReviewStatusValue(r.value.status) == status.value
    ensures r.Ok? ==> (r.value.feedback.Some? <==> feedback.Has?)
    ensures r.Ok? && feedback.Has? ==> r.value.feedback == Some(feedback.value)
  {
    if status.None? then Err(MissingField("status"))
    else match ParseReviewStatus(status.value)
      case None => Err(InvalidValue("status"))
      case Some(st) => Ok(ReviewAction(st, OptionalField(feedback)))
  }

  /** `TriageInput`: `ticket_text` is required; `order_id` and `thread_id` default to `None`. */
  function MakeTriageInput(ticketText: Option<string>, orderId: Slot<string>, threadId: Slot<string>)
    : (r: Result<TriageInput, ValidationError>)
    ensures r.Err? <==> ticketText.None?
    ensures r.Ok? ==> r.value.ticketText == ticketText.value
    ensures r.Ok? ==> (r.value.orderId.None? <==> !orderId.Has?)
    ensures r.Ok? ==> (r.value.threadId.None? <==> !threadId.Has?)
    ensures r.Ok? && orderId.Has? ==> r.value.orderId == Some(orderId.value)
    ensures r.Ok? && threadId.Has? ==> r.value.threadId == Some(threadId.value)
  {
    if ticketText.None? then Err(MissingField("ticket_text"))
    else Ok(TriageInput(ticketText.value, OptionalField(orderId), OptionalField(threadId)))
  }

  /** `Order` with its two defaulted fields: `delivery_date` is `None` and `currency` is `"USD"` when absent. */
  function MakeOrder(
    orderId: string, customerName: string, email: string, items: seq<OrderItem>,
    orderDate: string, status: string, deliveryDate: Slot<string>, totalAmount: real,
    currency: Option<string>): (o: Order)
    ensures !deliveryDate.Has? ==> o.deliveryDate.None?
    ensures currency.None? ==> o.currency == "USD"
    ensures currency.Some? ==> o.currency == currency.value
    ensures o.orderId == orderId && o.items == items && o.totalAmount == totalAmount
  {
    Order(orderId, customerName, email, items, orderDate, status,
          OptionalField(deliveryDate), totalAmount, currency.GetOr("USD"))
  }

  /** `TriageOutput(thread_id=...)` with every other field left at its default. */
  function EmptyTriageOutput(threadId: string): (out: TriageOutput)
    ensures out.threadId == threadId
    ensures out.messages == []
    ensures out.orderId.None? && out.issueType.None? && out.reviewStatus.None? && out.candidateOrders.None?
  {
    TriageOutput(threadId, None, None, None, None, None, None, None, None, None, None, None, [])
  }
}

=== FILE: state.dfy ===
/**
 * The graph state and how a node's partial update is merged into it
 * (app/graph/state.py).
 *
 * The state declares eleven channels. `messages` has an appending reducer;
 * every other channel keeps the last value written. A node returns a
 * partial update naming only the channels it writes.
 */
module TriageState {
  import opened Wrappers
  import opened Schema

  datatype Role = Human | Ai

  /** A chat message; `name` is the optional author tag. */
  datatype Message = Message(role: Role, content: string, name: Option<string>)

  /**
   * The declared channels. `reviewStatus` is annotated non-optional in the
   * schema, but the service stores `None` in it at the start of every turn,
   * so it is optional here.
   */
  datatype GraphState = GraphState(
    messages: seq<Message>,
    ticketText: string,
    orderId: Option<string>,
    issueType: Option<string>,
    orderDetails: Option<Order>,
    evidence: Option<string>,
    recommendation: Option<string>,
    draftReply: Option<string>,
    reviewStatus: Option<ReviewStatus>,
    adminFeedback: Option<string>,
    sender: Option<string>)

  /** The names of the declared channels. */
  const DeclaredKeys: set<string> := {
    "messages", "ticket_text", "order_id", "issue_type", "order_details", "evidence",
    "recommendation", "draft_reply", "review_status", "admin_feedback", "sender"
  }

  /**
   * A partial update. `messages` lists the messages to add; for every other
   * channel `None` means "not written" and `Some(v)` means "overwrite with v".
   */
  datatype Update = Update(
    messages: seq<Message>,
    ticketText: Option<string>,
    orderId: Option<Option<string>>,
    issueType: Option<Option<string>>,
    orderDetails: Option<Option<Order>>,
    evidence: Option<Option<string>>,
    recommendation: Option<Option<string>>,
    draftReply: Option<Option<string>>,
    reviewStatus: Option<Option<ReviewStatus>>,
    adminFeedback: Option<Option<string>>,
    sender: Option<Option<string>>)

  /** The update that writes nothing. */
  const NoWrites: Update := Update([], None, None, None, None, None, None, None, None, None, None)

  /** Last-writer-wins for one channel. */
  function Overwrite<T>(current: T, write: Option<T>): T {
    if write.Some? then write.value else current
  }

  /** Applies a node's update: messages are appended, written channels overwritten. */
  function Merge(s: GraphState, u: Update): (r: GraphState)
    ensures |r.messages| == |s.messages| + |u.messages|
    ensures r.messages[..|s.messages|] == s.messages
    ensures r.messages[|s.messages|..] == u.messages
  {
    GraphState(
      s.messages + u.messages,
      Overwrite(s.ticketText, u.ticketText),
      Overwrite(s.orderId, u.orderId),
      Overwrite(s.issueType, u.issueType),
      Overwrite(s.orderDetails, u.orderDetails),
      Overwrite(s.evidence, u.evidence),
      Overwrite(s.recommendation, u.recommendation),
      Overwrite(s.draftReply, u.draftReply),
      Overwrite(s.reviewStatus, u.reviewStatus),
      Overwrite(s.adminFeedback, u.adminFeedback),
      Overwrite(s.sender, u.sender))
  }

  /** The later of two writes to one channel. */
  function Later<T>(first: Option<T>, second: Option<T>): Option<T> {
    if second.Some? then second else first
  }

  /** Two updates applied one after the other, as a single update. */
  function Then(u1: Update, u2: Update): Update {
    Update(
      u1.messages + u2.messages,
      Later(u1.ticketText, u2.ticketText),
      Later(u1.orderId, u2.orderId),
      Later(u1.issueType, u2.issueType),
      Later(u1.orderDetails, u2.orderDetails),
      Later(u1.evidence, u2.evidence),
      Later(u1.recommendation, u2.recommendation),
      Later(u1.draftReply, u2.draftReply),
      Later(u1.reviewStatus, u2.reviewStatus),
      Later(u1.adminFeedback, u2.adminFeedback),
      Later(u1.sender, u2.sender))
  }

  /** Merging two updates in turn equals merging their composition. */
  lemma MergeThen(s: GraphState, u1: Update, u2: Update)
    ensures Merge(Merge(s, u1), u2) == Merge(s, Then(u1, u2))
  {
    assert (s.messages + u1.messages) + u2.messages == s.messages + (u1.messages + u2.messages);
  }

  /** The empty update is the identity. */
  lemma MergeNoWrites(s: GraphState)
    ensures Merge(s, NoWrites) == s
  {
    assert s.messages + [] == s.messages;
  }

  /** An update that adds no messages can be applied twice with no further effect. */
  lemma MergeIdempotentWithoutMessages(s: GraphState, u: Update)
    requires u.messages == []
    ensures Merge(Merge(s, u), u) == Merge(s, u)
  {
    assert s.messages + [] == s.messages;
  }

  /** A sequence of updates never shortens or rewrites the history. */
  function MergeAll(s: GraphState, us: seq<Update>): GraphState
    decreases |us|
  {
    if |us| == 0 then s else MergeAll(Merge(s, us[0]), us[1..])
  }

  lemma {:induction false} MergeAllKeepsHistory(s: GraphState, us: seq<Update>)
    ensures |MergeAll(s, us).messages| >= |s.messages|
    ensures MergeAll(s, us).messages[..|s.messages|] == s.messages
    decreases |us|
  {
    if |us| > 0 {
      var s1 := Merge(s, us[0]);
      MergeAllKeepsHistory(s1, us[1..]);
      assert MergeAll(s, us) == MergeAll(s1, us[1..]);
      var m := MergeAll(s1, us[1..]).messages;
      assert m[..|s1.messages|] == s1.messages;
      assert m[..|s.messages|] == m[..|s1.messages|][..|s.messages|];
    }
  }
}

=== FILE: strings.dfy ===
/**
 * The parts of Python's `str` behaviour the triage core relies on.
 *
 * Character classes are ASCII: `\d` is `[0-9]`, `\w` is `[A-Za-z0-9_]`,
 * `str.isspace` is the ASCII whitespace set and `lower`/`upper` map only
 * `A-Z`/`a-z`. Line breaks are the full set `str.splitlines` recognises.
 */
module Strings {

  // ------------------------------------------------------------------
  // Character classes and case mapping
  // ------------------------------------------------------------------

  predicate IsAsciiUpper(c: char) { 'A' <= c <= 'Z' }

  predicate IsAsciiLower(c: char) { 'a' <= c <= 'z' }

  predicate IsDigit(c: char) { '0' <= c <= '9' }

  /** Python's `\w` restricted to ASCII. */
  predicate IsWordChar(c: char) {
    IsAsciiUpper(c) || IsAsciiLower(c) || IsDigit(c) || c == '_'
  }

  /** `str.isspace` on ASCII: tab through carriage return, 0x1C-0x1F and space. */
  predicate IsSpace(c: char) {
    c == ' ' || '\t' <= c <= '\r' || '\U{1C}' <= c <= '\U{1F}'
  }

  /** The line boundaries of `str.splitlines` (`\r\n` is handled by `BreakLen`). */
  predicate IsLineBreak(c: char) {
    '\n' <= c <= '\r' || '\U{1C}' <= c <= '\U{1E}'
    || c == '\U{85}' || c == '\U{2028}' || c == '\U{2029}'
  }

  function LowerChar(c: char): char {
    if IsAsciiUpper(c) then (c as int + 32) as char else c
  }

  function UpperChar(c: char): char {
    if IsAsciiLower(c) then (c as int - 32) as char else c
  }

  /** `str.lower()` */
  function Lower(s: string): string {
    seq(|s|, i requires 0 <= i < |s| => LowerChar(s[i]))
  }

  /** `str.upper()` */
  function Upper(s: string): string {
    seq(|s|, i requires 0 <= i < |s| => UpperChar(s[i]))
  }

  /** A lower-cased string holds no upper-case letter. */
  lemma LowerHasNoUpper(s: string)
    ensures forall i | 0 <= i < |Lower(s)| :: !IsAsciiUpper(Lower(s)[i])
  {
  }

  // ------------------------------------------------------------------
  // Prefixes, suffixes and substrings
  // ------------------------------------------------------------------

  predicate StartsWith(s: string, prefix: string) {
    |prefix| <= |s| && s[..|prefix|] == prefix
  }

  predicate EndsWith(s: string, suffix: string) {
    |suffix| <= |s| && s[|s| - |suffix|..] == suffix
  }

  /** `pat` occurs in `s` starting at index `i`. */
  predicate OccursAt(s: string, pat: string, i: int) {
    0 <= i && i + |pat| <= |s| && s[i..i + |pat|] == pat
  }

  /** Python's `pat in s`. */
  predicate Contains(s: string, pat: string) {
    exists i | 0 <= i <= |s| :: OccursAt(s, pat, i)
  }

  /** Python's `s[:n]` for a non-negative `n`. */
  function Take<T>(s: seq<T>, n: nat): (r: seq<T>)
    ensures |r| <= n && |r| <= |s| && r == s[..|r|]
    ensures |s| <= n ==> r == s
    ensures n <= |s| ==> |r| == n
  {
    if n <= |s| then s[..n] else s
  }

  /** Concatenation of a sequence of strings, `"".join(parts)`. */
  function Concat(parts: seq<string>): string {
    if |parts| == 0 then "" else parts[0] + Concat(parts[1..])
  }

  lemma ConcatAppend(a: seq<string>, b: seq<string>)
    ensures Concat(a + b) == Concat(a) + Concat(b)
  {
    if |a| == 0 {
      assert a + b == b;
    } else {
      assert (a + b)[1..] == a[1..] + b;
      ConcatAppend(a[1..], b);
    }
  }

  // ------------------------------------------------------------------
  // split / join / replace with an explicit separator
  // ------------------------------------------------------------------

  /** `sep.join(parts)` */
  function Join(parts: seq<string>, sep: string): string {
    if |parts| == 0 then ""
    else if |parts| == 1 then parts[0]
    else parts[0] + sep + Join(parts[1..], sep)
  }

  /** Joining two or more parts puts the first part and a separator in front. */
  lemma JoinCons(parts: seq<string>, sep: string)
    requires |parts| > 1
    ensures Join(parts, sep) == parts[0] + (sep + Join(parts[1..], sep))
  {
  }

  /** `s.split(sep)` for a non-empty separator: always at least one piece. */
  function Split(s: string, sep: string): (parts: seq<string>)
    requires |sep| > 0
    ensures |parts| > 0
    decreases |s|
  {
    if |s| < |sep| then [s]
    else if s[..|sep|] == sep then [""] + Split(s[|sep|..], sep)
    else
      var rest := Split(s[1..], sep);
      [[s[0]] + rest[0]] + rest[1..]
  }

  /** `s.replace(target, repl)`: every non-overlapping occurrence, left to right. */
  function Replace(s: string, target: string, repl: string): string
    requires |target| > 0
    decreases |s|
  {
    if |s| < |target| then s
    else if s[..|target|] == target then repl + Replace(s[|target|..], target, repl)
    else [s[0]] + Replace(s[1..], target, repl)
  }

  /** Prepending to the first piece prepends to the joined string. */
  lemma JoinPrependFirst(c: string, parts: seq<string>, sep: string)
    requires |parts| > 0
    ensures Join([c + parts[0]] + parts[1..], sep) == c + Join(parts, sep)
  {
    var ps := [c + parts[0]] + parts[1..];
    assert ps[1..] == parts[1..];
    if |parts| > 1 {
      assert Join(ps, sep) == c + parts[0] + sep + Join(parts[1..], sep);
    }
  }

  /** Splitting and re-joining with the same separator gives back the text. */
  lemma {:induction false} JoinSplitRoundTrip(s: string, sep: string)
    requires |sep| > 0
    ensures Join(Split(s, sep), sep) == s
    decreases |s|
  {
    if |s| < |sep| {
    } else if s[..|sep|] == sep {
      var rest := Split(s[|sep|..], sep);
      assert Split(s, sep) == [""] + rest;
      JoinSplitRoundTrip(s[|sep|..], sep);
      assert ([""] + rest)[1..] == rest;
      assert Join([""] + rest, sep) == "" + sep + Join(rest, sep);
      assert s == sep + s[|sep|..];
    } else {
      var rest := Split(s[1..], sep);
      assert Split(s, sep) == [[s[0]] + rest[0]] + rest[1..];
      JoinSplitRoundTrip(s[1..], sep);
      JoinPrependFirst([s[0]], rest, sep);
      assert s == [s[0]] + s[1..];
    }
  }

  /** Python's identity `s.replace(target, repl) == repl.join(s.split(target))`. */
  lemma {:induction false} ReplaceIsJoinOfSplit(s: string, target: string, repl: string)
    requires |target| > 0
    ensures Replace(s, target, repl) == Join(Split(s, target), repl)
    decreases |s|
  {
    if |s| < |target| {
    } else if s[..|target|] == target {
      var rest := Split(s[|target|..], target);
      ReplaceIsJoinOfSplit(s[|target|..], target, repl);
      assert ([""] + rest)[1..] == rest;
    } else {
      var rest := Split(s[1..], target);
      ReplaceIsJoinOfSplit(s[1..], target, repl);
      JoinPrependFirst([s[0]], rest, repl);
    }
  }

  /** Replacing a single character by one that differs leaves none of it behind. */
  lemma {:induction false} ReplaceCharRemovesIt(s: string, c: char, d: char)
    requires c != d
    ensures forall i | 0 <= i < |Replace(s, [c], [d])| :: Replace(s, [c], [d])[i] != c
    decreases |s|
  {
    if |s| >= 1 {
      ReplaceCharRemovesIt(s[1..], c, d);
    }
  }

  /** Replacing one character is a character-by-character substitution. */
  function SwapChar(s: string, c: char, d: char): (r: string)
    ensures |r| == |s|
    ensures forall i | 0 <= i < |s| :: r[i] == (if s[i] == c then d else s[i])
  {
    seq(|s|, i requires 0 <= i < |s| => if s[i] == c then d else s[i])
  }

  /** `s.replace(c, d)` for single characters is `SwapChar`. */
  lemma {:induction false} ReplaceOneChar(s: string, c: char, d: char)
    ensures Replace(s, [c], [d]) == SwapChar(s, c, d)
    decreases |s|
  {
    if |s| > 0 {
      ReplaceOneChar(s[1..], c, d);
      assert SwapChar(s, c, d) == [if s[0] == c then d else s[0]] + SwapChar(s[1..], c, d);
    }
  }

  /** A prefix in which the target never starts passes through `Replace` unchanged. */
  lemma {:induction false} ReplacePrefix(a: string, rest: string, target: string, repl: string)
    requires |target| > 0
    requires forall i | 0 <= i < |a| :: !OccursAt(a + rest, target, i)
    ensures Replace(a + rest, target, repl) == a + Replace(rest, target, repl)
    decreases |a|
  {
    if |a| == 0 {
      assert a + rest == rest;
    } else {
      var s := a + rest;
      NoOccurrenceAfterFirst(a, rest, target);
      ReplacePrefix(a[1..], rest, target, repl);
      ReplaceNoMatchAtStart(s, target, repl);
      assert s[1..] == a[1..] + rest;
      assert [a[0]] + (a[1..] + Replace(rest, target, repl)) == a + Replace(rest, target, repl);
    }
  }

  /** Without a match at the front, the first character is kept. */
  lemma ReplaceNoMatchAtStart(s: string, target: string, repl: string)
    requires |target| > 0 && |s| > 0 && !OccursAt(s, target, 0)
    ensures Replace(s, target, repl) == [s[0]] + Replace(s[1..], target, repl)
  {
    assert |s| >= |target| ==> s[..|target|] != target;
  }

  /** No match in the first `|a|` positions stays so after dropping the first character. */
  lemma NoOccurrenceAfterFirst(a: string, rest: string, target: string)
    requires |a| > 0
    requires forall i | 0 <= i < |a| :: !OccursAt(a + rest, target, i)
    ensures forall i | 0 <= i < |a[1..]| :: !OccursAt(a[1..] + rest, target, i)
  {
    var s := a + rest;
    var s' := a[1..] + rest;
    forall i | 0 <= i < |a[1..]|
      ensures !OccursAt(s', target, i)
    {
      assert !OccursAt(s, target, i + 1);
      if i + |target| <= |s'| {
        assert s'[i..i + |target|] == s[i + 1..i + 1 + |target|];
      }
    }
  }

  /** Removing a suffix that occurs nowhere earlier gives the stem back. */
  lemma RemoveSuffix(stem: string, suffix: string)
    requires |suffix| > 0
    requires suffix[0] !in stem
    ensures Replace(stem + suffix, suffix, "") == stem
  {
    forall i | 0 <= i < |stem|
      ensures !OccursAt(stem + suffix, suffix, i)
    {
      assert (stem + suffix)[i] == stem[i];
    }
    ReplacePrefix(stem, suffix, suffix, "");
    assert suffix[|suffix|..] == [];
    assert Replace(suffix, suffix, "") == "" + Replace(suffix[|suffix|..], suffix, "");
    assert stem + "" == stem;
  }

  // ------------------------------------------------------------------
  // strip
  // ------------------------------------------------------------------

  predicate IsBlank(s: string) {
    forall i | 0 <= i < |s| :: IsSpace(s[i])
  }

  function TrimStart(s: string): (r: string)
    ensures |r| <= |s| && r == s[|s| - |r|..]
    ensures forall i | 0 <= i < |s| - |r| :: IsSpace(s[i])
    ensures |r| == 0 || !IsSpace(r[0])
    decreases |s|
  {
    if |s| > 0 && IsSpace(s[0]) then TrimStart(s[1..]) else s
  }

  function TrimEnd(s: string): (r: string)
    ensures |r| <= |s| && r == s[..|r|]
    ensures forall i | |r| <= i < |s| :: IsSpace(s[i])
    ensures |r| == 0 || !IsSpace(r[|r| - 1])
    decreases |s|
  {
    if |s| > 0 && IsSpace(s[|s| - 1]) then TrimEnd(s[..|s| - 1]) else s
  }

  /** `str.strip()`: the longest slice that neither starts nor ends with whitespace. */
  function Strip(s: string): (r: string)
    ensures |r| == 0 || (!IsSpace(r[0]) && !IsSpace(r[|r| - 1]))
    ensures r == "" <==> IsBlank(s)
  {
    var t := TrimStart(s);
    StripBlank(s, t);
    TrimEnd(t)
  }

  lemma StripBlank(s: string, t: string)
    requires t == TrimStart(s)
    ensures TrimEnd(t) == "" <==> IsBlank(s)
  {
    var off := |s| - |t|;
    assert forall i | off <= i < |s| :: s[i] == t[i - off];
    if |t| > 0 {
      assert t[0] == s[off];
    }
  }

  /** Stripping twice is stripping once. */
  lemma StripIdempotent(s: string)
    ensures Strip(Strip(s)) == Strip(s)
  {
    var r := Strip(s);
    assert TrimStart(r) == r;
  }

  // ------------------------------------------------------------------
  // splitlines
  // ------------------------------------------------------------------

  /** Length of the line break at `i` (0 when `s[i]` is not a break); `\r\n` is one break. */
  function BreakLen(s: string, i: nat): nat
    requires i < |s|
  {
    if s[i] == '\r' && i + 1 < |s| && s[i + 1] == '\n' then 2
    else if IsLineBreak(s[i]) then 1
    else 0
  }

  /** The first line break at or after `from`, or `|s|`. */
  function FirstBreak(s: string, from: nat): (i: nat)
    requires from <= |s|
    ensures from <= i <= |s|
    ensures i < |s| ==> IsLineBreak(s[i])
    ensures forall k | from <= k < i :: !IsLineBreak(s[k])
    decreases |s| - from
  {
    if from == |s| || IsLineBreak(s[from]) then from else FirstBreak(s, from + 1)
  }

  /** Length of the first line of a non-empty text, its terminator included. */
  function LineLen(s: string): (n: nat)
    requires |s| > 0
    ensures 0 < n <= |s|
  {
    var b := FirstBreak(s, 0);
    if b == |s| then b else b + BreakLen(s, b)
  }

  /** `s.splitlines(True)`: the lines with their terminators. */
  function SplitLinesKeepEnds(s: string): (lines: seq<string>)
    ensures forall k | 0 <= k < |lines| :: |lines[k]| > 0
    decreases |s|
  {
    if |s| == 0 then [] else
      var n := LineLen(s);
      [s[..n]] + SplitLinesKeepEnds(s[n..])
  }

  /** `s.splitlines()`: the lines without their terminators. */
  function SplitLines(s: string): (lines: seq<string>)
    ensures forall k, j | 0 <= k < |lines| && 0 <= j < |lines[k]| :: !IsLineBreak(lines[k][j])
    decreases |s|
  {
    if |s| == 0 then [] else
      var b := FirstBreak(s, 0);
      [s[..b]] + (if b == |s| then [] else SplitLines(s[b + BreakLen(s, b)..]))
  }

  /** Keeping the terminators loses nothing: the lines concatenate to the text. */
  lemma {:induction false} SplitLinesKeepEndsConcat(s: string)
    ensures Concat(SplitLinesKeepEnds(s)) == s
    decreases |s|
  {
    if |s| > 0 {
      var n := LineLen(s);
      SplitLinesKeepEndsConcat(s[n..]);
      assert ([s[..n]] + SplitLinesKeepEnds(s[n..]))[1..] == SplitLinesKeepEnds(s[n..]);
      assert s == s[..n] + s[n..];
    }
  }

  // ------------------------------------------------------------------
  // split() on whitespace, capitalize
  // ------------------------------------------------------------------

  /** The first whitespace at or after `from`, or `|t|`. */
  function WordEnd(t: string, from: nat): (e: nat)
    requires from <= |t|
    ensures from <= e <= |t|
    ensures e < |t| ==> IsSpace(t[e])
    ensures forall k | from <= k < e :: !IsSpace(t[k])
    decreases |t| - from
  {
    if from == |t| || IsSpace(t[from]) then from else WordEnd(t, from + 1)
  }

  predicate IsWord(w: string) {
    |w| > 0 && forall j | 0 <= j < |w| :: !IsSpace(w[j])
  }

  /** `s.split()`: the maximal runs of non-whitespace. */
  function Words(s: string): seq<string>
    decreases |s|
  {
    var t := TrimStart(s);
    if |t| == 0 then [] else
      var e := WordEnd(t, 0);
      [t[..e]] + Words(t[e..])
  }

  /** The run of non-whitespace at the start of a trimmed text is a word. */
  lemma FirstWordIsWord(t: string)
    requires |t| > 0 && !IsSpace(t[0])
    ensures IsWord(t[..WordEnd(t, 0)])
  {
    var e := WordEnd(t, 0);
    assert forall j | 0 <= j < e :: t[..e][j] == t[j];
  }

  /** A word in front of words gives words. */
  lemma WordThenWords(w: string, rest: seq<string>)
    requires IsWord(w) && forall k | 0 <= k < |rest| :: IsWord(rest[k])
    ensures forall k | 0 <= k < |[w] + rest| :: IsWord(([w] + rest)[k])
  {
    forall k | 0 <= k < |[w] + rest|
      ensures IsWord(([w] + rest)[k])
    {
      if k > 0 {
        assert ([w] + rest)[k] == rest[k - 1];
      }
    }
  }

  /** Each piece of `split()` is a word. */
  lemma {:induction false} WordsAreWords(s: string)
    ensures forall k | 0 <= k < |Words(s)| :: IsWord(Words(s)[k])
    decreases |s|
  {
    var t := TrimStart(s);
    if |t| > 0 {
      var e := WordEnd(t, 0);
      FirstWordIsWord(t);
      WordsAreWords(t[e..]);
      WordThenWords(t[..e], Words(t[e..]));
    }
  }

  /** Leading whitespace does not change the words. */
  lemma WordsSkipsSpace(c: char, s: string)
    requires IsSpace(c)
    ensures Words([c] + s) == Words(s)
  {
    assert ([c] + s)[1..] == s;
    assert TrimStart([c] + s) == TrimStart(s);
  }

  /** A word followed by whitespace, or by nothing, is the first word. */
  lemma WordsOfWordThen(w: string, s: string)
    requires IsWord(w)
    requires |s| == 0 || IsSpace(s[0])
    ensures Words(w + s) == [w] + Words(s)
  {
    var t := w + s;
    assert TrimStart(t) == t;
    var e := WordEnd(t, 0);
    assert forall k | 0 <= k < |w| :: t[k] == w[k];
    assert |s| > 0 ==> t[|w|] == s[0];
    assert e == |w|;
    assert t[..e] == w;
    assert t[e..] == s;
  }

  lemma WordsOfWord(w: string)
    requires IsWord(w)
    ensures Words(w) == [w]
  {
    assert TrimStart(w) == w;
    assert WordEnd(w, 0) == |w|;
    assert w[..|w|] == w;
    assert TrimStart(w[|w|..]) == w[|w|..];
  }

  /** A word, a space and a text whose words are known. */
  lemma WordsOfWordSpaceThen(w: string, rest: string, tail: seq<string>)
    requires IsWord(w) && Words(rest) == tail
    ensures Words(w + ([' '] + rest)) == [w] + tail
  {
    WordsSkipsSpace(' ', rest);
    WordsOfWordThen(w, [' '] + rest);
  }

  /** Joining one more word in front adds it in front of the words. */
  lemma WordsOfJoinCons(ws: seq<string>)
    requires |ws| > 1 && IsWord(ws[0])
    requires Words(Join(ws[1..], " ")) == ws[1..]
    ensures Words(Join(ws, " ")) == ws
  {
    var tail := ws[1..];
    JoinCons(ws, " ");
    WordsOfWordSpaceThen(ws[0], Join(tail, " "), tail);
    assert ws == [ws[0]] + tail;
  }

  /** `" ".join(ws).split() == ws` for words `ws`. */
  lemma {:induction false} WordsOfJoin(ws: seq<string>)
    requires forall k | 0 <= k < |ws| :: IsWord(ws[k])
    ensures Words(Join(ws, " ")) == ws
    decreases |ws|
  {
    if |ws| == 1 {
      WordsOfWord(ws[0]);
    } else if |ws| > 1 {
      WordsOfJoin(ws[1..]);
      WordsOfJoinCons(ws);
    }
  }

  /** `str.capitalize()`: first letter upper-case, the rest lower-case. */
  function Capitalize(w: string): string {
    if |w| == 0 then "" else [UpperChar(w[0])] + Lower(w[1..])
  }

  // ------------------------------------------------------------------
  // Decimal rendering of naturals, `str(n)`
  // ------------------------------------------------------------------

  function DigitChar(d: nat): char
    requires d < 10
  {
    ('0' as int + d) as char
  }

  function Decimal(n: nat): (s: string)
    ensures |s| > 0
    ensures forall i | 0 <= i < |s| :: IsDigit(s[i])
  {
    if n < 10 then [DigitChar(n)] else Decimal(n / 10) + [DigitChar(n % 10)]
  }

  function ParseDecimal(s: string): nat
    requires forall i | 0 <= i < |s| :: IsDigit(s[i])
  {
    if |s| == 0 then 0
    else
      assert IsDigit(s[|s| - 1]);
      ParseDecimal(s[..|s| - 1]) * 10 + (s[|s| - 1] as int - '0' as int)
  }

  /** Reading back a rendered natural gives the natural. */
  lemma {:induction false} DecimalRoundTrip(n: nat)
    ensures ParseDecimal(Decimal(n)) == n
  {
    if n >= 10 {
      var s := Decimal(n);
      assert s[..|s| - 1] == Decimal(n / 10);
      DecimalRoundTrip(n / 10);
    }
  }

  /** Distinct naturals render differently. */
  lemma DecimalInjective(m: nat, n: nat)
    requires Decimal(m) == Decimal(n)
    ensures m == n
  {
    DecimalRoundTrip(m);
    DecimalRoundTrip(n);
  }

  // ------------------------------------------------------------------
  // Code-point order and `sorted(set(...))`
  // ------------------------------------------------------------------

  /** Python's `<` on `str`: lexicographic by code point, a proper prefix first. */
  predicate LexLess(a: string, b: string)
    decreases |a|
  {
    if |a| == 0 then |b| > 0
    else if |b| == 0 then false
    else if a[0] != b[0] then a[0] < b[0]
    else LexLess(a[1..], b[1..])
  }

  lemma {:induction false} LexLessIrreflexive(a: string)
    ensures !LexLess(a, a)
    decreases |a|
  {
    if |a| > 0 {
      LexLessIrreflexive(a[1..]);
    }
  }

  lemma {:induction false} LexLessTransitive(a: string, b: string, c: string)
    requires LexLess(a, b) && LexLess(b, c)
    ensures LexLess(a, c)
    decreases |a|
  {
    if |a| > 0 && |b| > 0 && |c| > 0 && a[0] == b[0] && b[0] == c[0] {
      LexLessTransitive(a[1..], b[1..], c[1..]);
    }
  }

  lemma {:induction false} LexLessTotal(a: string, b: string)
    requires a != b
    ensures LexLess(a, b) || LexLess(b, a)
    decreases |a|
  {
    if |a| > 0 && |b| > 0 && a[0] == b[0] {
      assert a == [a[0]] + a[1..] && b == [b[0]] + b[1..];
      LexLessTotal(a[1..], b[1..]);
    }
  }

  predicate StrictlySorted(s: seq<string>) {
    forall i, j | 0 <= i < j < |s| :: LexLess(s[i], s[j])
  }

  /** Inserts `x` into a strictly sorted sequence unless it is already there. */
  function InsertSorted(x: string, s: seq<string>): (r: seq<string>)
    requires StrictlySorted(s)
    ensures StrictlySorted(r)
    ensures forall y :: y in r <==> y == x || y in s
    decreases |s|
  {
    if |s| == 0 then [x]
    else if x == s[0] then s
    else if LexLess(x, s[0]) then
      InsertBeforeHead(x, s);
      [x] + s
    else
      LexLessTotal(x, s[0]);
      var rest := InsertSorted(x, s[1..]);
      HeadBelowRest(s, x, rest);
      [s[0]] + rest
  }

  lemma InsertBeforeHead(x: string, s: seq<string>)
    requires StrictlySorted(s) && |s| > 0 && LexLess(x, s[0])
    ensures StrictlySorted([x] + s)
  {
    forall j | 1 <= j < |s| {
      LexLessTransitive(x, s[0], s[j]);
    }
  }

  lemma HeadBelowRest(s: seq<string>, x: string, rest: seq<string>)
    requires StrictlySorted(s) && |s| > 0 && LexLess(s[0], x)
    requires StrictlySorted(rest)
    requires forall y :: y in rest <==> y == x || y in s[1..]
    ensures StrictlySorted([s[0]] + rest)
  {
    forall j | 0 <= j < |rest|
      ensures LexLess(s[0], rest[j])
    {
      assert rest[j] in rest;
      if rest[j] != x {
        var k :| 0 <= k < |s[1..]| && s[1..][k] == rest[j];
        assert s[k + 1] == rest[j];
      }
    }
  }

  /** `sorted(set(xs))`: the distinct elements in increasing order. */
  function SortedDistinct(xs: seq<string>): (r: seq<string>)
    ensures StrictlySorted(r)
    ensures forall y :: y in r <==> y in xs
  {
    if |xs| == 0 then []
    else
      var rest := SortedDistinct(xs[1..]);
      assert forall y :: y in xs <==> y == xs[0] || y in xs[1..];
      InsertSorted(xs[0], rest)
  }
}

=== FILE: tools.dfy ===
/** The in-memory order table and its lookup tool (app/graph/tools.py). */
module OrderTools {
  import opened Wrappers
  import opened Schema

  /** The module-level `ORDERS` list the lookup tool scans. */
  datatype OrderTable = OrderTable(orders: seq<Order>)

  /** The table before anything is loaded. */
  const InitialTable: OrderTable := OrderTable([])

  /** `load_orders`: the loaded list replaces the whole table. */
  function LoadOrders(table: OrderTable, data: seq<Order>): (t: OrderTable)
    ensures t.orders == data
  {
    OrderTable(data)
  }

  /** Index of the first order whose id is exactly `id`, or `|orders|`. */
  function FirstOrderIndex(orders: seq<Order>, id: string): (k: nat)
    ensures k <= |orders|
    ensures forall j | 0 <= j < k :: orders[j].orderId != id
    ensures k < |orders| ==> orders[k].orderId == id
  {
    if |orders| == 0 then 0
    else if orders[0].orderId == id then 0
    else 1 + FirstOrderIndex(orders[1..], id)
  }

  /** `fetch_order`: the first order whose id equals `id` (case-sensitive), or `None`. */
  function FetchOrder(table: OrderTable, id: string): (r: Option<Order>)
    ensures r.None? <==> forall j | 0 <= j < |table.orders| :: table.orders[j].orderId != id
    ensures r.Some? ==> exists k | 0 <= k < |table.orders| ::
      table.orders[k] == r.value && r.value.orderId == id
      && forall j | 0 <= j < k :: table.orders[j].orderId != id
  {
    var k := FirstOrderIndex(table.orders, id);
    if k < |table.orders| then Some(table.orders[k]) else None
  }

  /** Before any load every lookup misses. */
  lemma LookupBeforeLoadMisses(id: string)
    ensures FetchOrder(InitialTable, id) == None
  {
  }

  /** After a load only the loaded orders can be found; what was there before is gone. */
  lemma LoadReplacesTable(prev: OrderTable, data: seq<Order>, o: Order)
    requires o in prev.orders
    requires forall j | 0 <= j < |data| :: data[j].orderId != o.orderId
    ensures FetchOrder(LoadOrders(prev, data), o.orderId) == None
  {
  }
}

=== FILE: workflow.dfy ===
/**
 * The triage graph of app/graph/workflow.py: its nodes, the four routing
 * functions, the edge table, and a walk that runs node after node until it
 * reaches the end or is about to run a node in the interrupt set.
 *
 * The walk is generic in the state type: a graph supplies the step of every
 * node and the view of the state the routers read. The nodes whose bodies
 * are not part of this model (`resolve_order`, `prepare_action`,
 * `kb_orchestrator`, `policy_evaluator`, `finalize`) are thereby parameters.
 */
module Workflow {
  import opened Wrappers
  import opened Schema
  import opened TriageState

  datatype Node =
    | Ingest | ClassifyIssue | ResolveOrder | PrepareAction | KbOrchestrator
    | PolicyEvaluator | DraftReply | AdminReview | Finalize | End

  /** The name a node is registered under; `End` is the graph library's end marker. */
  function NodeName(n: Node): string {
    match n
    case Ingest => "ingest"
    case ClassifyIssue => "classify_issue"
    case ResolveOrder => "resolve_order"
    case PrepareAction => "prepare_action"
    case KbOrchestrator => "kb_orchestrator"
    case PolicyEvaluator => "policy_evaluator"
    case DraftReply => "draft_reply"
    case AdminReview => "admin_review"
    case Finalize => "finalize"
    case End => "__end__"
  }

  /** Distinct nodes have distinct names. */
  lemma NodeNamesAreDistinct(m: Node, n: Node)
    ensures NodeName(m) == NodeName(n) ==> m == n
  {
  }

  /** The node that runs first. */
  const StartNode: Node := Ingest

  /**
   * The three state keys the routers read. `routePath` distinguishes a
   * missing key (the router's default applies) from a stored `None`.
   */
  datatype RouteView = RouteView(
    routePath: Slot<RoutePath>,
    scenario: Option<DraftScenario>,
    reviewStatus: Option<ReviewStatus>)

  // ------------------------------------------------------------------
  // Routers and their path maps
  // ------------------------------------------------------------------

  const IngestPathMap: map<string, Node> := map[
    "classify_issue" := ClassifyIssue, "resolve_order" := ResolveOrder, "draft_reply" := DraftReply]

  const RagPathMap: map<string, Node> := map[
    "kb_orchestrator" := KbOrchestrator, "draft_reply" := DraftReply]

  const DraftPathMap: map<string, Node> := map[
    "admin_review" := AdminReview, "finalize" := Finalize, "__end__" := End]

  /** Every key of every path map names the node it maps to. */
  lemma PathMapsAreNameFaithful()
    ensures forall name | name in IngestPathMap :: NodeName(IngestPathMap[name]) == name
    ensures forall name | name in RagPathMap :: NodeName(RagPathMap[name]) == name
    ensures forall name | name in DraftPathMap :: NodeName(DraftPathMap[name]) == name
  {
  }

  /** `route_after_ingest`: a missing route path counts as FULL, a stored `None` as neither. */
  function RouteAfterIngest(v: RouteView): (choice: string)
    ensures choice in IngestPathMap
    ensures choice == "classify_issue" <==> v.routePath.Missing? || v.routePath == Has(Full) || v.routePath == Has(Reclassify)
    ensures choice == "resolve_order" <==> v.routePath == Has(Resolve)
    ensures choice == "draft_reply" <==> v.routePath.Null? || v.routePath == Has(Draft)
  {
    var routePath := if v.routePath.Missing? then Has(Full) else v.routePath;
    if routePath == Has(Full) || routePath == Has(Reclassify) then "classify_issue"
    else if routePath == Has(Resolve) then "resolve_order"
    else
      assert routePath.Null? || routePath.value.Draft?;
      "draft_reply"
  }

  /** `route_after_draft`: only a REPLY goes on, to review unless a verdict is already recorded. */
  function RouteAfterDraft(v: RouteView): (choice: string)
    ensures choice in DraftPathMap
    ensures choice == "finalize" <==> v.scenario == Some(Reply) && (v.reviewStatus == Some(Approved) || v.reviewStatus == Some(Rejected))
    ensures choice == "admin_review" <==> v.scenario == Some(Reply) && v.reviewStatus != Some(Approved) && v.reviewStatus != Some(Rejected)
    ensures choice == "__end__" <==> v.scenario != Some(Reply)
  {
    if v.scenario == Some(Reply) then
      if v.reviewStatus == Some(Approved) || v.reviewStatus == Some(Rejected) then "finalize" else "admin_review"
    else "__end__"
  }

  /** `route_to_rag`: policy retrieval runs exactly for REPLY. */
  function RouteToRag(v: RouteView): (choice: string)
    ensures choice in RagPathMap
    ensures choice == "kb_orchestrator" <==> v.scenario == Some(Reply)
    ensures choice == "draft_reply" <==> v.scenario != Some(Reply)
  {
    if v.scenario == Some(Reply) then "kb_orchestrator" else "draft_reply"
  }

  /** `route_after_admin_review` (defined, but the graph wires a plain edge instead). */
  function RouteAfterAdminReview(v: RouteView): (choice: string)
    ensures choice in DraftPathMap || choice in IngestPathMap
  {
    "draft_reply"
  }

  // ------------------------------------------------------------------
  // The edge table
  // ------------------------------------------------------------------

  /**
   * The edge table as `compile_graph` wires it: plain edges, and for the
   * three conditional edges the router's answer looked up in its path map.
   */
  function EdgeTable(n: Node, v: RouteView): Node {
    match n
    case Ingest => IngestPathMap[RouteAfterIngest(v)]
    case ClassifyIssue => ResolveOrder
    case ResolveOrder => PrepareAction
    case PrepareAction => RagPathMap[RouteToRag(v)]
    case KbOrchestrator => PolicyEvaluator
    case PolicyEvaluator => DraftReply
    case DraftReply => DraftPathMap[RouteAfterDraft(v)]
    case AdminReview => DraftReply
    case Finalize => End
    case End => End
  }

  /**
   * The successor of `n`, given the view of the state `n` has just produced,
   * decided on the view directly; the walk below uses this form.
   */
  function Next(n: Node, v: RouteView): Node {
    match n
    case Ingest =>
      if v.routePath.Missing? || v.routePath == Has(Full) || v.routePath == Has(Reclassify) then ClassifyIssue
      else if v.routePath == Has(Resolve) then ResolveOrder
      else DraftReply
    case ClassifyIssue => ResolveOrder
    case ResolveOrder => PrepareAction
    case PrepareAction => if v.scenario == Some(Reply) then KbOrchestrator else DraftReply
    case KbOrchestrator => PolicyEvaluator
    case PolicyEvaluator => DraftReply
    case DraftReply =>
      if v.scenario != Some(Reply) then End
      else if v.reviewStatus == Some(Approved) || v.reviewStatus == Some(Rejected) then Finalize
      else AdminReview
    case AdminReview => DraftReply
    case Finalize => End
    case End => End
  }

  /** Routing through the routers' names and path maps picks the same successor as `Next`. */
  lemma EdgeTableIsNext(n: Node, v: RouteView)
    ensures EdgeTable(n, v) == Next(n, v)
  {
  }

  /** Nodes with a plain edge have the same successor whatever the state. */
  lemma StaticEdgesIgnoreState(n: Node, v1: RouteView, v2: RouteView)
    requires n !in {Ingest, PrepareAction, DraftReply}
    ensures Next(n, v1) == Next(n, v2)
    ensures n == ClassifyIssue ==> Next(n, v1) == ResolveOrder
    ensures n == ResolveOrder ==> Next(n, v1) == PrepareAction
    ensures n == KbOrchestrator ==> Next(n, v1) == PolicyEvaluator
    ensures n == PolicyEvaluator ==> Next(n, v1) == DraftReply
    ensures n == Finalize ==> Next(n, v1) == End
  {
  }

  /** The unused router agrees with the edge wired out of `admin_review`. */
  lemma AdminReviewRouterMatchesEdge(v: RouteView)
    ensures NodeName(EdgeTable(AdminReview, v)) == RouteAfterAdminReview(v)
  {
  }

  /** Review is reached only from a REPLY draft that carries no verdict yet. */
  lemma OnlyDraftLeadsToAdminReview(n: Node, v: RouteView)
    ensures Next(n, v) == AdminReview <==>
      n == DraftReply && v.scenario == Some(Reply) && v.reviewStatus != Some(Approved) && v.reviewStatus != Some(Rejected)
  {
  }

  /** Only the end marker has no real successor; every other node moves to a different node. */
  lemma NoSelfLoops(n: Node, v: RouteView)
    ensures Next(n, v) == n <==> n == End
  {
  }

  // ------------------------------------------------------------------
  // The walk
  // ------------------------------------------------------------------

  /** A graph over states of type `S`: the update every node applies, and the view the routers read. */
  datatype Graph<!S> = Graph(view: S -> RouteView, step: (Node, S) -> S)

  /** How a run stops; `trace` lists the nodes that ran, in order. */
  datatype Outcome<S> =
    | Finished(state: S, trace: seq<Node>)
    | Suspended(state: S, pending: Node, trace: seq<Node>)
    | OutOfFuel(state: S, at: Node, trace: seq<Node>)

  function Prepend<S>(n: Node, o: Outcome<S>): Outcome<S> {
    o.(trace := [n] + o.trace)
  }

  /** `compile_graph`'s interrupt list: none unless one is given. */
  function CompileInterrupts(interruptBefore: Option<set<Node>>): (interrupts: set<Node>)
    ensures interruptBefore.None? ==> interrupts == {}
    ensures interruptBefore.Some? ==> interrupts == interruptBefore.value
  {
    interruptBefore.GetOr({})
  }

  /** The interrupt set the service compiles its graph with. */
  const HitlInterrupts: set<Node> := {AdminReview}

  /**
   * Runs `at` and its successors. Before a successor in `interrupts` runs,
   * the walk stops and reports it as pending; the node a run starts at is
   * not checked, which is how a resumed run gets past its interrupt.
   */
  function Run<S>(g: Graph<S>, interrupts: set<Node>, at: Node, s: S, fuel: nat): (r: Outcome<S>)
    ensures |r.trace| <= fuel
    ensures at == End ==> r == Finished(s, [])
    ensures at != End && fuel > 0 ==> |r.trace| > 0 && r.trace[0] == at
    ensures End !in r.trace
    ensures r.OutOfFuel? ==> r.at != End
    decreases fuel
  {
    if at == End then Finished(s, [])
    else if fuel == 0 then OutOfFuel(s, at, [])
    else
      var s' := g.step(at, s);
      var next := Next(at, g.view(s'));
      if next != End && next in interrupts then Suspended(s', next, [at])
      else Prepend(at, Run(g, interrupts, next, s', fuel - 1))
  }

  /** A fresh invocation: the start node itself can be interrupted. */
  function Invoke<S>(g: Graph<S>, interrupts: set<Node>, s: S, fuel: nat): (r: Outcome<S>)
    ensures StartNode in interrupts ==> r == Suspended(s, StartNode, [])
    ensures StartNode !in interrupts && fuel > 0 ==> |r.trace| > 0 && r.trace[0] == StartNode
  {
    if StartNode in interrupts then Suspended(s, StartNode, []) else Run(g, interrupts, StartNode, s, fuel)
  }

  /**
   * Resuming after an external patch: a suspended run continues with its
   * pending node on the patched state; any other run just stores the patch.
   */
  function Resume<S>(g: Graph<S>, interrupts: set<Node>, o: Outcome<S>, patch: S -> S, fuel: nat): (r: Outcome<S>)
    ensures o.Suspended? && o.pending != End && fuel > 0 ==> |r.trace| > 0 && r.trace[0] == o.pending
    ensures !o.Suspended? ==> r == Finished(patch(o.state), [])
  {
    if o.Suspended? then Run(g, interrupts, o.pending, patch(o.state), fuel)
    else Finished(patch(o.state), [])
  }

  /** A node whose successor is not interrupted runs and hands over to it. */
  lemma RunThrough<S>(g: Graph<S>, interrupts: set<Node>, at: Node, s: S, fuel: nat, final: S, t: seq<Node>)
    requires at != End && fuel > 0
    requires var s' := g.step(at, s);
      var next := Next(at, g.view(s'));
      (next == End || next !in interrupts) && Run(g, interrupts, next, s', fuel - 1) == Finished(final, t)
    ensures Run(g, interrupts, at, s, fuel) == Finished(final, [at] + t)
  {
  }

  /** Putting a node in front of a non-empty trace keeps its last node, the state and the pending node. */
  lemma PrependKeepsEnd<S>(n: Node, o: Outcome<S>)
    requires |o.trace| > 0
    ensures var p := Prepend(n, o);
      p.state == o.state && p.Suspended? == o.Suspended? && p.Finished? == o.Finished?
      && (o.Suspended? ==> p.pending == o.pending)
      && |p.trace| > 0 && p.trace[|p.trace| - 1] == o.trace[|o.trace| - 1]
  {
    assert Prepend(n, o).trace == [n] + o.trace;
  }

  /** A run passes no interrupted node after its first. */
  lemma {:induction false} RunSkipsInterrupts<S>(g: Graph<S>, interrupts: set<Node>, at: Node, s: S, fuel: nat, i: nat)
    requires 1 <= i < |Run(g, interrupts, at, s, fuel).trace|
    ensures Run(g, interrupts, at, s, fuel).trace[i] !in interrupts
    decreases fuel
  {
    var s' := g.step(at, s);
    var next := Next(at, g.view(s'));
    var rest := Run(g, interrupts, next, s', fuel - 1);
    assert Run(g, interrupts, at, s, fuel).trace == [at] + rest.trace;
    if i == 1 {
      assert rest.trace[0] == next;
    } else {
      RunSkipsInterrupts(g, interrupts, next, s', fuel - 1, i - 1);
    }
  }

  /** A run suspends only before an interrupted successor of the last node it ran. */
  lemma {:induction false} RunSuspendsByRoute<S>(g: Graph<S>, interrupts: set<Node>, at: Node, s: S, fuel: nat)
    requires Run(g, interrupts, at, s, fuel).Suspended?
    ensures var r := Run(g, interrupts, at, s, fuel);
      r.pending in interrupts && r.pending != End && |r.trace| > 0
      && Next(r.trace[|r.trace| - 1], g.view(r.state)) == r.pending
    decreases fuel
  {
    var s' := g.step(at, s);
    var next := Next(at, g.view(s'));
    if !(next != End && next in interrupts) {
      var rest := Run(g, interrupts, next, s', fuel - 1);
      RunSuspendsByRoute(g, interrupts, next, s', fuel - 1);
      assert Run(g, interrupts, at, s, fuel) == Prepend(at, rest);
      PrependKeepsEnd(at, rest);
    } else {
      assert Run(g, interrupts, at, s, fuel) == Suspended(s', next, [at]);
    }
  }

  /** A run that finishes after running a node finishes because that node routes to the end. */
  lemma {:induction false} RunFinishesByRoute<S>(g: Graph<S>, interrupts: set<Node>, at: Node, s: S, fuel: nat)
    requires Run(g, interrupts, at, s, fuel).Finished? && |Run(g, interrupts, at, s, fuel).trace| > 0
    ensures var r := Run(g, interrupts, at, s, fuel);
      Next(r.trace[|r.trace| - 1], g.view(r.state)) == End
    decreases fuel
  {
    var s' := g.step(at, s);
    var next := Next(at, g.view(s'));
    var rest := Run(g, interrupts, next, s', fuel - 1);
    assert Run(g, interrupts, at, s, fuel) == Prepend(at, rest);
    if |rest.trace| == 0 {
      assert next == End;
    } else {
      RunFinishesByRoute(g, interrupts, next, s', fuel - 1);
      PrependKeepsEnd(at, rest);
    }
  }

  /** With no interrupt list a run never suspends. */
  lemma {:induction false} NoInterruptsNeverSuspend<S>(g: Graph<S>, at: Node, s: S, fuel: nat)
    ensures !Run(g, CompileInterrupts(None), at, s, fuel).Suspended?
    decreases fuel
  {
    if at != End && fuel > 0 {
      var s' := g.step(at, s);
      NoInterruptsNeverSuspend(g, Next(at, g.view(s')), s', fuel - 1);
    }
  }

  /** Under the service's interrupt set a run halts only right after a REPLY draft that awaits review. */
  lemma HitlSuspendsOnlyAfterPendingDraft<S>(g: Graph<S>, at: Node, s: S, fuel: nat)
    ensures var r := Run(g, HitlInterrupts, at, s, fuel);
      r.Suspended? ==>
        r.pending == AdminReview && r.trace[|r.trace| - 1] == DraftReply
        && g.view(r.state).scenario == Some(Reply)
        && g.view(r.state).reviewStatus != Some(Approved) && g.view(r.state).reviewStatus != Some(Rejected)
    ensures forall i | 1 <= i < |Run(g, HitlInterrupts, at, s, fuel).trace| ::
      Run(g, HitlInterrupts, at, s, fuel).trace[i] != AdminReview
  {
    var r := Run(g, HitlInterrupts, at, s, fuel);
    if r.Suspended? {
      RunSuspendsByRoute(g, HitlInterrupts, at, s, fuel);
      OnlyDraftLeadsToAdminReview(r.trace[|r.trace| - 1], g.view(r.state));
    }
    forall i | 1 <= i < |r.trace| {
      RunSkipsInterrupts(g, HitlInterrupts, at, s, fuel, i);
    }
  }

  /**
   * Resuming at review after an injected APPROVED or REJECTED runs review,
   * the draft and finalize, then ends, provided review and the draft leave
   * the scenario and the verdict as they found them.
   */
  lemma ResumeWithVerdictFinalizes<S>(g: Graph<S>, interrupts: set<Node>, o: Outcome<S>, patch: S -> S, fuel: nat)
    requires o.Suspended? && o.pending == AdminReview
    requires DraftReply !in interrupts && Finalize !in interrupts
    requires fuel >= 3
    requires var p := patch(o.state);
      g.view(p).scenario == Some(Reply)
      && (g.view(p).reviewStatus == Some(Approved) || g.view(p).reviewStatus == Some(Rejected))
    requires var s1 := g.step(AdminReview, patch(o.state));
      g.view(s1) == g.view(patch(o.state))
      && g.view(g.step(DraftReply, s1)).scenario == g.view(s1).scenario
      && g.view(g.step(DraftReply, s1)).reviewStatus == g.view(s1).reviewStatus
    ensures var s1 := g.step(AdminReview, patch(o.state));
      var s2 := g.step(DraftReply, s1);
      Resume(g, interrupts, o, patch, fuel) == Finished(g.step(Finalize, s2), [AdminReview, DraftReply, Finalize])
  {
    var s1 := g.step(AdminReview, patch(o.state));
    var s2 := g.step(DraftReply, s1);
    var s3 := g.step(Finalize, s2);
    assert Next(AdminReview, g.view(s1)) == DraftReply;
    assert Next(DraftReply, g.view(s2)) == Finalize;
    assert Run(g, interrupts, End, s3, fuel - 3) == Finished(s3, []);
    assert Run(g, interrupts, Finalize, s2, fuel - 2) == Finished(s3, [Finalize]);
    assert Run(g, interrupts, DraftReply, s1, fuel - 1) == Finished(s3, [DraftReply, Finalize]);
  }

  /**
   * If the draft step records PENDING again (as the draft node of
   * app/graph/nodes.py does), a resumed REPLY run stops before review once more.
   */
  lemma ResumeWithPendingDraftSuspendsAgain<S>(g: Graph<S>, o: Outcome<S>, patch: S -> S, fuel: nat)
    requires o.Suspended? && o.pending == AdminReview
    requires fuel >= 2
    requires var s2 := g.step(DraftReply, g.step(AdminReview, patch(o.state)));
      g.view(s2).scenario == Some(Reply) && g.view(s2).reviewStatus == Some(Pending)
    ensures var s2 := g.step(DraftReply, g.step(AdminReview, patch(o.state)));
      Resume(g, HitlInterrupts, o, patch, fuel) == Suspended(s2, AdminReview, [AdminReview, DraftReply])
  {
    var s1 := g.step(AdminReview, patch(o.state));
    var s2 := g.step(DraftReply, s1);
    assert Next(AdminReview, g.view(s1)) == DraftReply;
    assert Next(DraftReply, g.view(s2)) == AdminReview;
    assert Run(g, HitlInterrupts, DraftReply, s1, fuel - 1) == Suspended(s2, AdminReview, [DraftReply]);
  }

  // ------------------------------------------------------------------
  // The graph over the declared state
  // ------------------------------------------------------------------

  /**
   * What the routers see in a `GraphState`: `route_path` and
   * `draft_scenario` are not declared channels, so they are never stored.
   */
  function DeclaredView(s: GraphState): (v: RouteView)
    ensures v.routePath.Missing? && v.scenario.None?
    ensures v.reviewStatus == s.reviewStatus
  {
    RouteView(Missing, None, s.reviewStatus)
  }

  /**
   * Over the declared state the intake goes on to classification, the
   * action straight to the draft, and the draft to the end.
   */
  lemma DeclaredRoutes(s: GraphState)
    ensures Next(Ingest, DeclaredView(s)) == ClassifyIssue
    ensures Next(PrepareAction, DeclaredView(s)) == DraftReply
    ensures Next(DraftReply, DeclaredView(s)) == End
  {
  }

  /** The service's graph over the declared state, with the nodes' effects as `step`. */
  function DeclaredGraph(step: (Node, GraphState) -> GraphState): Graph<GraphState> {
    Graph(DeclaredView, step)
  }

  /** Over the declared state the draft is the last node. */
  lemma DeclaredDraftEnds(step: (Node, GraphState) -> GraphState, s: GraphState, fuel: nat)
    requires fuel >= 1
    ensures Run(DeclaredGraph(step), HitlInterrupts, DraftReply, s, fuel)
      == Finished(step(DraftReply, s), [DraftReply])
  {
    DeclaredRoutes(step(DraftReply, s));
    RunThrough(DeclaredGraph(step), HitlInterrupts, DraftReply, s, fuel, step(DraftReply, s), []);
  }

  /** Over the declared state the action goes straight to the draft. */
  lemma DeclaredActionThenDraft(step: (Node, GraphState) -> GraphState, s: GraphState, fuel: nat)
    requires fuel >= 2
    ensures var s' := step(PrepareAction, s);
      Run(DeclaredGraph(step), HitlInterrupts, PrepareAction, s, fuel)
      == Finished(step(DraftReply, s'), [PrepareAction, DraftReply])
  {
    var s' := step(PrepareAction, s);
    DeclaredRoutes(s');
    DeclaredDraftEnds(step, s', fuel - 1);
    RunThrough(DeclaredGraph(step), HitlInterrupts, PrepareAction, s, fuel, step(DraftReply, s'), [DraftReply]);
  }

  /**
   * Over the declared state every run takes the full path and ends after
   * the draft: retrieval, review and finalize are never reached.
   */
  lemma DeclaredStateSkipsReview(step: (Node, GraphState) -> GraphState, s: GraphState, fuel: nat)
    requires fuel >= 5
    ensures Invoke(DeclaredGraph(step), HitlInterrupts, s, fuel).Finished?
    ensures Invoke(DeclaredGraph(step), HitlInterrupts, s, fuel).trace
      == [Ingest, ClassifyIssue, ResolveOrder, PrepareAction, DraftReply]
    ensures Invoke(DeclaredGraph(step), HitlInterrupts, s, fuel).state
      == step(DraftReply, step(PrepareAction, step(ResolveOrder, step(ClassifyIssue, step(Ingest, s)))))
  {
    var g := DeclaredGraph(step);
    var s1 := step(Ingest, s);
    var s2 := step(ClassifyIssue, s1);
    var s3 := step(ResolveOrder, s2);
    var s5 := step(DraftReply, step(PrepareAction, s3));
    DeclaredRoutes(s1);
    DeclaredActionThenDraft(step, s3, fuel - 3);
    RunThrough(g, HitlInterrupts, ResolveOrder, s2, fuel - 2, s5, [PrepareAction, DraftReply]);
    RunThrough(g, HitlInterrupts, ClassifyIssue, s1, fuel - 1, s5, [ResolveOrder, PrepareAction, DraftReply]);
    RunThrough(g, HitlInterrupts, Ingest, s, fuel, s5, [ClassifyIssue, ResolveOrder, PrepareAction, DraftReply]);
  }
}

=== FILE: wrappers.dfy ===
/** Failure-compatible wrappers shared by every module of the model. */
module Wrappers {

  /** A value that may be absent; Python's `None` or a missing key. */
  datatype Option<+T> = None | Some(value: T) {

    /** Returns the wrapped value, or `default` when absent. */
    function GetOr(default: T): T {
      match this
      case Some(v) => v
      case None => default
    }
  }

  /** The outcome of an operation that can raise: a value or an error. */
  datatype Result<+T, +E> = Ok(value: T) | Err(error: E) {

    predicate IsFailure() {
      Err?
    }
  }

  /**
   * The three ways a Python `dict.get` can see a key: not there at all,
   * present with `None`, or present with a value. The distinction matters
   * where `.get(key, default)` is used, because the default applies only
   * when the key is missing.
   */
  datatype Slot<+T> = Missing | Null | Has(value: T)

  /** Python truthiness of an optional string: present and non-empty. */
  predicate Truthy(o: Option<string>) {
    o.Some? && o.value != ""
  }

  /**
   * Python's `o or fallback` for an optional string: a missing or empty
   * value gives way to the fallback, so a non-empty fallback makes a
   * non-empty result.
   */
  function OrElse(o: Option<string>, fallback: string): (r: string)
    ensures Truthy(o) ==> r == o.value
    ensures !Truthy(o) ==> r == fallback
    ensures fallback != "" ==> r != ""
  {
    if Truthy(o) then o.value else fallback
  }

  /** How an f-string renders an optional string. */
  function PyStr(o: Option<string>): string {
    if o.Some? then o.value else "None"
  }
}
